=== FILE: README.md ===
# nomacs batch processing, modelled in Dafny

This project models the batch-processing core of the nomacs image viewer.

- The process chain and its steps: the resize, transform and plugin batches, their settings names, and how a step is created from its name.
- One input file, `DkBatchProcess`: the early exits, then copy or load-compute-save. An output that is being replaced is protected by a back-up that is deleted or restored afterwards, and the original can be deleted.
- The batch configuration (`DkBatchConfig`): its `isOk` check and its settings.
- The batch run (`DkBatchProcessing`): item initialisation, the run as a sequential fold, and the aggregates (failures, processed count, current results, result list, log, post-load calls).
- The profile helpers of `DkBatchProfile`.
- The dialog pages that build a configuration:
  - the input text box;
  - the file-name widgets and the output page, which turn the widgets into a file pattern and back;
  - the transform page;
  - the tab navigation;
  - `createBatchConfig`.
- The pixel helpers of `DkImage` the batch relies on: `addToImage`, `normImage`, `alphaChannelUsed`, `mapGammaTable`, `findHistPeak`, `makeSquare`, and `resizeImage` with the resampler as a parameter.

The file system is a map from paths to contents, together with a set of directories and a set of locked paths. Renaming and copying fail when the target exists, as `QFile::rename` and `QFile::copy` do.

Image operations, decoding, encoding, plugins and the back-up name are parameters. An image buffer is a list of scan lines, each made of its used bytes followed by padding. The code's pointer walk, which skips the padding at each line end, becomes a loop over the used columns of each row.

Modules, one file each:

- `wrappers.dfy`, `text.dfy`, `filesystem.dfy`, `settings_store.dfy`, `batch_log.dfy`: the option type, the string functions of `QString`, the file system, `QSettings` groups, and the log lines.
- `images.dfy`, `save_info.dfy`: images and containers, save options, batch infos.
- `batch_steps.dfy`: the three step kinds, with their settings and compute functions.
- `batch_process.dfy`, `batch_processing.dfy`, `batch_profile.dfy`: one input file, the whole batch, and the profiles.
- `filename_widget.dfy`, `batch_output.dfy`, `input_edit.dfy`, `transform_widget.dfy`, `batch_widget.dfy`: the dialog pages.
- `image_buffers.dfy`: the pixel helpers.


## Model

| member | source | states |
|---|---|---|
| BatchSteps.SettingsNameStripsName | ImageLounge/src/DkLoader/DkProcess.cpp:81-90 | the settings name of every step is its display name with brackets and spaces removed |
| BatchSteps.StripNameIdempotent | ImageLounge/src/DkLoader/DkProcess.cpp:81-90 | stripping a settings name a second time changes nothing |
| BatchSteps.StripBracketed | ImageLounge/src/DkLoader/DkProcess.cpp:81-90 | removing '[', ']' and ' ' from "[a b]" leaves a followed by b, when neither part holds those characters |
| BatchSteps.KindWordPlain | ImageLounge/src/DkLoader/DkProcess.cpp:121-124 | the kind word inside each display name ("Resize" in "[Resize Batch]") holds no bracket or space, and the settings name is that word followed by "Batch" |
| BatchSteps.CreateFromName | ImageLounge/src/DkLoader/DkProcess.cpp:92-113 | a created step is a default step whose settings name is the requested name; nothing is created exactly for unknown names, and for the plugin name when plugins are off |
| BatchSteps.PrepareProperties | ImageLounge/src/DkLoader/DkProcess.cpp:222-267 | the default mode hands on its scale factor with an invalid size; a side mode that resizes hands on factor 1 with the size it computed; a quotient with no value arises only in a side mode on an image of normalized width 0, where a positive length with decrease-only is skipped as an enlargement |
| BatchSteps.ResizeCompute | ImageLounge/src/DkLoader/DkProcess.cpp:189-220 | a failed resize keeps the image; a resize that changes the image gives a non-null one |
| BatchSteps.ResizeComputeUsesTarget | ImageLounge/src/DkLoader/DkProcess.cpp:189-220 | for an image the resampler can convert: with no target the image is kept; with one, the step succeeds exactly when resampling to the target gives a non-null image, and that image then replaces the input; the step fails exactly in the cases ResizeFails names |
| BatchSteps.SideModeSameSizeKeepsImage | ImageLounge/src/DkLoader/DkProcess.cpp:189-220 | a side mode whose prepared size is the image's own size keeps a non-null image, succeeds, and logs the requested length |
| BatchSteps.NearSideKeepsImage | ImageLounge/src/DkLoader/DkProcess.cpp:189-220 | a width of 100.3 requested for a 100 by 100 image keeps the image and succeeds, whatever the resampler would return |
| BatchSteps.NullImageSkippedByShrinkOnly | ImageLounge/src/DkLoader/DkProcess.cpp:189-267 | a positive length with decrease-only on an image of normalized width 0 is skipped as an enlargement and succeeds |
| BatchSteps.DefaultModeUnconvertibleAsksInvalidSize | ImageLounge/src/DkLoader/DkProcess.cpp:189-220 | in the default mode an image that cannot be converted is resampled to the invalid size -1 by -1 left by prepareProperties, and the step succeeds exactly when that gives a non-null image |
| BatchSteps.SideModeTargetIsPreparedSize | ImageLounge/src/DkLoader/DkProcess.cpp:189-220 | in a side mode the size resampled to is the prepared size, unless it is the image's own size or has a side below 1 |
| BatchSteps.DefaultModeTargetIsScaledSize | ImageLounge/src/DkLoader/DkProcess.cpp:189-220 | in the default mode the size resampled to is the image's size times the factor, rounded, unless a side comes out below 1 |
| BatchSteps.ScaledSizeBounds | ImageLounge/src/DkLoader/DkImageStorage.cpp:325-326 | scaling a size by a factor below 1 never enlarges a side, and by a factor above 1 never shrinks one |
| BatchSteps.ResizeSkips | ImageLounge/src/DkLoader/DkProcess.cpp:189-220 | a factor of 1 and a skipped size both succeed with the image unchanged |
| BatchSteps.ShrinkOnlyNeverEnlarges | ImageLounge/src/DkLoader/DkProcess.cpp:222-267 | with the decrease-only property, a size a side mode prepares is never larger than the image on either side |
| BatchSteps.EnlargeOnlyNeverShrinks | ImageLounge/src/DkLoader/DkProcess.cpp:222-267 | with the increase-only property, a size a side mode prepares is never smaller than the image on either side |
| BatchSteps.SideModeHitsRequestedLength | ImageLounge/src/DkLoader/DkProcess.cpp:222-267 | when a side mode prepares a size, the side the mode names (the longer or shorter one for those modes) gets the requested length rounded, and the other side gets the length over the named side times the other side, rounded |
| BatchSteps.TransformCompute | ImageLounge/src/DkLoader/DkProcess.cpp:326-369 | the transform keeps the crop rectangle, writes one log line and reports no infos; on success it yields the input or a non-null image |
| BatchSteps.TransformFailureKeepsCrop | ImageLounge/src/DkLoader/DkProcess.cpp:326-369 | a crop that gives a null image fails the step and leaves the null image in the container |
| BatchSteps.TransformReportsCropWithoutCropping | ImageLounge/src/DkLoader/DkProcess.cpp:326-369 | a flip without metadata cropping still logs "transformed and cropped" |
| BatchSteps.RunOnePlugin | ImageLounge/src/DkLoader/DkProcess.cpp:439-502 | each plugin keeps the container or yields an image; a batch plugin hands back exactly the info of its run, a batch plugin that cannot be cast hands back one null info, and any other plugin hands back none |
| BatchSteps.RunPluginsKeepsImage | ImageLounge/src/DkLoader/DkProcess.cpp:439-502 | a container that holds an image still holds one after every plugin |
| BatchSteps.PluginCompute | ImageLounge/src/DkLoader/DkProcess.cpp:439-502 | the step hands back the container handle it was given: the loop rebinds only its own copy of the handle |
| BatchSteps.PluginStepSucceedsOnImages | ImageLounge/src/DkLoader/DkProcess.cpp:439-502 | the plugin step succeeds on a container that holds an image |
| BatchSteps.LoadPlugin | ImageLounge/src/DkLoader/DkProcess.cpp:551-566 | a plugin that is not found has an empty run id |
| BatchSteps.LoadPluginOfActionString | ImageLounge/src/DkLoader/DkProcess.cpp:551-566 | "name \| action" is looked up by name, and the run id comes from the action |
| BatchSteps.LoadPluginRejectsPlainName | ImageLounge/src/DkLoader/DkProcess.cpp:551-566 | a string without the separator loads nothing |
| BatchSteps.LoadAllPlugins | ImageLounge/src/DkLoader/DkProcess.cpp:517-549 | the plugin list is kept, and earlier loaded plugins stay a prefix |
| BatchSteps.LoadAllPluginsAligned | ImageLounge/src/DkLoader/DkProcess.cpp:517-549 | from an empty state one plugin is loaded per list entry, in order, and loading again changes nothing |
| BatchSteps.LoadAllPluginsAppendsToStale | ImageLounge/src/DkLoader/DkProcess.cpp:517-549 | a stale, misaligned state is appended to rather than replaced |
| BatchSteps.PostLoadCalls | ImageLounge/src/DkLoader/DkProcess.cpp:416-437 | only loaded batch plugins are called, each with exactly the filtered infos of its own run id |
| BatchSteps.PostLoadCallsComplete | ImageLounge/src/DkLoader/DkProcess.cpp:416-437 | every loaded batch plugin is called, with the infos filtered to its run id |
| BatchSteps.StepCompute | ImageLounge/src/DkLoader/DkProcess.cpp:56-79 | no step changes the crop rectangle; a failing resize or plugin step keeps the container |
| BatchSteps.InactiveStepIsIdentity | ImageLounge/src/DkLoader/DkProcess.cpp:158-167 | an inactive step succeeds and leaves the container unchanged |
| BatchSteps.StepKeepsImage | ImageLounge/src/DkLoader/DkProcess.cpp:56-79 | a successful step on an image yields an image |
| BatchSteps.LoadStep | ImageLounge/src/DkLoader/DkProcess.cpp:394-408 | loading settings keeps the kind of step; a resize or transform step always loads, and a plugin step that loads holds no plugin whose batch interface is null: one that would be dereferenced fails the load |
| BatchSteps.PluginLoadOfList | ImageLounge/src/DkLoader/DkProcess.cpp:394-408 | a blank plugin step loaded from a list fails exactly when some entry of the list names no batch plugin |
| BatchSteps.ResizeSettingsRoundTrip | ImageLounge/src/DkLoader/DkProcess.cpp:135-156 | a saved resize step loads back equal, except that gamma correction is false |
| BatchSteps.ScaleFactorFromText | ImageLounge/src/DkLoader/DkProcess.cpp:147-156 | a scale factor stored as text is read as a decimal number |
| BatchSteps.TextScaleFactorLoads | ImageLounge/src/DkLoader/DkProcess.cpp:147-156 | a scale factor stored as the text " 0.5 ", as an INI file keeps it, loads as one half |
| Text.ToRealOfIntToString | ImageLounge/src/DkLoader/DkProcess.cpp:150 | a whole number written in decimal digits, as toFloat reads it, is that number |
| Text.NegativeFraction | ImageLounge/src/DkLoader/DkProcess.cpp:150 | "-2.25" reads as minus two and a quarter: the sign, the whole part and the fraction digits all count |
| BatchSteps.TransformSettingsRoundTrip | ImageLounge/src/DkLoader/DkProcess.cpp:285-303 | a saved transform step loads back equal |
| BatchSteps.PluginSettingsRoundTrip | ImageLounge/src/DkLoader/DkProcess.cpp:380-408 | a saved non-empty plugin list loads back exactly when every entry names a batch plugin, and then comes back with its plugins loaded |
| BatchSteps.EmptyPluginListFailsReload | ImageLounge/src/DkLoader/DkProcess.cpp:380-408 | an empty plugin list comes back as one blank name, which names no plugin, so loading it fails |
| BatchSteps.MissingPluginListKeepsOneEntry | ImageLounge/src/DkLoader/DkProcess.cpp:397 | without a stored list the current list is the default as one string: a one-entry list is kept, any other list becomes one blank name and fails to load |
| SettingsStore.AsIntOfText | ImageLounge/src/DkLoader/DkProcess.cpp:151-153 | text read as an int agrees with toInt where its 64-bit reading fits in 32 bits, and is always that reading modulo 2^32 |
| SettingsStore.TextPastIntWraps | ImageLounge/src/DkLoader/DkProcess.cpp:151-153 | "2147483648" reads as the smallest int and "4294967297" as 1 |
| BatchSteps.CorrectGammaIsLost | ImageLounge/src/DkLoader/DkProcess.cpp:135-156 | the gamma flag is never restored by loadSettings |
| Images.PlanResize | ImageLounge/src/DkLoader/DkImageStorage.cpp:317-330 | the image is kept exactly when the size matches and the factor is 1; with a factor the target is the scaled size; a side below 1 gives a null image |
| Images.ResizeImage | ImageLounge/src/DkLoader/DkImageStorage.cpp:317-389 | a target side below 1 gives a null image; the same size with factor 1 gives the input; otherwise a convertible image is resampled to the planned target, and an image that cannot be converted to the requested size |
| Images.ResizeIgnoresSizeWhenScaling | ImageLounge/src/DkLoader/DkImageStorage.cpp:317-389 | for an image that can be converted, a factor other than 1 makes the requested size irrelevant |
| Images.UnconvertibleUsesRequestedSize | ImageLounge/src/DkLoader/DkImageStorage.cpp:317-389 | an image that cannot be converted is resampled to the requested size even when a factor other than 1 is given |
| Images.ScalingNullImageGivesNull | ImageLounge/src/DkLoader/DkImageStorage.cpp:317-330 | scaling an image of width 0 gives a null image |
| SaveInfos.NewSaveInfo | ImageLounge/src/DkGui/DkBatch.cpp:2013-2017 | the save info carries the chosen mode, delete flag, input-as-output flag and compression, and empty paths |
| SaveInfos.FilterInfosConcat | ImageLounge/src/DkLoader/DkProcess.cpp:429 | filtering keeps the order of the infos: the filter of two lists is the two filters one after the other |
| SaveInfos.FilterInfosOfOne | ImageLounge/src/DkLoader/DkProcess.cpp:429 | a single info is kept exactly when it is not null and carries the run id |
| BatchProcess.NewProc | ImageLounge/src/DkLoader/DkProcess.cpp:570-577 | a new process has an empty log, no failures and is not processed |
| BatchProcess.RenameFile | ImageLounge/src/DkLoader/DkProcess.cpp:710-729 | renaming succeeds exactly when the output is free and the rename works; a failure changes no file |
| BatchProcess.DeleteOrRestoreExisting | ImageLounge/src/DkLoader/DkProcess.cpp:784-813 | only the output and back-up paths change; an existing output is kept, and its back-up is removed, with success exactly when the back-up is writable; a missing output is restored from the back-up, then holds its contents, and the back-up is gone; without a back-up nothing changes |
| BatchProcess.CopyFile | ImageLounge/src/DkLoader/DkProcess.cpp:731-756 | a successful copy puts the input's contents at the output; an existing output makes it fail with nothing changed; only the output path changes |
| BatchProcess.PrepareDeleteExisting | ImageLounge/src/DkLoader/DkProcess.cpp:758-782 | an output to be overwritten is moved to a fresh back-up path, and the back-up path is recorded; otherwise nothing changes |
| BatchProcess.DeleteOriginalFile | ImageLounge/src/DkLoader/DkProcess.cpp:815-835 | with no failures, deletion asked for and the input not the output, it succeeds exactly when the input exists and is writable, and the input is then gone; in every other case no file changes; a failed delete counts one failure; earlier failures keep the original and say so in the log |
| BatchProcess.Save | ImageLounge/src/DkLoader/DkProcess.cpp:694-700 | a save writes the encoded image exactly when it encodes and the path is writable, and touches nothing else |
| BatchProcess.RunChain | ImageLounge/src/DkLoader/DkProcess.cpp:666-680 | each step counts at most one failure, and the crop rectangle is kept |
| BatchProcess.RunChainConcat | ImageLounge/src/DkLoader/DkProcess.cpp:666-680 | the chain is run step after step: each part starts from the container the part before left, and lines, failures and infos add up |
| BatchProcess.RunChainOfOne | ImageLounge/src/DkLoader/DkProcess.cpp:674-679 | a step that fails counts one failure and logs that it failed; one that succeeds counts none |
| BatchProcess.InactiveChainIsIdentity | ImageLounge/src/DkLoader/DkProcess.cpp:666-680 | a chain of inactive steps leaves the container as it is, with no failures |
| BatchProcess.SaveOutput | ImageLounge/src/DkLoader/DkProcess.cpp:682-708 | saving keeps the input and output paths and the step chain, never removes failures and only extends the log |
| BatchProcess.SaveOutputWritesNew | ImageLounge/src/DkLoader/DkProcess.cpp:682-708 | with no file at the output, the encoded image is written and success reported exactly when it encodes and the path is writable; otherwise the failed save and the failed restore count two failures and no file changes |
| BatchProcess.AfterChain | ImageLounge/src/DkLoader/DkProcess.cpp:666-680 | the chain's log and failures are added to the process |
| BatchProcess.Process | ImageLounge/src/DkLoader/DkProcess.cpp:654-708 | processing starts the log with the input path, and never removes failures |
| BatchProcess.ProcessWritesNew | ImageLounge/src/DkLoader/DkProcess.cpp:654-708 | for an input that loads and no file at the output, the steps' result is written exactly when it encodes and the path is writable, and the failures are the steps' plus two for a save that did not happen |
| BatchProcess.Compute | ImageLounge/src/DkLoader/DkProcess.cpp:604-647 | compute marks the item processed and succeeds exactly when no failure was counted |
| BatchProcess.EarlyExitsLeaveFilesAlone | ImageLounge/src/DkLoader/DkProcess.cpp:612-622 | an existing output in skip mode, and a missing input, each count one failure, log why, and change no file |
| BatchProcess.RenameBranchUnreachable | ImageLounge/src/DkLoader/DkProcess.cpp:623-634 | with no steps and the input as output, compute always stops at an earlier exit |
| BatchProcess.CopyOverwriteAlwaysFails | ImageLounge/src/DkLoader/DkProcess.cpp:731-756 | copying onto an existing output with overwrite on always fails and changes nothing |
| BatchProcess.FailedSaveWithoutBackupCountsTwice | ImageLounge/src/DkLoader/DkProcess.cpp:694-705 | a failed save without a back-up counts two failures |
| BatchProcess.SaveOutputFrame | ImageLounge/src/DkLoader/DkProcess.cpp:686-708 | saving changes only the output path and its back-up path |
| BatchProcess.ProcessFrame | ImageLounge/src/DkLoader/DkProcess.cpp:654-708 | processing changes only the output path and its back-up path |
| BatchProcess.SaveOutputKeepsOriginal | ImageLounge/src/DkLoader/DkProcess.cpp:682-708 | overwriting an existing output: when no back-up can be made no file changes; otherwise the save succeeds, the back-up is always removed, and the output holds the new image when it encodes and its former contents when it does not |
| BatchProcess.SaveOutputWithoutBackup | ImageLounge/src/DkLoader/DkProcess.cpp:682-686 | when the back-up cannot be made, saving fails, counts one failure and changes no file |
| BatchProcess.SaveOutputReplaces | ImageLounge/src/DkLoader/DkProcess.cpp:682-708 | once the back-up is made, an image that encodes replaces the output, the save succeeds with no new failure, and the back-up is removed |
| BatchProcess.SaveOutputRestores | ImageLounge/src/DkLoader/DkProcess.cpp:682-708 | once the back-up is made, an image that does not encode counts one failure, the output gets its former contents back, and the back-up is gone |
| BatchProcess.ReplaceKeepsOriginal | ImageLounge/src/DkLoader/DkProcess.cpp:654-708 | the same for the whole load-compute-save path, for an input that loads as an image: the output ends up with the steps' result or its former contents, and no back-up is left |
| BatchProcess.ProcessReplacesOrRestores | ImageLounge/src/DkLoader/DkProcess.cpp:654-708 | for an input that loads as an image and an output whose back-up is made, processing succeeds, leaves no back-up, and the output holds the encoded result of the steps or its former contents |
| BatchProcess.OriginalDeletedOnlyAfterCopy | ImageLounge/src/DkLoader/DkProcess.cpp:635-642 | the input disappears only when its contents were copied to the output |
| BatchProcess.CopyBranchDeletesAfterCopy | ImageLounge/src/DkLoader/DkProcess.cpp:635-641 | on the copy path the input disappears only when the output holds what the input held |
| BatchProcess.ProcessKeepsOriginal | ImageLounge/src/DkLoader/DkProcess.cpp:630-646 | on the load-compute-save path the input is never deleted or changed |
| BatchProcessing.IsOk | ImageLounge/src/DkLoader/DkProcess.cpp:846-865 | the config is accepted exactly when the output directory is set and exists or can be created, and the file list and pattern are non-empty; the directory exists afterwards and no file changes |
| BatchProcessing.InitItem | ImageLounge/src/DkLoader/DkProcess.cpp:877-902 | item i reads file i, writes to the output directory under the converted name, and carries the save options and the step chain |
| BatchProcessing.Init | ImageLounge/src/DkLoader/DkProcess.cpp:877-902 | there is one item per file, in order |
| BatchProcessing.InitOutputDirectory | ImageLounge/src/DkLoader/DkProcess.cpp:877-902 | each output sits in the input's directory when that option is on, and in the output directory otherwise |
| BatchProcessing.RunAll | ImageLounge/src/DkLoader/DkProcess.cpp:951-967 | every item is computed, and its paths are kept |
| BatchProcessing.Run | ImageLounge/src/DkLoader/DkProcess.cpp:951-967 | a run processes one item per input file, in order |
| BatchProcessing.FailuresAtMostProcessed | ImageLounge/src/DkLoader/DkProcess.cpp:996-1020 | failed items are never more than processed ones |
| BatchProcessing.IndicesWhereExact | ImageLounge/src/DkLoader/DkProcess.cpp:996-1020 | the positions picked from the items are exactly those that pass the test, in increasing order |
| BatchProcessing.NumFailuresCountsFailed | ImageLounge/src/DkLoader/DkProcess.cpp:996-1007 | the failure count is the number of items that have failed |
| BatchProcessing.NumProcessedCountsProcessed | ImageLounge/src/DkLoader/DkProcess.cpp:1009-1020 | the processed count is the number of items that were computed |
| BatchProcessing.RunProcessesAll | ImageLounge/src/DkLoader/DkProcess.cpp:951-1020 | after a run every item counts as processed, and an item has failed exactly when its compute failed on the files left by the items before it |
| BatchProcessing.CurrentResults | ImageLounge/src/DkLoader/DkProcess.cpp:1022-1039 | known results are kept, and unknown ones become not-computed, failed or succeeded from the item |
| BatchProcessing.CurrentResultsStable | ImageLounge/src/DkLoader/DkProcess.cpp:1022-1039 | a result once known is never changed by a later poll |
| BatchProcessing.Summary | ImageLounge/src/DkLoader/DkProcess.cpp:1054-1064 | the summary is the input path, a tab and the OK span exactly when the item has not failed |
| BatchProcessing.ResultListLines | ImageLounge/src/DkLoader/DkProcess.cpp:1041-1052 | there is one line per processed item, and line k is the summary of the k-th processed item |
| BatchProcessing.GetLogConcat | ImageLounge/src/DkLoader/DkProcess.cpp:983-994 | the log lists the items' logs in item order: the log of two runs of items is the first log followed by the second |
| BatchProcessing.GetLogOfOne | ImageLounge/src/DkLoader/DkProcess.cpp:987-990 | an item contributes its own log followed by one empty line |
| BatchProcessing.GetLogSeparatesItems | ImageLounge/src/DkLoader/DkProcess.cpp:983-994 | each item's log is closed by exactly one empty line |
| BatchProcessing.AllInfosConcat | ImageLounge/src/DkLoader/DkProcess.cpp:972-976 | the infos are collected in item order: those of two runs of items are the first run's followed by the second's |
| BatchProcessing.AllInfosOfOne | ImageLounge/src/DkLoader/DkProcess.cpp:974-975 | an item contributes exactly its own infos |
| BatchProcessing.PostLoad | ImageLounge/src/DkLoader/DkProcess.cpp:969-981 | only batch plugins are called, each with exactly the infos of all items filtered to its own run id |
| BatchProcessing.PostLoadComplete | ImageLounge/src/DkLoader/DkProcess.cpp:969-981 | every batch plugin loaded in any plugin step is called with the infos of all items filtered to its run id |
| BatchProcessing.LoadGroupsConcat | ImageLounge/src/DkLoader/DkProcess.cpp:919-949 | steps are created in the order the groups are listed: two lists of groups give their steps one after the other, and loading fails when either part fails |
| BatchProcessing.LoadGroupsFailsIff | ImageLounge/src/DkLoader/DkProcess.cpp:930-943 | loading the groups fails exactly when the step of some accepted group fails to load |
| BatchProcessing.LoadGroupsOfOne | ImageLounge/src/DkLoader/DkProcess.cpp:930-943 | a group gives the step of its name, loaded from its keys, exactly when it is not "SaveInfo" and names a step kind, and fails when that step fails to load |
| BatchProcessing.LoadGroupsNames | ImageLounge/src/DkLoader/DkProcess.cpp:919-949 | when loading succeeds, every loaded step is named by an accepted listed group, and every accepted listed group gives a step of its name |
| BatchProcessing.ConfigLoad | ImageLounge/src/DkLoader/DkProcess.cpp:919-949 | loading fails exactly when a listed group's step fails to load or one of the current steps would dereference a null plugin when saved again; otherwise the save options are read from the "SaveInfo" group over the current ones, the file list has at least one entry, the steps after the current ones are exactly the steps the listed groups give (LoadGroups), and the settings hold every step saved again |
| BatchProcessing.SaveSaveInfo | ImageLounge/src/DkLoader/DkProcess.cpp:904-917 | the save options' keys are added to the "SaveInfo" group, and every other group is unchanged |
| BatchProcessing.SaveStepsKeepsSaveInfo | ImageLounge/src/DkLoader/DkProcess.cpp:904-917 | saving the steps leaves the "SaveInfo" group unchanged |
| BatchProcessing.SaveInfoRoundTrip | ImageLounge/src/DkLoader/DkProcess.cpp:904-949 | when the reload succeeds, a saved configuration loads its save options from the group's earlier keys plus the keys the save options wrote |
| BatchProcessing.ProfileKeepsSaveInfo | ImageLounge/src/DkLoader/DkProcess.cpp:904-949 | when the reload succeeds and the save options read back from their own keys, a configuration saved into empty settings loads back with the same save options |
| BatchProcessing.SaveStepKeepsOtherGroups | ImageLounge/src/DkLoader/DkProcess.cpp:904-917 | saving one step writes no group except its own |
| BatchProcessing.SaveStepsKeepsGroup | ImageLounge/src/DkLoader/DkProcess.cpp:904-917 | saving the steps leaves the parent groups alone |
| BatchProcessing.ConfigFieldsRoundTrip | ImageLounge/src/DkLoader/DkProcess.cpp:904-949 | when the reload succeeds, a saved configuration loads back with the same file list, output directory and pattern |
| BatchProcessing.EmptyFileListReloadsAsBlank | ImageLounge/src/DkLoader/DkProcess.cpp:904-949 | when the reload succeeds, an empty file list loads back as one blank entry |
| BatchProcessing.SavedHeader | ImageLounge/src/DkLoader/DkProcess.cpp:904-917 | the file list joined by ';', the output directory and the pattern are read back from the general group after the steps are saved |
| BatchProcessing.LoadAfterOtherSave | ImageLounge/src/DkLoader/DkProcess.cpp:904-949 | saving a step of one kind leaves what a step of another kind loads unchanged |
| BatchProcessing.StepOrderAfterReload | ImageLounge/src/DkLoader/DkProcess.cpp:904-949 | the saved chain reloads exactly when every plugin entry names a batch plugin; resize, transform and plugin steps then come back in the sorted group order plugin, resize, transform, and the resize step loses gamma correction |
| BatchProcessing.ReloadRewritesGamma | ImageLounge/src/DkLoader/DkProcess.cpp:919-949 | the saved chain holds the resize step's gamma flag under "CorrectGamma", and the settings written back after loading it hold the flag off |
| BatchProfile.DefaultProfilePath | ImageLounge/src/DkLoader/DkProcess.cpp:1117-1120 | the default profile directory is the "Profiles" folder |
| BatchProfile.ProfileNameToPath | ImageLounge/src/DkLoader/DkProcess.cpp:1122-1124 | a profile name maps to name.pnm in the default directory |
| BatchProfile.MakeUserFriendly | ImageLounge/src/DkLoader/DkProcess.cpp:1151-1155 | the friendly name has no directory and no dot |
| BatchProfile.UserFriendlyNameOfPath | ImageLounge/src/DkLoader/DkProcess.cpp:1122-1155 | the friendly name of a profile's path is the profile name |
| BatchProfile.NewProfile | ImageLounge/src/DkLoader/DkProcess.cpp:1088-1091 | an empty directory argument selects the default directory |
| BatchProfile.IndexUnique | ImageLounge/src/DkLoader/DkProcess.cpp:1138-1149 | the index of a directory is unique |
| BatchProfile.UserNames | ImageLounge/src/DkLoader/DkProcess.cpp:1126-1136 | there is one friendly name per path, in order |
| BatchProfile.ProfileNames | ImageLounge/src/DkLoader/DkProcess.cpp:1126-1136 | the listing is cached on first use, and the names are the friendly names of the cached paths |
| BatchProfile.SavedProfileIsListed | ImageLounge/src/DkLoader/DkProcess.cpp:1122-1155 | a profile saved under a name is listed under that name |
| BatchProfile.LoadProfile | ImageLounge/src/DkLoader/DkProcess.cpp:1093-1106 | a missing file gives the default configuration and leaves the files alone; an existing one is read as settings, fails exactly when reading the configuration fails, and, when writable, is rewritten with the settings after every loaded step was saved again |
| BatchProfile.LoadingRewritesGammaOff | ImageLounge/src/DkLoader/DkProcess.cpp:1093-1106 | a profile saved with the gamma flag on holds it on in the file, and after one load the file holds it off |
| BatchProfile.SaveProfile | ImageLounge/src/DkLoader/DkProcess.cpp:1108-1115 | the saved file holds the configuration's settings, and success is always reported |
| BatchProfile.ProfileRoundTrip | ImageLounge/src/DkLoader/DkProcess.cpp:1093-1115 | when the load succeeds, a saved profile loads back with the same files, output directory and pattern |
| BatchProfile.ProfileSaveInfoRoundTrip | ImageLounge/src/DkLoader/DkProcess.cpp:1093-1115 | when the load succeeds, a saved profile loads back with the same save options, when they read back from their own keys over the defaults |
| BatchProfile.UnwritableProfileReportsSuccess | ImageLounge/src/DkLoader/DkProcess.cpp:1108-1115 | saving to an unwritable path reports success and writes nothing |
| FilenameWidget.NewWidgetValid | ImageLounge/src/DkGui/DkBatch.cpp:512-571 | a new widget is consistent: current file name, three digits, maximum 999 |
| FilenameWidget.DigitCBChanged | ImageLounge/src/DkGui/DkBatch.cpp:651-654 | the number spin box gets the maximum for the digit count and the value is clamped into it; other fields are kept |
| FilenameWidget.DigitCountBoundsNumber | ImageLounge/src/DkGui/DkBatch.cpp:651-654 | a number fits the maximum exactly when it has no more digits than selected |
| FilenameWidget.SetDigits | ImageLounge/src/DkGui/DkBatch.cpp:686-713 | setting the digit box keeps the widget consistent, and an out-of-range index selects nothing |
| FilenameWidget.GetTag | ImageLounge/src/DkGui/DkBatch.cpp:656-684 | a text widget gives its text, and the others give their command in angle brackets |
| FilenameWidget.SetTag | ImageLounge/src/DkGui/DkBatch.cpp:686-713 | a refused tag leaves the widget unchanged; an accepted one keeps it consistent and keeps its buttons |
| FilenameWidget.PlainTagIsText | ImageLounge/src/DkGui/DkBatch.cpp:686-713 | a tag without ':' becomes a text widget with that text |
| FilenameWidget.CommandTagAccepted | ImageLounge/src/DkGui/DkBatch.cpp:686-713 | a command is accepted exactly when its prefix is "c" or "d" |
| FilenameWidget.UnknownPrefixRefused | ImageLounge/src/DkGui/DkBatch.cpp:686-713 | any other prefix is refused and nothing changes |
| FilenameWidget.TagRoundTrip | ImageLounge/src/DkGui/DkBatch.cpp:656-713 | setting a widget from another's tag reproduces that tag |
| FilenameWidget.FileNameTagRoundTrip | ImageLounge/src/DkGui/DkBatch.cpp:656-713 | a file-name tag restores the case choice |
| FilenameWidget.NumberTagRoundTrip | ImageLounge/src/DkGui/DkBatch.cpp:656-713 | a number tag restores the digit count and the number |
| BatchOutput.SetExtIndex | ImageLounge/src/DkGui/DkBatch.cpp:937-942 | choosing the extension combo entry enables compression exactly for a new extension and changes nothing else |
| BatchOutput.GetFilePattern | ImageLounge/src/DkGui/DkBatch.cpp:975-1004 | the pattern starts with the tags of all widgets |
| BatchOutput.PatternSuffix | ImageLounge/src/DkGui/DkBatch.cpp:975-1004 | the pattern is the tags, a dot and either "<old>" or the chosen filter's extension |
| BatchOutput.Commands | ImageLounge/src/DkGui/DkBatch.cpp:1006-1046 | the commands read from a pattern are never blank |
| BatchOutput.FindText | ImageLounge/src/DkGui/DkBatch.cpp:1006-1046 | the first filter that contains the text, ignoring case, or -1 |
| BatchOutput.AddWidgets | ImageLounge/src/DkGui/DkBatch.cpp:904-921 | one new widget per command, each set from its command with the plus button on |
| BatchOutput.LoadFilePattern | ImageLounge/src/DkGui/DkBatch.cpp:1006-1046 | the widgets are rebuilt from the commands, "<old>" keeps the extension, any other extension selects the first filter containing it, and nothing else changes |
| BatchOutput.LoadWidgets | ImageLounge/src/DkGui/DkBatch.cpp:1006-1046 | the first widget is reused and the others are appended, all consistent |
| BatchOutput.ApplyDefault | ImageLounge/src/DkGui/DkBatch.cpp:1056-1083 | one widget stays, reset; the extension is kept; compression is 90; every box is cleared |
| BatchOutput.ResetTag | ImageLounge/src/DkGui/DkBatch.cpp:1056-1083 | a reset widget holds no user input |
| BatchOutput.GetCompression | ImageLounge/src/DkGui/DkBatch.cpp:1048-1054 | the compression is -1 exactly when the extension is kept |
| BatchOutput.LoadProperties | ImageLounge/src/DkGui/DkBatch.cpp:1085-1098 | loading a configuration keeps the widgets consistent |
| BatchOutput.OptionsRoundTrip | ImageLounge/src/DkGui/DkBatch.cpp:1085-1108 | the loaded page reports the configuration's overwrite mode, delete flag, input-folder flag and output directory |
| BatchOutput.CompressionRoundTrip | ImageLounge/src/DkGui/DkBatch.cpp:1048-1098 | the loaded page reports the configuration's compression, or -1 when the extension is kept |
| BatchOutput.DisablePlus | ImageLounge/src/DkGui/DkBatch.cpp:889-902 | every plus button is switched off |
| BatchOutput.EnablePlus | ImageLounge/src/DkGui/DkBatch.cpp:923-935 | every plus button is switched on |
| BatchOutput.Insert | ImageLounge/src/DkGui/DkBatch.cpp:889-902 | the widget is inserted after position i, and the others shift |
| BatchOutput.PlusPressed | ImageLounge/src/DkGui/DkBatch.cpp:889-902 | a widget is added, and past four widgets no plus button is enabled |
| BatchOutput.PlusPressedTags | ImageLounge/src/DkGui/DkBatch.cpp:889-902 | the new widget follows the pressed one, and the others keep their tags in order |
| BatchOutput.MinusPressed | ImageLounge/src/DkGui/DkBatch.cpp:923-935 | a widget is removed, and at four or fewer every plus button is enabled |
| BatchOutput.MinusPressedTags | ImageLounge/src/DkGui/DkBatch.cpp:923-935 | the pressed widget goes, and the others keep their tags in order |
| BatchOutput.PlusPressedKeepsRule | ImageLounge/src/DkGui/DkBatch.cpp:889-902 | plus buttons are on exactly when there are at most four widgets, before and after a press |
| BatchOutput.MinusPressedKeepsRule | ImageLounge/src/DkGui/DkBatch.cpp:923-935 | the same rule holds after minus |
| BatchOutput.PlusMinusRoundTrip | ImageLounge/src/DkGui/DkBatch.cpp:889-935 | removing the widget plus just added restores every tag |
| BatchOutput.LoadedWidgetsKeepPlus | ImageLounge/src/DkGui/DkBatch.cpp:904-921 | loading a long pattern leaves more than four widgets with plus buttons on, against the rule plus keeps |
| BatchOutput.SplitPieces | ImageLounge/src/DkGui/DkBatch.cpp:1006-1046 | splitting the tags at '<' and dropping blanks gives each widget's command |
| BatchOutput.PatternParts | ImageLounge/src/DkGui/DkBatch.cpp:1006-1046 | the extension and the commands read from a pattern are those written into it |
| BatchOutput.LoadedTags | ImageLounge/src/DkGui/DkBatch.cpp:1006-1046 | the widgets rebuilt from a pattern have the original tags |
| BatchOutput.FilterExtensionOf | ImageLounge/src/DkGui/DkBatch.cpp:975-1004 | the extension of a filter "Name (*.e ...)" is ".e" |
| BatchOutput.FindTextAt | ImageLounge/src/DkGui/DkBatch.cpp:1006-1046 | the search returns the first filter containing the text |
| BatchOutput.PatternRoundTrip | ImageLounge/src/DkGui/DkBatch.cpp:975-1046 | a pattern written by the page and loaded into a reset page restores the widget count, every tag, the extension choice and the pattern |
| InputEdit.GetFileList | ImageLounge/src/DkGui/DkBatch.cpp:278-294 | the listed files are the non-blank lines, with no line break inside |
| InputEdit.NewFilesConcat | ImageLounge/src/DkGui/DkBatch.cpp:174-190 | the new files keep the order they were handed over in: two lists give their new files one after the other |
| InputEdit.NewFilesOfOne | ImageLounge/src/DkGui/DkBatch.cpp:174-190 | a single file is new exactly when it is not listed yet |
| InputEdit.AppendText | ImageLounge/src/DkGui/DkBatch.cpp:174-190 | append starts a new line, except in an empty box |
| InputEdit.EmptyTextLists | ImageLounge/src/DkGui/DkBatch.cpp:278-294 | an empty box lists no files |
| InputEdit.AppendFilesList | ImageLounge/src/DkGui/DkBatch.cpp:174-190 | appending extends the list by the new non-blank files and keeps the old ones |
| InputEdit.AppendedFilesListed | ImageLounge/src/DkGui/DkBatch.cpp:174-190 | every non-blank file handed over is listed afterwards |
| InputEdit.AppendFilesTwice | ImageLounge/src/DkGui/DkBatch.cpp:174-190 | appending the same files twice lists them once |
| InputEdit.RepeatsInOneCallKept | ImageLounge/src/DkGui/DkBatch.cpp:174-190 | any non-blank file given twice in one call to an empty box is listed twice: the uniqueness check looks only at lines already in the box |
| TransformWidget.GetAngle | ImageLounge/src/DkGui/DkBatch.cpp:1633-1645 | the angle is 0, -90, 90 or 180, and 0 exactly without rotation |
| TransformWidget.GetAngleInjective | ImageLounge/src/DkGui/DkBatch.cpp:1633-1645 | different buttons give different angles |
| TransformWidget.RotationOfGetAngle | ImageLounge/src/DkGui/DkBatch.cpp:1633-1645 | the button is recovered from its angle |
| TransformWidget.TransferProperties | ImageLounge/src/DkGui/DkBatch.cpp:1602-1605 | the step gets the page's angle, flips and crop flag |
| TransformWidget.TransferActiveIffUserInput | ImageLounge/src/DkGui/DkBatch.cpp:1569-1605 | the step is active exactly when the page holds user input |
| TransformWidget.LoadPropertiesAsWritten | ImageLounge/src/DkGui/DkBatch.cpp:1607-1631 | the flags are loaded, and only page angles are accepted |
| TransformWidget.ClockwiseLoadsAsCounterClockwise | ImageLounge/src/DkGui/DkBatch.cpp:1617-1619 | as written, a saved 90 loads as -90 |
| TransformWidget.AsWrittenAngleCollapses | ImageLounge/src/DkGui/DkBatch.cpp:1617-1619 | as written, every non-zero angle loads as -90 |
| TransformWidget.LoadProperties | ImageLounge/src/DkGui/DkBatch.cpp:1607-1631 | the corrected load: the flags are loaded, an unknown angle is refused, and the rotation is kept on refusal |
| TransformWidget.TransferLoadRoundTrip | ImageLounge/src/DkGui/DkBatch.cpp:1602-1631 | a step written by a page loads back into the same page |
| TransformWidget.LoadTransferRoundTrip | ImageLounge/src/DkGui/DkBatch.cpp:1602-1631 | a step with a page angle survives loading and transferring |
| BatchWidget.NextTab | ImageLounge/src/DkGui/DkBatch.cpp:2228-2234 | the next tab, wrapping from the last to the first |
| BatchWidget.PreviousTab | ImageLounge/src/DkGui/DkBatch.cpp:2236-2243 | the previous tab, wrapping from the first to the last |
| BatchWidget.TabsInverse | ImageLounge/src/DkGui/DkBatch.cpp:2228-2243 | next and previous undo each other |
| BatchWidget.SelectedFiles | ImageLounge/src/DkGui/DkBatch.cpp:408-416 | the box's files, or the thumbnail selection when the box lists none |
| BatchWidget.SelectedFilesBatch | ImageLounge/src/DkGui/DkBatch.cpp:418-428 | the same files, and the page keeps its selection and directory |
| BatchWidget.SelectionShownAfterBatch | ImageLounge/src/DkGui/DkBatch.cpp:418-428 | afterwards the box lists exactly the files handed to the batch |
| BatchWidget.ActiveChain | ImageLounge/src/DkGui/DkBatch.cpp:2073-2098 | the chain is resize, transform, plugin in that order, each present exactly when active (plugin only with plugins on) |
| BatchWidget.ChainHasNoRepeats | ImageLounge/src/DkGui/DkBatch.cpp:2073-2098 | the chain has at most three steps, all different |
| BatchWidget.CreateBatchConfig | ImageLounge/src/DkGui/DkBatch.cpp:1977-2105 | a refused configuration is the default one; an accepted one carries the selected files, output directory, pattern, save options and active chain; no file changes |
| BatchWidget.StrictRefusesEmptySelection | ImageLounge/src/DkGui/DkBatch.cpp:1982-1990 | without files a strict run is refused |
| BatchWidget.StrictRefusesOutputOverInput | ImageLounge/src/DkGui/DkBatch.cpp:1992-2010 | writing unchanged names into the input folder without overwriting is refused |
| BatchWidget.SameDirectoryAllowedWhenOverwriting | ImageLounge/src/DkGui/DkBatch.cpp:1992-2010 | overwriting or not saving lifts that rule |
| BatchWidget.StrictAcceptedIsOk | ImageLounge/src/DkGui/DkBatch.cpp:2040-2071 | an accepted strict configuration passes isOk and has its output directory |
| BatchWidget.ProfileConfigAccepted | ImageLounge/src/DkGui/DkBatch.cpp:2022-2038 | a non-strict configuration is accepted exactly when the directory is empty or exists, or the user agrees to create it |
| BatchWidget.TransformInChainIffUserInput | ImageLounge/src/DkGui/DkBatch.cpp:2073-2098 | the transform step is in the chain exactly when its page holds user input |
| ImageBuffers.AlphaChannelUsed | ImageLounge/src/DkLoader/DkImageStorage.cpp:404-426 | true exactly for an ARGB image with an alpha byte below 255 |
| ImageBuffers.MapByteAsWritten | ImageLounge/src/DkLoader/DkImageStorage.cpp:502-505 | the code's guard reads past the table exactly for a byte equal to the table length |
| ImageBuffers.GammaGuardReadsPastTable | ImageLounge/src/DkLoader/DkImageStorage.cpp:502-505 | a 255-entry table and the byte 255 read past the table |
| ImageBuffers.GammaGuardsAgree | ImageLounge/src/DkLoader/DkImageStorage.cpp:502-510 | outside that case both guards map alike |
| ImageBuffers.MapByte | ImageLounge/src/DkLoader/DkImageStorage.cpp:502-510 | bytes inside the table are replaced by their entry, and others are kept |
| ImageBuffers.MapGammaTable | ImageLounge/src/DkLoader/DkImageStorage.cpp:486-517 | every used byte is mapped through the table, and padding is untouched |
| ImageBuffers.ByteRange | ImageLounge/src/DkLoader/DkImageStorage.cpp:529-555 | the smallest and largest counted byte, skipping alpha bytes, or 255 and 0 when none is counted |
| ImageBuffers.StretchRow | ImageLounge/src/DkLoader/DkImageStorage.cpp:561-567 | each counted byte of a line is stretched and the rest kept |
| ImageBuffers.StretchCounted | ImageLounge/src/DkLoader/DkImageStorage.cpp:557-570 | every counted byte is stretched from the range onto 0..255 |
| ImageBuffers.NormImage | ImageLounge/src/DkLoader/DkImageStorage.cpp:527-572 | there is no change when the bytes already span 0..255 or are all equal; otherwise counted bytes are stretched; true is also returned with nothing counted |
| ImageBuffers.StretchInRange | ImageLounge/src/DkLoader/DkImageStorage.cpp:566 | a stretched byte stays in 0..255 |
| ImageBuffers.StretchEnds | ImageLounge/src/DkLoader/DkImageStorage.cpp:566 | the minimum goes to 0 and the maximum to 255 |
| ImageBuffers.StretchMonotone | ImageLounge/src/DkLoader/DkImageStorage.cpp:566 | the stretch keeps the order of bytes |
| ImageBuffers.NormImageSpansRange | ImageLounge/src/DkLoader/DkImageStorage.cpp:527-572 | after a change the counted bytes span 0..255 |
| ImageBuffers.FindHistPeak | ImageLounge/src/DkLoader/DkImageStorage.cpp:723-746 | the first bin from the top whose upper tail exceeds the quantile, and no higher bin does; 255 when none does |
| ImageBuffers.HistPeakSplitsBins | ImageLounge/src/DkLoader/DkImageStorage.cpp:723-746 | every bin below one that exceeds also exceeds, so the peak splits the bins |
| ImageBuffers.MakeSquare | ImageLounge/src/DkLoader/DkImageStorage.cpp:748-762 | the square has the shorter side, lies inside the pixmap, and is centred with the odd pixel after it |
| ImageBuffers.MakeSquareTransposes | ImageLounge/src/DkLoader/DkImageStorage.cpp:748-762 | the two branches mirror each other |
| ImageBuffers.AddToRow | ImageLounge/src/DkLoader/DkImageStorage.cpp:1180-1194 | the inner loop keeps the line length |
| ImageBuffers.AddToImage | ImageLounge/src/DkLoader/DkImageStorage.cpp:1170-1203 | the image keeps its shape |
| ImageBuffers.AddToRowFlat | ImageLounge/src/DkLoader/DkImageStorage.cpp:1180-1194 | the inner loop is the flat carry rule on the line's used bytes, and padding is untouched |
| ImageBuffers.AddToRowsFlat | ImageLounge/src/DkLoader/DkImageStorage.cpp:1178-1200 | the row loop is the flat carry rule on all used bytes, and padding is untouched |
| ImageBuffers.AddToImageIsFlatAdd | ImageLounge/src/DkLoader/DkImageStorage.cpp:1170-1203 | addToImage is the flat carry rule, and its result tells whether some byte absorbed the value |
| ImageBuffers.AddSeqConcat | ImageLounge/src/DkLoader/DkImageStorage.cpp:1178-1200 | a later row is reached only with the carry out of the rows before it |
| ImageBuffers.AddSeqDoneIff | ImageLounge/src/DkLoader/DkImageStorage.cpp:1170-1203 | the result is true exactly when some byte takes its carry without overflowing |
| ImageBuffers.AddSeqAbsorbedAt | ImageLounge/src/DkLoader/DkImageStorage.cpp:1180-1194 | bytes before the absorbing one hold their overflow, it holds its sum, and later bytes never change |
| ImageBuffers.AddZeroChangesNothing | ImageLounge/src/DkLoader/DkImageStorage.cpp:1183-1187 | adding 0 changes no byte and returns true |
| ImageBuffers.AddFirstByteAbsorbs | ImageLounge/src/DkLoader/DkImageStorage.cpp:1183-1187 | when the first byte has room, only it changes |

## Left out

- Floating point: `float` factors and quotients are idealised as reals. The rounding of `qRound` is modelled exactly on them.
- Integer overflow of the histogram sum in findHistPeak is not modelled.
- The pixel operations are parameters: resampling, rotation, mirroring, cropping, and decoding and encoding files. Only their null and non-null results matter here.
- ImageBuffers.AddToImage: its own contract only states the shape. The carry behaviour is stated by AddToImageIsFlatAdd and the AddSeq lemmas.
- ImageBuffers.AddToRow: its own contract only states the length. The carry behaviour is stated by AddToRowFlat.
- DkSaveInfo beyond its fields: createBackupFilePath is the `backupName` parameter. Its source file is not part of this model.
- DkFileNameConverter, which turns a pattern into an output name, is the `convert` parameter. Its source is not part of this model.
- DkBatchInfo::filter is modelled from its use only (FilterInfos), because its source is not part of this model.
- The plugin host is a parameter: plugin lookup, run ids, and the plugin interfaces.
- BatchSteps.LoadStep: the keys each batch plugin reads and writes itself (DkProcess.cpp:387, 404) are not modelled, because they belong to the plugins. A plugin whose batch interface is null is dereferenced there; the model fails the load (None) instead of following the crash.
- BatchSteps.SaveStep: saving a plugin step whose loaded list holds a plugin without a batch interface dereferences null (DkProcess.cpp:384-388); the model writes the list. The configurations the dialog saves hold plugin steps with nothing loaded, and ConfigLoad fails before saving again a current step that would crash.
- preLoad is not modelled. It only triggers loading, which LoadAllPlugins models.
- Concurrency:
  - QtConcurrent's mapped run is modelled as a sequential fold over the items;
  - waitForFinished, isComputing and cancel are left out, because they only drive the thread pool.
- Paths use '/' only; Windows separators and drive letters are left out.
- Enum values and defaults from header files outside this model are assumed from the combo box orders: resize mode 0..4, property 0..2, and the file-name widget types.
- setTag reads a third part of a "d:" tag without checking that it exists. TagReadable keeps callers to tags where that part exists.
- The INI file format of a profile is a pair of parse and render functions.
- QSettings write failures are not reported: a profile save into an unwritable place still reports success, and loading a read-only profile leaves its file as it was.
- BatchProcessing.ConfigFieldsRoundTrip: promises nothing when the reload fails, because the source aborts there; when it fails is stated by ConfigLoad and LoadGroupsFailsIff.
- BatchProcessing.EmptyFileListReloadsAsBlank: promises nothing when the reload fails, for the same reason.
- BatchProcessing.SaveInfoRoundTrip: promises nothing when the reload fails, for the same reason.
- BatchProcessing.ProfileKeepsSaveInfo: promises nothing when the reload fails, for the same reason.
- BatchProfile.ProfileRoundTrip: promises nothing when the load fails, for the same reason.
- BatchProfile.ProfileSaveInfoRoundTrip: promises nothing when the load fails, for the same reason.
- The unused member flags mHUserInput and mRUserInput are left out.
- '\r' line endings in the input box are not modelled.
- The resize and plugin pages are represented by the steps they transfer.
- The "create directory?" message box is the `createAnswer` parameter.
- The header and summary texts of the pages (updateHeader) are left out, as are signals and other widget plumbing.
- BatchOutput.PatternRoundTrip: it requires that:
  - text widgets hold no ':', '.', '<' or '>' and are not blank;
  - no two text widgets are adjacent;
  - the chosen filter has the shape "Name (*.e ...)" and is the first filter containing its extension.

  Without these, the pattern is ambiguous.
- BatchWidget.NextTab: only the one-step wrap-around is stated, not the full cycle over n presses.
- BatchSteps.ResizeSettingsRoundTrip: the gamma flag is lost on load (see CorrectGammaIsLost), so the round trip holds up to that flag.
- BatchSteps.PluginCompute: a plugin cannot change the caller's container in place. The source hands each plugin the shared container (DkProcess.cpp:468, 475), which a plugin could edit; the model hands back the container unchanged, which is exact only for plugins that return a new container instead (DkProcess.cpp:483).
- BatchSteps.PrepareProperties: a side mode on an image of normalized width 0 divides by zero. Where that does not skip (a positive length without decrease-only, a negative one without increase-only, or a zero length), the source hands the infinite or undefined quotient to qRound and resizeImage; the model fails the step instead of following float-to-int conversion.
- BatchSteps.ResizeComputeUsesTarget: stated for images the resampler can convert. For the others, the default mode is covered by DefaultModeUnconvertibleAsksInvalidSize; a side mode passes factor 1, so the requested size and the target agree.
- Images.ResizeImage: the OpenCV build is modelled. Without OpenCV, resizeImage discards the scaled copy and returns the input's copy at any factor (DkImageStorage.cpp:390-400). Gamma conversion, colour tables and OpenCV exceptions are left to the resampler parameter.
- BatchProcess.SaveOutput: its own contract states only what saving keeps. What it writes is stated by SaveOutputWritesNew for an output that does not exist yet, and by SaveOutputWithoutBackup, SaveOutputReplaces, SaveOutputRestores and SaveOutputKeepsOriginal for one that is overwritten.
- BatchSteps.TransformCompute: the crop rectangle is taken to be unchanged by the transform, because DkImageContainer::cropImage, which may also update the container's metadata, is not part of this model.
- DkSaveInfo::saveSettings and DkSaveInfo::loadSettings are the SaveInfoCodec parameter: the keys the save options write (at least one) and how they are read back. Their source is not part of this model.
- SettingsStore.AsString: a real value's text form is not modelled and converts to "". No value the model reads as text is stored as a real.
- Text.ToReal: only plain decimal notation is read. Exponents, "inf" and "nan", and rounding to a 32-bit float are left out.
- Text.ToLower: only ASCII letters are lower-cased, and IsSpace knows only ASCII white space. Unicode case mapping is not modelled, so case-insensitive matching of non-ASCII letters is not covered.

## Findings

| source | as written | input that shows it | evidently intended | confidence | as-written member | corrected member |
|---|---|---|---|---|---|---|
| ImageLounge/src/DkLoader/DkImageStorage.cpp:502-505 | the guard skips bytes greater than the table size, so a byte equal to the size indexes one past the end | a gamma table of 255 entries and an image byte of 255 | skip bytes greater than or equal to the table size | not executed | ImageBuffers.MapByteAsWritten, ImageBuffers.GammaGuardReadsPastTable | ImageBuffers.MapByte, ImageBuffers.MapGammaTable |
| ImageLounge/src/DkGui/DkBatch.cpp:1617-1619 | the angles -90, 90 and 180 all check the counter-clockwise button | a profile saved with a clockwise rotation (90) | each angle checks its own button, so a saved step loads back unchanged | not executed | TransformWidget.LoadPropertiesAsWritten, TransformWidget.ClockwiseLoadsAsCounterClockwise | TransformWidget.LoadProperties, TransformWidget.TransferLoadRoundTrip |

=== FILE: batch_log.dfy ===
/** The lines a batch item writes to its log. The program writes translated
    text; each line is represented here by what it reports. */
module BatchLog {
  import opened FileSystem

  datatype Msg =
    // resize step
    | ResizeIgnored
    | ResizeWouldEnlarge
    | ResizeWouldShrink
    | ResizeSizeMatches
    | ResizeNotNeeded
    | ResizeFailed
    | ResizedByFactor(percent: real)
    | ResizedToSide(pixels: real)
    // transform step
    | TransformInactive
    | Transformed
    | TransformedAndCropped
    | TransformFailed
    // plugin step
    | PluginsInactive
    | PluginIsNull
    | PluginIllegalInterface(plugin: string)
    | PluginCannotCast(plugin: string)
    | PluginCannotApply(plugin: string)
    | PluginsFailed
    | PluginsApplied
    // one batch item
    | OutputExistsSkipping(output: Path)
    | InputMissing
    | InputIs(input: Path)
    | NothingToDo
    | RenameTargetExists
    | RenameFailed
    | Renamed(from: Path, to: Path)
    | OsError
    | CopyNotSaving
    | CopyFailed
    | OutputIs(output: Path)
    | Copied(from: Path, to: Path)
    | Processing(input: Path)
    | LoadFailed
    | StepFailed(step: string)
    | NotSaved(output: Path)
    | Saved(output: Path)
    | SaveFailed(output: Path)
    | BackupExists(backup: Path)
    | BackupFailed(backup: Path)
    | DeleteExistingFailed
    | RestoreFailed(backup: Path)
    | Restored(output: Path)
    | OriginalDeleted(input: Path)
    | OriginalDeleteFailed(input: Path)
    | OriginalKept(failures: nat)
    // the empty line between two items in the joined log
    | EmptyLine
}

=== FILE: batch_output.dfy ===
/** DkBatchOutput: the output page of the batch dialog. Its state is the
    list of file-name widgets, the extension choice (keep the old one or
    convert to one of the save filters), the quality spin box and the
    check boxes. The save filters ("JPEG (*.jpg *.jpeg)", ...) are a
    parameter. */
module BatchOutput {
  import opened Text
  import opened FileSystem
  import opened SaveInfos
  import opened FilenameWidget
  import opened BatchProcessing

  datatype Output = Output(
    widgets: seq<Widget>,
    extIndex: int,
    newExt: int,
    compressionEnabled: bool,
    compression: int,
    overwrite: bool,
    doNotSave: bool,
    useInput: bool,
    deleteOriginal: bool,
    outputDir: Path,
    inputDir: Path)

  predicate WidgetsValid(ws: seq<Widget>)
  {
    forall k :: 0 <= k < |ws| ==> Valid(ws[k])
  }

  /** The states the page can reach: valid widgets, "keep" (0) or
      "convert" (1) selected, the quality box enabled exactly when
      converting, a quality within the spin box range and a filter index
      inside the filter list or -1. */
  predicate ValidOutput(o: Output, filters: seq<string>)
  {
    WidgetsValid(o.widgets) && 0 <= o.extIndex <= 1 && (o.compressionEnabled <==> o.extIndex > 0) &&
    1 <= o.compression <= 100 && -1 <= o.newExt < |filters|
  }

  /** Selecting an entry of the extension box; the changed signal runs
      extensionCBChanged, which enables the quality box for "convert". */
  function SetExtIndex(o: Output, i: int): (r: Output)
    ensures r.extIndex == ComboIndex(i, 2)
    ensures (o.compressionEnabled <==> o.extIndex > 0) ==> (r.compressionEnabled <==> r.extIndex > 0)
    ensures r == o.(extIndex := r.extIndex, compressionEnabled := r.compressionEnabled)
  {
    var idx := ComboIndex(i, 2);
    if idx != o.extIndex then o.(extIndex := idx, compressionEnabled := idx > 0) else o
  }

  // ---------------------------------------------------------------------
  // The pattern

  /** The tags of all widgets, concatenated. */
  function Tags(ws: seq<Widget>): string
    decreases |ws|
  {
    if |ws| == 0 then "" else GetTag(ws[0]) + Tags(ws[1..])
  }

  /** QComboBox::itemText: "" for an index outside the box. */
  function ItemText(filters: seq<string>, i: int): string
  {
    if 0 <= i < |filters| then filters[i] else ""
  }

  /** The first extension a save filter lists, with its dot: the part after
      '(' with ')' and '*' removed, cut at the first blank. A filter without
      exactly one '(' contributes nothing. */
  function FilterExtension(filter: string): string
  {
    var tmp := Split(filter, "(");
    if |tmp| == 2 then Split(ReplaceAll(ReplaceAll(tmp[1], ")", ""), "*", ""), " ")[0] else ""
  }

  /** getFilePattern. */
  function GetFilePattern(o: Output, filters: seq<string>): (pattern: string)
    ensures Tags(o.widgets) <= pattern
  {
    Tags(o.widgets) + (if o.extIndex == 0 then ".<old>" else FilterExtension(ItemText(filters, o.newExt)))
  }

  /** The text after the last '.' of a pattern. */
  function PatternExt(pattern: string): string
  {
    var parts := Split(pattern, ".");
    parts[|parts| - 1]
  }

  /** The commands loadFilePattern finds: every "." + extension removed,
      '>' turned into '<', split at '<' and blank pieces dropped. */
  function Commands(pattern: string): (cmds: seq<string>)
    ensures forall k :: 0 <= k < |cmds| ==> !IsBlank(cmds[k])
  {
    var ext := PatternExt(pattern);
    var p := ReplaceAll(pattern, "." + ext, "");
    NonBlank(Split(ReplaceAll(p, ">", "<"), "<"))
  }

  /** Case-insensitive containment (Qt::MatchContains). */
  predicate ContainsCI(s: string, sub: string)
  {
    Contains(ToLower(s), ToLower(sub))
  }

  /** QComboBox::findText(text, Qt::MatchContains): the first entry that
      contains the text, or -1. */
  function FindText(filters: seq<string>, text: string): (i: int)
    ensures -1 <= i < |filters|
    ensures i >= 0 ==> ContainsCI(filters[i], text)
    ensures forall j :: 0 <= j < |filters| && (i == -1 || j < i) ==> !ContainsCI(filters[j], text)
    decreases |filters|
  {
    if |filters| == 0 then -1
    else if ContainsCI(filters[0], text) then 0
    else
      var r := FindText(filters[1..], text);
      if r == -1 then -1 else r + 1
  }

  /** Each command in a widget of its own: a new widget that setTag does
      not understand stays a "current file name" widget. */
  function AddWidgets(cmds: seq<string>): (ws: seq<Widget>)
    requires forall k :: 0 <= k < |cmds| ==> TagReadable(cmds[k])
    ensures |ws| == |cmds|
    ensures WidgetsValid(ws)
    ensures forall k :: 0 <= k < |ws| ==> ws[k] == SetTag(NewWidget, cmds[k]).1 && ws[k].plusEnabled
  {
    NewWidgetValid();
    seq(|cmds|, k requires 0 <= k < |cmds| && TagReadable(cmds[k]) => SetTag(NewWidget, cmds[k]).1)
  }

  /** Every command of the pattern can be handed to setTag. */
  predicate PatternReadable(pattern: string)
  {
    forall k :: 0 <= k < |Commands(pattern)| ==> TagReadable(Commands(pattern)[k])
  }

  /** loadFilePattern: the first command goes to the first widget, every
      further one to a new widget appended at the end; an extension other
      than "<old>" selects "convert" and the first filter that contains
      it. */
  function LoadFilePattern(o: Output, pattern: string, filters: seq<string>): (r: Output)
    requires WidgetsValid(o.widgets) && PatternReadable(pattern)
    ensures r == o.(widgets := r.widgets, extIndex := r.extIndex, newExt := r.newExt, compressionEnabled := r.compressionEnabled)
    ensures r.widgets == LoadWidgets(o.widgets, Commands(pattern))
    ensures r.extIndex == if KeepsExtension(pattern) then 0 else 1
    ensures r.extIndex == 1 ==> r.newExt == FindText(filters, PatternExt(pattern))
    ensures (o.compressionEnabled <==> o.extIndex > 0) ==> (r.compressionEnabled <==> r.extIndex > 0)
  {
    var idx := if KeepsExtension(pattern) then 0 else 1;
    var o1 := SetExtIndex(o.(widgets := LoadWidgets(o.widgets, Commands(pattern))), idx);
    if idx == 1 then o1.(newExt := FindText(filters, PatternExt(pattern))) else o1
  }

  /** The pattern ends in ".<old>": keep each file's extension. */
  predicate KeepsExtension(pattern: string)
  {
    PatternExt(pattern) == "<old>"
  }

  /** The widget list after loading the commands. */
  function LoadWidgets(ws: seq<Widget>, cmds: seq<string>): (r: seq<Widget>)
    requires WidgetsValid(ws) && forall k :: 0 <= k < |cmds| ==> TagReadable(cmds[k])
    ensures WidgetsValid(r)
    ensures |r| == if |ws| > 0 && |cmds| > 0 then |ws| + |cmds| - 1 else |ws| + |cmds|
    ensures forall k :: |ws| <= k < |r| ==> r[k].plusEnabled
  {
    if |ws| == 0 || |cmds| == 0 then ws + AddWidgets(cmds)
    else [SetTag(ws[0], cmds[0]).1] + ws[1..] + AddWidgets(cmds[1..])
  }

  /** applyDefault: all boxes cleared, "keep extension", the first filter,
      quality 90, no directories, and only the first widget left, set to
      "current file name, keep case". */
  function ApplyDefault(o: Output, filters: seq<string>): (r: Output)
    requires WidgetsValid(o.widgets)
    ensures WidgetsValid(r.widgets) && |r.widgets| == (if |o.widgets| > 0 then 1 else 0)
    ensures |o.widgets| > 0 ==> r.widgets[0].plusEnabled == o.widgets[0].plusEnabled
    ensures r.extIndex == 0 && r.compression == 90
    ensures !r.overwrite && !r.doNotSave && !r.useInput && !r.deleteOriginal
    ensures r.outputDir == "" && r.inputDir == ""
    ensures (o.compressionEnabled <==> o.extIndex > 0) ==> ValidOutput(r, filters)
  {
    var ws := if |o.widgets| > 0 then [ResetTag(o.widgets[0])] else [];
    var o1 := SetExtIndex(o, 0);
    o1.(widgets := ws, newExt := ComboIndex(0, |filters|), compression := 90,
        overwrite := false, doNotSave := false, useInput := false, deleteOriginal := false,
        outputDir := "", inputDir := "")
  }

  /** setTag("c:0") on a widget: "current file name, keep case". */
  function ResetTag(w: Widget): (r: Widget)
    requires Valid(w)
    ensures Valid(r) && !HasUserInput(r) && r.plusEnabled == w.plusEnabled
  {
    SplitCharTwo("c", ':', "0");
    assert "c:0" == "c" + [':'] + "0";
    assert ToInt("0") == 0;
    SetTag(w, "c:0").1
  }

  // ---------------------------------------------------------------------
  // Options

  /** overwriteMode: the overwrite box wins over "do not save"; neither
      means skip existing files. */
  function OverwriteMode(o: Output): SaveMode
  {
    if o.overwrite then Overwrite else if o.doNotSave then DoNotSave else SkipExisting
  }

  /** getCompression: -1 while the quality box is disabled. */
  function GetCompression(o: Output, filters: seq<string>): (c: int)
    ensures ValidOutput(o, filters) ==> (c == -1 <==> o.extIndex == 0)
    ensures c != -1 ==> c == o.compression
  {
    if !o.compressionEnabled then -1 else o.compression
  }

  /** hasUserInput: more than one widget, a changed first widget or
      "convert" selected. */
  predicate HasOutputInput(o: Output)
    requires |o.widgets| > 0
  {
    |o.widgets| > 1 || HasUserInput(o.widgets[0]) || o.extIndex == 1
  }

  /** loadProperties: the check boxes, the output directory and the
      quality from the configuration, then its pattern. */
  function LoadProperties(o: Output, c: Config, filters: seq<string>): (r: Output)
    requires WidgetsValid(o.widgets) && PatternReadable(c.pattern)
    ensures WidgetsValid(r.widgets)
  {
    var si := c.saveInfo;
    var o1 := o.(overwrite := si.mode == Overwrite, doNotSave := si.mode == DoNotSave,
                 deleteOriginal := si.deleteOriginal, useInput := si.inputDirIsOutputDir,
                 outputDir := c.outputDir, compression := Clamp(si.compression, 1, 100));
    LoadFilePattern(o1, c.pattern, filters)
  }

  // ---------------------------------------------------------------------
  // Adding and removing widgets

  /** More than four widgets disable every plus button. */
  predicate PlusRule(o: Output)
  {
    forall k :: 0 <= k < |o.widgets| ==> (o.widgets[k].plusEnabled <==> |o.widgets| <= 4)
  }

  function DisablePlus(ws: seq<Widget>): (r: seq<Widget>)
    ensures |r| == |ws|
    ensures forall k :: 0 <= k < |r| ==> r[k] == ws[k].(plusEnabled := false)
  {
    seq(|ws|, k requires 0 <= k < |ws| => ws[k].(plusEnabled := false))
  }

  function EnablePlus(ws: seq<Widget>): (r: seq<Widget>)
    ensures |r| == |ws|
    ensures forall k :: 0 <= k < |r| ==> r[k] == ws[k].(plusEnabled := true)
  {
    seq(|ws|, k requires 0 <= k < |ws| => ws[k].(plusEnabled := true))
  }

  /** plusPressed(widget, tag): a new widget for `tag` right after the
      pressed one; past four widgets all plus buttons are disabled. */
  function PlusPressed(o: Output, i: nat, tag: string): (r: Output)
    requires i < |o.widgets| && TagReadable(tag)
    ensures |r.widgets| == |o.widgets| + 1
    ensures |r.widgets| > 4 ==> forall k :: 0 <= k < |r.widgets| ==> !r.widgets[k].plusEnabled
  {
    var ws := Insert(o.widgets, i + 1, SetTag(NewWidget, tag).1);
    o.(widgets := if |ws| > 4 then DisablePlus(ws) else ws)
  }

  /** The new widget sits right after the pressed one; the others keep
      their tags and order. */
  lemma PlusPressedTags(o: Output, i: nat, tag: string)
    requires i < |o.widgets| && TagReadable(tag)
    ensures var r := PlusPressed(o, i, tag);
      (forall k :: 0 <= k <= i ==> GetTag(r.widgets[k]) == GetTag(o.widgets[k])) &&
      GetTag(r.widgets[i + 1]) == GetTag(SetTag(NewWidget, tag).1) &&
      (forall k :: i + 1 < k < |r.widgets| ==> GetTag(r.widgets[k]) == GetTag(o.widgets[k - 1]))
  {
  }

  /** `w` placed at position `i`. */
  function Insert(ws: seq<Widget>, i: nat, w: Widget): (r: seq<Widget>)
    requires i <= |ws|
    ensures |r| == |ws| + 1 && r[i] == w
    ensures forall k :: 0 <= k < i ==> r[k] == ws[k]
    ensures forall k :: i < k < |r| ==> r[k] == ws[k - 1]
  {
    ws[..i] + [w] + ws[i..]
  }

  /** minusPressed(widget): the widget is removed; at four widgets or fewer
      all plus buttons are enabled again. */
  function MinusPressed(o: Output, i: nat): (r: Output)
    requires i < |o.widgets|
    ensures |r.widgets| == |o.widgets| - 1
    ensures |r.widgets| <= 4 ==> forall k :: 0 <= k < |r.widgets| ==> r.widgets[k].plusEnabled
  {
    var ws := o.widgets[..i] + o.widgets[i + 1..];
    o.(widgets := if |ws| <= 4 then EnablePlus(ws) else ws)
  }

  /** The widgets other than the removed one keep their tags and order. */
  lemma MinusPressedTags(o: Output, i: nat)
    requires i < |o.widgets|
    ensures var r := MinusPressed(o, i);
      (forall k :: 0 <= k < i ==> GetTag(r.widgets[k]) == GetTag(o.widgets[k])) &&
      (forall k :: i <= k < |r.widgets| ==> GetTag(r.widgets[k]) == GetTag(o.widgets[k + 1]))
  {
    var ws := o.widgets[..i] + o.widgets[i + 1..];
    var r := MinusPressed(o, i);
    forall k | 0 <= k < |ws|
      ensures GetTag(r.widgets[k]) == GetTag(ws[k])
    {
      if |ws| <= 4 {
        assert r.widgets[k] == ws[k].(plusEnabled := true);
      }
    }
    assert forall k :: 0 <= k < i ==> ws[k] == o.widgets[k];
    assert forall k :: i <= k < |ws| ==> ws[k] == o.widgets[k + 1];
  }

  // ---------------------------------------------------------------------
  // The pattern round trip

  /** Text a text widget can hold and still be found again in the pattern:
      not blank, and none of the characters the pattern syntax uses. */
  predicate TextOk(t: string)
  {
    !IsBlank(t) && ':' !in t && '.' !in t && '<' !in t && '>' !in t
  }

  /** Widgets whose pattern parses back into the same widgets: reachable
      states, usable text, and no two text widgets next to each other (their
      texts would run together into one command). */
  predicate Patternable(ws: seq<Widget>)
  {
    WidgetsValid(ws) &&
    (forall k :: 0 <= k < |ws| && ws[k].kind == TypeText ==> TextOk(ws[k].text)) &&
    (forall k :: 0 <= k < |ws| - 1 ==> !(ws[k].kind == TypeText && ws[k + 1].kind == TypeText))
  }

  /** The tag of each widget without its angle brackets. */
  function Inners(ws: seq<Widget>): (r: seq<string>)
    ensures |r| == |ws|
    ensures forall k :: 0 <= k < |ws| ==> r[k] == Inner(ws[k])
    decreases |ws|
  {
    if |ws| == 0 then [] else [Inner(ws[0])] + Inners(ws[1..])
  }

  /** A widget's tag after '>' has been turned into '<'. */
  function Piece(w: Widget): string
  {
    if w.kind == TypeText then w.text else "<" + Inner(w) + "<"
  }

  function Pieces(ws: seq<Widget>): string
    decreases |ws|
  {
    if |ws| == 0 then "" else Piece(ws[0]) + Pieces(ws[1..])
  }

  /** The tag of a file-name or number widget holds none of the pattern's
      punctuation except ':'. */
  lemma InnerShape(w: Widget)
    requires Valid(w) && w.kind != TypeText
    ensures '.' !in Inner(w) && '<' !in Inner(w) && '>' !in Inner(w)
    ensures !IsBlank(Inner(w))
  {
    if w.kind == TypeNumber {
      IntToStringChars(w.digits, '.');
      IntToStringChars(w.number, '.');
      IntToStringChars(w.digits, '<');
      IntToStringChars(w.number, '<');
      IntToStringChars(w.digits, '>');
      IntToStringChars(w.number, '>');
    } else {
      IntToStringChars(w.caseIdx, '.');
      IntToStringChars(w.caseIdx, '<');
      IntToStringChars(w.caseIdx, '>');
    }
    assert Inner(w)[0] == 'c' || Inner(w)[0] == 'd';
  }

  lemma PatternableTail(ws: seq<Widget>)
    requires Patternable(ws) && |ws| > 0
    ensures Patternable(ws[1..])
  {
    assert forall k :: 0 <= k < |ws| - 1 ==> ws[1..][k] == ws[k + 1];
  }

  lemma {:induction false} TagsNoDot(ws: seq<Widget>)
    requires Patternable(ws)
    ensures '.' !in Tags(ws)
    decreases |ws|
  {
    if |ws| > 0 {
      PatternableTail(ws);
      TagsNoDot(ws[1..]);
      if ws[0].kind != TypeText {
        InnerShape(ws[0]);
      }
    }
  }

  lemma {:induction false} ReplaceTags(ws: seq<Widget>)
    requires Patternable(ws)
    ensures ReplaceAll(Tags(ws), ">", "<") == Pieces(ws)
    decreases |ws|
  {
    if |ws| > 0 {
      PatternableTail(ws);
      ReplaceTags(ws[1..]);
      var t := GetTag(ws[0]);
      ReplaceCharConcat(t, Tags(ws[1..]), '>', "<");
      if ws[0].kind == TypeText {
        ReplaceCharAbsent(t, '>', "<");
      } else {
        InnerShape(ws[0]);
        var head := "<" + Inner(ws[0]);
        assert t == head + ">";
        ReplaceCharConcat(head, ">", '>', "<");
        ReplaceCharAbsent(head, '>', "<");
        assert ReplaceAll(">", ">", "<") == "<";
      }
    }
  }

  /** Splitting `I + "<" + rest` at '<' when I has no '<'. */
  lemma SplitCommand(i: string, rest: string)
    requires '<' !in i
    ensures Split(i + "<" + rest, "<") == [i] + Split(rest, "<")
  {
    SplitCharConcat(i, '<', rest);
    SplitCharAbsent(i, '<');
  }

  lemma {:induction false} SplitPieces(ws: seq<Widget>)
    requires Patternable(ws)
    ensures NonBlank(Split(Pieces(ws), "<")) == Inners(ws)
    decreases |ws|
  {
    if |ws| == 0 {
      assert Split("", "<") == [""];
    } else if ws[0].kind != TypeText {
      PatternableTail(ws);
      SplitPieces(ws[1..]);
      SplitCommandFirst(ws);
    } else if |ws| == 1 {
      SplitLoneText(ws);
    } else {
      PatternableTail(ws);
      PatternableTail(ws[1..]);
      assert ws[1..][1..] == ws[2..];
      SplitPieces(ws[2..]);
      SplitTextFirst(ws);
    }
  }

  /** The step of SplitPieces for a leading file-name or number widget. */
  lemma SplitCommandFirst(ws: seq<Widget>)
    requires |ws| > 0 && Valid(ws[0]) && ws[0].kind != TypeText
    requires NonBlank(Split(Pieces(ws[1..]), "<")) == Inners(ws[1..])
    ensures NonBlank(Split(Pieces(ws), "<")) == Inners(ws)
  {
    SplitCommandPiece(ws);
  }

  /** The step of SplitPieces for a leading text widget and the command
      widget after it. */
  lemma SplitTextFirst(ws: seq<Widget>)
    requires |ws| > 1 && ws[0].kind == TypeText && TextOk(ws[0].text)
    requires Valid(ws[1]) && ws[1].kind != TypeText
    requires NonBlank(Split(Pieces(ws[2..]), "<")) == Inners(ws[2..])
    ensures NonBlank(Split(Pieces(ws), "<")) == Inners(ws)
  {
    SplitTextPiece(ws);
    InnersTwo(ws);
  }

  lemma InnersTwo(ws: seq<Widget>)
    requires |ws| > 1
    ensures Inners(ws) == [Inner(ws[0]), Inner(ws[1])] + Inners(ws[2..])
  {
    assert ws[1..][1..] == ws[2..];
    var a := Inners(ws[2..]);
    var i := Inner(ws[1]);
    assert Inners(ws[1..]) == [i] + a;
    assert Inners(ws) == [Inner(ws[0])] + ([i] + a);
    assert [Inner(ws[0])] + ([i] + a) == [Inner(ws[0]), i] + a;
  }

  /** A lone text widget splits to its text. */
  lemma SplitLoneText(ws: seq<Widget>)
    requires Patternable(ws) && |ws| == 1 && ws[0].kind == TypeText
    ensures NonBlank(Split(Pieces(ws), "<")) == Inners(ws)
  {
    assert TextOk(ws[0].text);
    SplitCharAbsent(ws[0].text, '<');
    assert Pieces(ws) == ws[0].text;
    assert NonBlank([ws[0].text]) == [ws[0].text];
  }

  /** A leading file-name or number widget contributes its command. */
  lemma SplitCommandPiece(ws: seq<Widget>)
    requires |ws| > 0 && Valid(ws[0]) && ws[0].kind != TypeText
    ensures NonBlank(Split(Pieces(ws), "<")) == [Inner(ws[0])] + NonBlank(Split(Pieces(ws[1..]), "<"))
  {
    InnerShape(ws[0]);
    SplitCommandString(Inner(ws[0]), Pieces(ws[1..]));
  }

  lemma SplitCommandString(i: string, rest: string)
    requires '<' !in i && !IsBlank(i)
    ensures NonBlank(Split("<" + i + "<" + rest, "<")) == [i] + NonBlank(Split(rest, "<"))
  {
    assert "<" + i + "<" + rest == "" + "<" + (i + "<" + rest);
    SplitCommand("", i + "<" + rest);
    SplitCommand(i, rest);
    NonBlankConcat([""] + [i], Split(rest, "<"));
    assert NonBlank([""] + [i]) == [i];
  }

  /** A leading text widget followed by a command widget contributes its
      text and then that command. */
  lemma SplitTextPiece(ws: seq<Widget>)
    requires |ws| > 1 && ws[0].kind == TypeText && TextOk(ws[0].text)
    requires Valid(ws[1]) && ws[1].kind != TypeText
    ensures NonBlank(Split(Pieces(ws), "<")) == [ws[0].text, Inner(ws[1])] + NonBlank(Split(Pieces(ws[2..]), "<"))
  {
    InnerShape(ws[1]);
    assert ws[1..][1..] == ws[2..];
    var i := Inner(ws[1]);
    var rest := Pieces(ws[2..]);
    assert Pieces(ws[1..]) == "<" + i + "<" + rest;
    SplitTextString(ws[0].text, i, rest);
  }

  lemma SplitTextString(t: string, i: string, rest: string)
    requires '<' !in t && !IsBlank(t) && '<' !in i && !IsBlank(i)
    ensures NonBlank(Split(t + ("<" + i + "<" + rest), "<")) == [t, i] + NonBlank(Split(rest, "<"))
  {
    assert t + ("<" + i + "<" + rest) == t + "<" + (i + "<" + rest);
    SplitCommand(t, i + "<" + rest);
    SplitCommand(i, rest);
    NonBlankConcat([t] + [i], Split(rest, "<"));
    assert NonBlank([t] + [i]) == [t, i];
  }

  /** A pattern made of the widgets' tags and "." + an extension splits into
      that extension and the widgets' commands. */
  lemma PatternParts(ws: seq<Widget>, x: string)
    requires Patternable(ws) && '.' !in x
    ensures PatternExt(Tags(ws) + "." + x) == x
    ensures Commands(Tags(ws) + "." + x) == Inners(ws)
  {
    TagsNoDot(ws);
    PatternExtOf(Tags(ws), x);
    StripExtension(Tags(ws), x);
    ReplaceTags(ws);
    SplitPieces(ws);
  }

  lemma PatternExtOf(tags: string, x: string)
    requires '.' !in tags && '.' !in x
    ensures PatternExt(tags + "." + x) == x
  {
    SplitCharTwo(tags, '.', x);
  }

  lemma StripExtension(tags: string, x: string)
    requires '.' !in tags
    ensures ReplaceAll(tags + "." + x, "." + x, "") == tags
  {
    assert tags + "." + x == tags + ("." + x);
    ReplaceTrailing(tags, "." + x);
  }

  /** Loading the commands of reachable widgets into a one-widget page
      recreates the widgets tag by tag. */
  lemma LoadedTags(w0: Widget, ws: seq<Widget>)
    requires Valid(w0) && Patternable(ws) && |ws| > 0
    ensures forall k :: 0 <= k < |ws| ==> TagReadable(Inners(ws)[k])
    ensures var r := LoadWidgets([w0], Inners(ws));
      |r| == |ws| && forall k :: 0 <= k < |ws| ==> GetTag(r[k]) == GetTag(ws[k])
  {
    NewTags(ws);
    var cmds := Inners(ws);
    LoadIntoOne(w0, cmds);
    TagRoundTrip(w0, ws[0]);
  }

  /** New widgets set to the commands of reachable widgets show their tags. */
  lemma NewTags(ws: seq<Widget>)
    requires Patternable(ws)
    ensures forall k :: 0 <= k < |ws| ==> TagReadable(Inner(ws[k])) && GetTag(SetTag(NewWidget, Inner(ws[k])).1) == GetTag(ws[k])
  {
    NewWidgetValid();
    forall k | 0 <= k < |ws|
      ensures TagReadable(Inner(ws[k])) && GetTag(SetTag(NewWidget, Inner(ws[k])).1) == GetTag(ws[k])
    {
      TagRoundTrip(NewWidget, ws[k]);
    }
  }

  /** Loading into a one-widget page sets that widget to the first command
      and adds a new widget for each further one. */
  lemma LoadIntoOne(w0: Widget, cmds: seq<string>)
    requires Valid(w0) && |cmds| > 0 && forall k :: 0 <= k < |cmds| ==> TagReadable(cmds[k])
    ensures LoadWidgets([w0], cmds)[0] == SetTag(w0, cmds[0]).1
    ensures forall k :: 1 <= k < |cmds| ==> LoadWidgets([w0], cmds)[k] == SetTag(NewWidget, cmds[k]).1
  {
    var added := AddWidgets(cmds[1..]);
    assert [w0][1..] == [];
    var r := LoadWidgets([w0], cmds);
    assert r[1..] == added;
  }

  lemma {:induction false} TagsEqual(a: seq<Widget>, b: seq<Widget>)
    requires |a| == |b| && forall k :: 0 <= k < |a| ==> GetTag(a[k]) == GetTag(b[k])
    ensures Tags(a) == Tags(b)
    decreases |a|
  {
    if |a| > 0 {
      TagsEqual(a[1..], b[1..]);
    }
  }

  /** A save filter of the form `name(*.e tail)`, where the tail is empty or
      starts with a blank ("JPEG (*.jpg *.jpeg)"). */
  predicate FilterShape(name: string, e: string, tail: string)
  {
    '(' !in name && '(' !in e && '(' !in tail && ')' !in e && ')' !in tail &&
    '*' !in e && ' ' !in e && '.' !in e && '<' !in e &&
    (|tail| == 0 || tail[0] == ' ')
  }

  function Filter(name: string, e: string, tail: string): string
  {
    name + "(*." + e + tail + ")"
  }

  /** The extension getFilePattern takes from such a filter is its first one. */
  lemma FilterExtensionOf(name: string, e: string, tail: string)
    requires FilterShape(name, e, tail)
    ensures FilterExtension(Filter(name, e, tail)) == "." + e
  {
    var inside := "*." + e + tail + ")";
    assert Filter(name, e, tail) == name + "(" + inside;
    SplitCharTwo(name, '(', inside);
    var body := "*." + e + tail;
    assert inside == body + ")";
    ReplaceTrailing(body, ")");
    StripStars(e, tail);
    if |tail| == 0 {
      assert ReplaceAll(tail, "*", "") == "";
    }
    FirstWord(e, ReplaceAll(tail, "*", ""));
  }

  /** Removing the '*'s of "*.e tail" leaves ".e" and the tail without its '*'s. */
  lemma StripStars(e: string, tail: string)
    requires '*' !in e
    ensures ReplaceAll("*." + e + tail, "*", "") == "." + e + ReplaceAll(tail, "*", "")
    ensures |tail| > 0 && tail[0] != '*' ==> ReplaceAll(tail, "*", "") == [tail[0]] + ReplaceAll(tail[1..], "*", "")
  {
    var dotE := "." + e;
    assert "*." + e + tail == "*" + (dotE + tail);
    ReplaceCharConcat("*", dotE + tail, '*', "");
    ReplaceCharConcat(dotE, tail, '*', "");
    ReplaceCharAbsent(dotE, '*', "");
    assert ReplaceAll("*", "*", "") == "";
    if |tail| > 0 && tail[0] != '*' {
      assert tail == [tail[0]] + tail[1..];
      ReplaceCharConcat([tail[0]], tail[1..], '*', "");
      ReplaceCharAbsent([tail[0]], '*', "");
    }
  }

  /** ".e" followed by nothing or by a blank: the first blank-separated word is ".e". */
  lemma FirstWord(e: string, rest: string)
    requires ' ' !in e && (|rest| == 0 || rest[0] == ' ')
    ensures Split("." + e + rest, " ")[0] == "." + e
  {
    var dotE := "." + e;
    if |rest| == 0 {
      assert dotE + rest == dotE;
      SplitCharAbsent(dotE, ' ');
    } else {
      var s := dotE + rest;
      assert s[..|dotE|] == dotE && s[|dotE|] == ' ';
      SplitCharFirst(s, ' ', |dotE|);
    }
  }

  /** Such a filter contains its extension, ignoring case. */
  lemma FilterContainsExt(name: string, e: string, tail: string)
    ensures ContainsCI(Filter(name, e, tail), e)
  {
    var x := name + "(*.";
    var z := tail + ")";
    assert Filter(name, e, tail) == x + e + z;
    ToLowerConcat(x + e, z);
    ToLowerConcat(x, e);
    ContainsMiddle(ToLower(x), ToLower(e), ToLower(z));
  }

  /** findText returns the filter that contains the text when no earlier
      one does. */
  lemma FindTextAt(filters: seq<string>, text: string, i: int)
    requires 0 <= i < |filters| && ContainsCI(filters[i], text)
    requires forall j :: 0 <= j < i ==> !ContainsCI(filters[j], text)
    ensures FindText(filters, text) == i
  {
  }

  /** The extension choice a pattern can be read back into: keep the
      extension, or convert with the selected filter of the form
      `name(*.e tail)` being the first filter that mentions `e`. */
  predicate ExtensionRecoverable(o: Output, filters: seq<string>, name: string, e: string, tail: string)
  {
    o.extIndex == 1 ==>
      0 <= o.newExt < |filters| && filters[o.newExt] == Filter(name, e, tail) && FilterShape(name, e, tail) &&
      forall j :: 0 <= j < o.newExt ==> !ContainsCI(filters[j], e)
  }

  /** The suffix getFilePattern writes after the tags. */
  lemma PatternSuffix(o: Output, filters: seq<string>, name: string, e: string, tail: string)
    requires 0 <= o.extIndex <= 1 && ExtensionRecoverable(o, filters, name, e, tail)
    ensures GetFilePattern(o, filters) == Tags(o.widgets) + "." + (if o.extIndex == 0 then "<old>" else e)
  {
    if o.extIndex == 1 {
      FilterExtensionOf(name, e, tail);
    }
  }

  /** getFilePattern followed by applyDefault and loadFilePattern restores
      the widgets' tags, the extension choice and the filter, and hence the
      pattern itself. */
  lemma PatternRoundTrip(o0: Output, o: Output, filters: seq<string>, name: string, e: string, tail: string)
    requires WidgetsValid(o0.widgets) && |o0.widgets| > 0
    requires ValidOutput(o, filters) && Patternable(o.widgets) && |o.widgets| > 0
    requires ExtensionRecoverable(o, filters, name, e, tail)
    ensures PatternReadable(GetFilePattern(o, filters))
    ensures var r := LoadFilePattern(ApplyDefault(o0, filters), GetFilePattern(o, filters), filters);
      |r.widgets| == |o.widgets| &&
      (forall k :: 0 <= k < |o.widgets| ==> GetTag(r.widgets[k]) == GetTag(o.widgets[k])) &&
      r.extIndex == o.extIndex && (o.extIndex == 1 ==> r.newExt == o.newExt) &&
      GetFilePattern(r, filters) == GetFilePattern(o, filters)
  {
    var x := if o.extIndex == 0 then "<old>" else e;
    PatternSuffix(o, filters, name, e, tail);
    var pattern := GetFilePattern(o, filters);
    PatternParts(o.widgets, x);
    LoadedTags(ResetTag(o0.widgets[0]), o.widgets);
    var d := ApplyDefault(o0, filters);
    assert d.widgets == [ResetTag(o0.widgets[0])];
    var r := LoadFilePattern(d, pattern, filters);
    TagsEqual(r.widgets, o.widgets);
    if o.extIndex == 1 {
      assert x != "<old>" by { assert '<' !in e; }
      FilterContainsExt(name, e, tail);
      FindTextAt(filters, e, o.newExt);
      PatternSuffix(r, filters, name, e, tail);
    } else {
      PatternSuffix(r, filters, name, e, tail);
    }
  }

  // ---------------------------------------------------------------------
  // Options round trip

  /** loadProperties restores the overwrite mode, the delete and input-folder
      boxes and the output directory of the configuration. */
  lemma OptionsRoundTrip(o: Output, c: Config, filters: seq<string>)
    requires WidgetsValid(o.widgets) && PatternReadable(c.pattern)
    ensures var r := LoadProperties(o, c, filters);
      OverwriteMode(r) == c.saveInfo.mode && r.deleteOriginal == c.saveInfo.deleteOriginal &&
      r.useInput == c.saveInfo.inputDirIsOutputDir && r.outputDir == c.outputDir
  {
  }

  /** The quality comes back when the pattern converts and the stored value
      lies in the spin box range; a pattern that keeps the extension reads
      back as -1. */
  lemma CompressionRoundTrip(o: Output, c: Config, filters: seq<string>)
    requires WidgetsValid(o.widgets) && PatternReadable(c.pattern)
    requires o.compressionEnabled <==> o.extIndex > 0
    ensures var r := LoadProperties(o, c, filters);
      (KeepsExtension(c.pattern) ==> GetCompression(r, filters) == -1) &&
      (!KeepsExtension(c.pattern) && 1 <= c.saveInfo.compression <= 100 ==>
        GetCompression(r, filters) == c.saveInfo.compression)
  {
  }

  // ---------------------------------------------------------------------
  // The plus rule

  /** Pressing plus keeps the rule that more than four widgets disable
      every plus button. */
  lemma PlusPressedKeepsRule(o: Output, i: nat, tag: string)
    requires i < |o.widgets| && TagReadable(tag) && PlusRule(o)
    ensures PlusRule(PlusPressed(o, i, tag))
  {
    var r := PlusPressed(o, i, tag);
    if |r.widgets| <= 4 {
      NewWidgetValid();
      assert r.widgets[i + 1].plusEnabled;
    }
  }

  lemma MinusPressedKeepsRule(o: Output, i: nat)
    requires i < |o.widgets| && PlusRule(o)
    ensures PlusRule(MinusPressed(o, i))
  {
  }

  /** Pressing plus and then minus on the new widget gives back the tags. */
  lemma PlusMinusRoundTrip(o: Output, i: nat, tag: string)
    requires i < |o.widgets| && TagReadable(tag)
    ensures var r := MinusPressed(PlusPressed(o, i, tag), i + 1);
      |r.widgets| == |o.widgets| && forall k :: 0 <= k < |o.widgets| ==> GetTag(r.widgets[k]) == GetTag(o.widgets[k])
  {
    var p := PlusPressed(o, i, tag);
    PlusPressedTags(o, i, tag);
    MinusPressedTags(p, i + 1);
  }

  /** loadFilePattern appends its widgets with the plus button enabled, so
      a pattern of six tags loaded into one widget breaks the rule. */
  lemma LoadedWidgetsKeepPlus(ws: seq<Widget>, cmds: seq<string>)
    requires WidgetsValid(ws) && |ws| == 1 && |cmds| >= 6
    requires forall k :: 0 <= k < |cmds| ==> TagReadable(cmds[k])
    ensures var r := LoadWidgets(ws, cmds); |r| > 4 && r[|r| - 1].plusEnabled
  {
  }
}

=== FILE: batch_process.dfy ===
/** DkBatchProcess: one input file of a batch run. It checks the early
    exits, then either renames, copies, or loads, runs the step chain and
    saves, protecting an output it overwrites by moving it to a back-up
    path first and deleting or restoring that back-up afterwards. */
module BatchProcess {
  import opened Wrappers
  import opened FileSystem
  import opened Images
  import opened SaveInfos
  import opened BatchLog
  import opened BatchSteps

  /** What the process needs from outside this model: the pixel operations
      and plugins the steps use, decoding a file into a container, encoding
      an image for a path at a compression level, and the back-up path
      DkSaveInfo::createBackupFilePath picks for an output path. */
  datatype Env = Env(
    ops: ImageOps,
    host: PluginHost,
    decode: (Path, Blob) -> Option<Container>,
    encode: (Image, Path, int) -> Option<Blob>,
    backupName: Path -> Path)

  /** The file system together with a DkBatchProcess's fields. */
  datatype Proc = Proc(
    fs: Fs,
    info: SaveInfo,
    chain: seq<Step>,
    log: seq<Msg>,
    failures: nat,
    infos: seq<Option<BatchInfo>>,
    processed: bool)

  /** The process after one of its member functions, and what it returned. */
  datatype Ret = Ret(p: Proc, ok: bool)

  /** The constructor followed by setProcessChain. */
  function NewProc(fs: Fs, info: SaveInfo, chain: seq<Step>): (p: Proc)
    ensures p.log == [] && p.failures == 0 && p.infos == [] && !p.processed
    ensures p.fs == fs && p.info == info && p.chain == chain
  {
    Proc(fs, info, chain, [], 0, [], false)
  }

  function AddLog(p: Proc, m: seq<Msg>): Proc
  {
    p.(log := p.log + m)
  }

  function AddFailure(p: Proc): Proc
  {
    p.(failures := p.failures + 1)
  }

  /** DkBatchProcess::hasFailed(). */
  predicate HasFailed(p: Proc)
  {
    p.failures != 0
  }

  // ---------------------------------------------------------------------
  // The file operations

  /** DkBatchProcess::renameFile. */
  function RenameFile(p: Proc): (r: Ret)
    ensures r.ok <==> !Exists(p.fs, p.info.outputPath) && Rename(p.fs, p.info.inputPath, p.info.outputPath).ok
    ensures r.ok ==> r.p.fs == Rename(p.fs, p.info.inputPath, p.info.outputPath).fs
    ensures !r.ok ==> r.p.fs == p.fs
    ensures r.p.failures == p.failures && r.p.info == p.info && r.p.processed == p.processed
  {
    var src, dst := p.info.inputPath, p.info.outputPath;
    if Exists(p.fs, dst) then Ret(AddLog(p, [RenameTargetExists]), false)
    else
      var o := Rename(p.fs, src, dst);
      if !o.ok then Ret(AddLog(p, [RenameFailed, OsError]), false)
      else Ret(AddLog(p.(fs := o.fs), [Renamed(src, dst)]), true)
  }

  /** DkBatchProcess::deleteOrRestoreExisting: after a save, remove the
      back-up when the output exists, or move the back-up back when it does
      not. */
  function DeleteOrRestoreExisting(p: Proc): (r: Ret)
    ensures r.p.failures == p.failures && r.p.info == p.info && r.p.processed == p.processed
    ensures r.p.chain == p.chain && p.log <= r.p.log
    ensures OnlyChanged(p.fs, r.p.fs, {p.info.outputPath, p.info.backupPath})
    ensures Exists(p.fs, p.info.outputPath) && p.info.backupPath != p.info.outputPath ==>
      SameAt(p.fs, r.p.fs, p.info.outputPath)
    ensures !Exists(p.fs, p.info.outputPath) ==>
      (r.ok <==> Rename(p.fs, p.info.backupPath, p.info.outputPath).ok)
    ensures !Exists(p.fs, p.info.outputPath) && r.ok ==>
      Exists(r.p.fs, p.info.outputPath) && r.p.fs.files[p.info.outputPath] == p.fs.files[p.info.backupPath] &&
      !Exists(r.p.fs, p.info.backupPath)
    ensures Exists(p.fs, p.info.outputPath) && Exists(p.fs, p.info.backupPath) ==>
      (r.ok <==> Writable(p.fs, p.info.backupPath)) && (r.ok ==> !Exists(r.p.fs, p.info.backupPath))
    ensures Exists(p.fs, p.info.outputPath) && !Exists(p.fs, p.info.backupPath) ==> r.ok && r.p.fs == p.fs
    ensures !r.ok ==> r.p.fs == p.fs
  {
    var out, b := p.info.outputPath, p.info.backupPath;
    if Exists(p.fs, out) && b != "" && Exists(p.fs, b) then
      var o := Remove(p.fs, b);
      if !o.ok then Ret(AddLog(p, [DeleteExistingFailed, OsError]), false)
      else Ret(p.(fs := o.fs), true)
    else if !Exists(p.fs, out) then
      var o := Rename(p.fs, b, out);
      if !o.ok then Ret(AddLog(p, [RestoreFailed(b), OsError]), false)
      else Ret(AddLog(p.(fs := o.fs), [Restored(out)]), true)
    else Ret(p, true)
  }

  /** DkBatchProcess::copyFile. */
  function CopyFile(p: Proc): (r: Ret)
    ensures r.p.failures == p.failures && r.p.info == p.info && r.p.processed == p.processed
    ensures r.ok ==> p.info.mode != DoNotSave
    ensures p.info.backupPath == "" && r.ok ==>
      Exists(p.fs, p.info.inputPath) && Exists(r.p.fs, p.info.outputPath) &&
      r.p.fs.files[p.info.outputPath] == p.fs.files[p.info.inputPath]
    ensures p.info.backupPath == "" && Exists(p.fs, p.info.outputPath) ==> !r.ok && r.p.fs == p.fs
    ensures p.info.backupPath == "" ==> OnlyChanged(p.fs, r.p.fs, {p.info.outputPath})
  {
    var src, dst := p.info.inputPath, p.info.outputPath;
    if p.info.mode == DoNotSave then Ret(AddLog(p, [CopyNotSaving]), false)
    else
      var d := if Exists(p.fs, dst) && p.info.mode == Overwrite then DeleteOrRestoreExisting(p) else Ret(p, true);
      if !d.ok then Ret(d.p, false)
      else
        var o := Copy(d.p.fs, src, dst);
        if !o.ok then Ret(AddLog(d.p, [CopyFailed, InputIs(src), OutputIs(dst), OsError]), false)
        else Ret(AddLog(d.p.(fs := o.fs), [Copied(src, dst)]), true)
  }

  /** DkBatchProcess::prepareDeleteExisting: an output that is to be
      overwritten is first renamed to a fresh back-up path. */
  function PrepareDeleteExisting(env: Env, p: Proc): (r: Ret)
    ensures r.p.failures == p.failures && r.p.processed == p.processed
    ensures r.p.chain == p.chain && p.log <= r.p.log
    ensures r.p.info.inputPath == p.info.inputPath && r.p.info.outputPath == p.info.outputPath
    ensures r.p.info.mode == p.info.mode && r.p.info.compression == p.info.compression
    ensures !(Exists(p.fs, p.info.outputPath) && p.info.mode == Overwrite) ==> r.ok && r.p == p
    ensures Exists(p.fs, p.info.outputPath) && p.info.mode == Overwrite ==>
      var b := env.backupName(p.info.outputPath);
      (r.ok <==> !Exists(p.fs, b) && Rename(p.fs, p.info.outputPath, b).ok) &&
      (r.ok ==> r.p.info.backupPath == b && r.p.fs == Rename(p.fs, p.info.outputPath, b).fs)
    ensures !r.ok ==> r.p.fs == p.fs && r.p.info.backupPath == ""
  {
    var out := p.info.outputPath;
    if Exists(p.fs, out) && p.info.mode == Overwrite then
      var b := env.backupName(out);
      var cleared := p.(info := p.info.(backupPath := ""));
      if Exists(p.fs, b) then Ret(AddLog(cleared, [BackupExists(b)]), false)
      else
        var o := Rename(p.fs, out, b);
        if !o.ok then Ret(AddLog(cleared, [BackupFailed(b), OsError]), false)
        else Ret(p.(fs := o.fs, info := p.info.(backupPath := b)), true)
    else Ret(p, true)
  }

  /** DkBatchProcess::deleteOriginalFile. */
  function DeleteOriginalFile(p: Proc): (r: Ret)
    ensures r.p.info == p.info && r.p.processed == p.processed
    ensures OnlyChanged(p.fs, r.p.fs, {p.info.inputPath})
    ensures !Exists(r.p.fs, p.info.inputPath) && Exists(p.fs, p.info.inputPath) ==>
      p.failures == 0 && p.info.deleteOriginal && p.info.inputPath != p.info.outputPath
    ensures r.p.failures == p.failures + (if r.ok then 0 else 1)
    ensures p.info.inputPath != p.info.outputPath && p.failures == 0 && p.info.deleteOriginal ==>
      (r.ok <==> Exists(p.fs, p.info.inputPath) && Writable(p.fs, p.info.inputPath)) &&
      (r.ok ==> !Exists(r.p.fs, p.info.inputPath))
    ensures !(p.info.inputPath != p.info.outputPath && p.failures == 0 && p.info.deleteOriginal) ==>
      r.ok && r.p.fs == p.fs
    ensures p.info.inputPath == p.info.outputPath ==> r.p == p
    ensures p.info.inputPath != p.info.outputPath && p.failures != 0 ==>
      r.p.log == p.log + [OriginalKept(p.failures)]
  {
    var src := p.info.inputPath;
    if src == p.info.outputPath then Ret(p, true)
    else if p.failures == 0 && p.info.deleteOriginal then
      var o := Remove(p.fs, src);
      if o.ok then Ret(AddLog(p.(fs := o.fs), [OriginalDeleted(src)]), true)
      else Ret(AddLog(AddFailure(p), [OriginalDeleteFailed(src)]), false)
    else if p.failures != 0 then Ret(AddLog(p, [OriginalKept(p.failures)]), true)
    else Ret(p, true)
  }

  // ---------------------------------------------------------------------
  // Loading, the step chain and saving

  /** DkImageContainer::loadImage on a path: None when the file is missing
      or cannot be decoded. */
  function Load(env: Env, fs: Fs, path: Path): (c: Option<Container>)
    ensures c.Some? ==> Exists(fs, path)
  {
    if Exists(fs, path) then env.decode(path, fs.files[path]) else None
  }

  /** DkImageContainer::saveImage: encode, then write the file. */
  function Save(env: Env, fs: Fs, img: Image, path: Path, compression: int): (o: Outcome)
    ensures o.ok <==> env.encode(img, path, compression).Some? && Writable(fs, path)
    ensures o.ok ==> Exists(o.fs, path) && o.fs.files[path] == env.encode(img, path, compression).value
    ensures !o.ok ==> o.fs == fs
    ensures OnlyChanged(fs, o.fs, {path})
  {
    match env.encode(img, path, compression)
    case None => Outcome(fs, false)
    case Some(blob) => Write(fs, path, blob)
  }

  /** The container after the chain, the lines and failures it produced and
      the records the steps handed back. */
  datatype ChainResult = ChainResult(container: Container, log: seq<Msg>, failures: nat, infos: seq<Option<BatchInfo>>)

  /** The loop over the process chain in DkBatchProcess::process: every step
      works on the container the previous one left; a failing step adds a
      line and a failure and the loop goes on. */
  function RunChain(env: Env, si: SaveInfo, chain: seq<Step>, c: Container): (r: ChainResult)
    ensures r.failures <= |chain|
    ensures r.container.cropRect == c.cropRect
    decreases |chain|
  {
    if |chain| == 0 then ChainResult(c, [], 0, [])
    else
      var s := StepCompute(env.ops, env.host, chain[0], c, si);
      var rest := RunChain(env, si, chain[1..], s.container);
      ChainResult(
        rest.container,
        s.log + (if s.ok then [] else [StepFailed(Name(chain[0]))]) + rest.log,
        (if s.ok then 0 else 1) + rest.failures,
        s.infos + rest.infos)
  }

  /** The result of running one chain result after another: the second
      container, and the lines, failures and records of both. */
  function Then(x: ChainResult, y: ChainResult): ChainResult
  {
    ChainResult(y.container, x.log + y.log, x.failures + y.failures, x.infos + y.infos)
  }

  /** The first step of a chain, then the rest of it. */
  lemma RunChainStep(env: Env, si: SaveInfo, chain: seq<Step>, c: Container)
    requires |chain| > 0
    ensures var s := StepCompute(env.ops, env.host, chain[0], c, si);
      RunChain(env, si, chain, c) ==
        Then(ChainResult(s.container, s.log + (if s.ok then [] else [StepFailed(Name(chain[0]))]),
                         if s.ok then 0 else 1, s.infos),
             RunChain(env, si, chain[1..], s.container))
  {
  }

  /** Running two chains one after the other is running their
      concatenation: the second starts from the container the first left,
      and the lines, failures and records add up. */
  lemma {:induction false} RunChainConcat(env: Env, si: SaveInfo, a: seq<Step>, b: seq<Step>, c: Container)
    ensures var ra := RunChain(env, si, a, c);
      RunChain(env, si, a + b, c) == Then(ra, RunChain(env, si, b, ra.container))
    decreases |a|
  {
    if |a| == 0 {
      assert a + b == b;
    } else {
      var ab := a + b;
      assert ab[0] == a[0] && ab[1..] == a[1..] + b;
      var s := StepCompute(env.ops, env.host, a[0], c, si);
      var head := ChainResult(s.container, s.log + (if s.ok then [] else [StepFailed(Name(a[0]))]),
                              if s.ok then 0 else 1, s.infos);
      var ra1 := RunChain(env, si, a[1..], s.container);
      RunChainStep(env, si, a, c);
      RunChainStep(env, si, ab, c);
      RunChainConcat(env, si, a[1..], b, s.container);
      ThenAssociative(head, ra1, RunChain(env, si, b, ra1.container));
    }
  }

  lemma ThenAssociative(x: ChainResult, y: ChainResult, z: ChainResult)
    ensures Then(x, Then(y, z)) == Then(Then(x, y), z)
  {
    assert x.log + (y.log + z.log) == (x.log + y.log) + z.log;
    assert x.infos + (y.infos + z.infos) == (x.infos + y.infos) + z.infos;
  }

  /** A chain of one step: a failing step counts one failure and logs that
      it failed; a succeeding one counts none. */
  lemma RunChainOfOne(env: Env, si: SaveInfo, s: Step, c: Container)
    ensures var st := StepCompute(env.ops, env.host, s, c, si);
      var r := RunChain(env, si, [s], c);
      r.container == st.container && r.infos == st.infos &&
      (st.ok ==> r.failures == 0 && r.log == st.log) &&
      (!st.ok ==> r.failures == 1 && r.log == st.log + [StepFailed(Name(s))])
  {
    var st := StepCompute(env.ops, env.host, s, c, si);
    assert [s][1..] == [];
    assert RunChain(env, si, [], st.container) == ChainResult(st.container, [], 0, []);
  }

  /** A chain of inactive steps leaves the container as it is and fails
      nowhere. */
  lemma {:induction false} InactiveChainIsIdentity(env: Env, si: SaveInfo, chain: seq<Step>, c: Container)
    requires forall k :: 0 <= k < |chain| ==> !IsActive(chain[k])
    ensures RunChain(env, si, chain, c).container == c
    ensures RunChain(env, si, chain, c).failures == 0
    decreases |chain|
  {
    if |chain| > 0 {
      InactiveStepIsIdentity(env.ops, env.host, chain[0], c, si);
      InactiveChainIsIdentity(env, si, chain[1..], c);
    }
  }

  /** The end of DkBatchProcess::process, once the steps have run on the
      loaded image `img`: back up an output that is to be overwritten, save
      unless saving is switched off, then delete the back-up or restore it. */
  function SaveOutput(env: Env, p: Proc, img: Image): (r: Ret)
    ensures r.p.info.inputPath == p.info.inputPath && r.p.info.outputPath == p.info.outputPath
    ensures r.p.failures >= p.failures
    ensures r.p.processed == p.processed && r.p.chain == p.chain && p.log <= r.p.log
  {
    var out := p.info.outputPath;
    var pr := PrepareDeleteExisting(env, p);
    if !pr.ok then Ret(AddFailure(pr.p), false)
    else if p.info.mode == DoNotSave then Ret(AddLog(pr.p, [NotSaved(out)]), true)
    else
      var sv := Save(env, pr.p.fs, img, out, p.info.compression);
      var p2 := if sv.ok then AddLog(pr.p.(fs := sv.fs), [Saved(out)]) else AddFailure(AddLog(pr.p, [SaveFailed(out)]));
      var d := DeleteOrRestoreExisting(p2);
      if !d.ok then Ret(AddFailure(d.p), false) else Ret(d.p, true)
  }

  /** The process after the steps ran: their lines, failures and records
      added. */
  function AfterChain(p: Proc, ch: ChainResult): (q: Proc)
    ensures q.fs == p.fs && q.info == p.info && q.chain == p.chain && q.processed == p.processed
    ensures q.log == p.log + ch.log && q.failures == p.failures + ch.failures
  {
    p.(log := p.log + ch.log, failures := p.failures + ch.failures, infos := p.infos + ch.infos)
  }

  /** DkBatchProcess::process. */
  function Process(env: Env, p: Proc): (r: Ret)
    ensures r.p.info.inputPath == p.info.inputPath && r.p.info.outputPath == p.info.outputPath
    ensures r.p.failures >= p.failures
    ensures r.p.processed == p.processed && r.p.chain == p.chain
    ensures p.log + [Processing(p.info.inputPath)] <= r.p.log
  {
    var p0 := AddLog(p, [Processing(p.info.inputPath)]);
    var c := Load(env, p.fs, p.info.inputPath);
    if c.None? || !HasImage(c.value) then Ret(AddFailure(AddLog(p0, [LoadFailed])), false)
    else
      var ch := RunChain(env, p.info, p.chain, c.value);
      SaveOutput(env, AfterChain(p0, ch), ch.container.image)
  }

  /** DkBatchProcess::compute: the early exits, then rename, copy or
      process; the result is whether no failure was counted. */
  function Compute(env: Env, p: Proc): (r: Ret)
    ensures r.ok <==> r.p.failures == 0
    ensures r.p.processed
    ensures r.p.failures >= p.failures
    ensures r.p.info.inputPath == p.info.inputPath && r.p.info.outputPath == p.info.outputPath
  {
    var q := p.(processed := true);
    var src, out := p.info.inputPath, p.info.outputPath;
    if Exists(p.fs, out) && p.info.mode == SkipExisting then
      var q1 := AddFailure(AddLog(q, [OutputExistsSkipping(out)]));
      Ret(q1, q1.failures == 0)
    else if !Exists(p.fs, src) then
      var q1 := AddFailure(AddLog(q, [InputMissing, InputIs(src)]));
      Ret(q1, q1.failures == 0)
    else if src == out && |p.chain| == 0 then
      var q1 := AddFailure(AddLog(q, [NothingToDo]));
      Ret(q1, q1.failures == 0)
    else if |p.chain| == 0 && src == out && Suffix(src) == Suffix(out) then
      var q1 := RenameBranch(q);
      Ret(q1, q1.failures == 0)
    else if |p.chain| == 0 && Suffix(src) == Suffix(out) then
      var q1 := CopyBranch(q);
      Ret(q1, q1.failures == 0)
    else
      var r := Process(env, q);
      Ret(r.p, r.p.failures == 0)
  }

  /** `b` is `a` after more work on the same file: no failure was uncounted
      and the paths and the processed flag are kept. */
  predicate Continues(a: Proc, b: Proc)
  {
    b.failures >= a.failures && b.processed == a.processed &&
    b.info.inputPath == a.info.inputPath && b.info.outputPath == a.info.outputPath
  }

  /** The rename branch of compute: a failed rename counts one failure. */
  function RenameBranch(q: Proc): (q1: Proc)
    ensures Continues(q, q1)
  {
    var r := RenameFile(q);
    if r.ok then r.p else AddFailure(r.p)
  }

  /** The copy branch of compute: a failed copy counts one failure, a
      successful one is followed by deleteOriginalFile. */
  function CopyBranch(q: Proc): (q1: Proc)
    ensures Continues(q, q1)
  {
    var r := CopyFile(q);
    if !r.ok then AddFailure(r.p) else DeleteOriginalFile(r.p).p
  }

  // ---------------------------------------------------------------------
  // Properties

  /** Each early exit counts one failure, logs why and leaves the files
      alone. */
  lemma EarlyExitsLeaveFilesAlone(env: Env, p: Proc)
    ensures var r := Compute(env, p);
      (Exists(p.fs, p.info.outputPath) && p.info.mode == SkipExisting ==>
         r.p.fs == p.fs && r.p.failures == p.failures + 1 &&
         r.p.log == p.log + [OutputExistsSkipping(p.info.outputPath)]) &&
      (!Exists(p.fs, p.info.inputPath) && !(Exists(p.fs, p.info.outputPath) && p.info.mode == SkipExisting) ==>
         r.p.fs == p.fs && r.p.failures == p.failures + 1 &&
         r.p.log == p.log + [InputMissing, InputIs(p.info.inputPath)])
  {
  }

  /** The rename branch can never be taken: a process with no steps whose
      input is its output always stops at the "nothing to do" exit first,
      so renaming a batch of files never happens. */
  lemma RenameBranchUnreachable(env: Env, p: Proc)
    requires |p.chain| == 0 && p.info.inputPath == p.info.outputPath
    ensures var r := Compute(env, p);
      r.p.fs == p.fs && !r.ok && r.p.failures == p.failures + 1 &&
      r.p.log in {p.log + [OutputExistsSkipping(p.info.outputPath)],
                  p.log + [InputMissing, InputIs(p.info.inputPath)],
                  p.log + [NothingToDo]}
  {
  }

  /** With overwrite on, copying onto an existing output always fails:
      deleteOrRestoreExisting finds no back-up to act on, and QFile::copy
      refuses the existing target. Nothing on disk changes. */
  lemma CopyOverwriteAlwaysFails(env: Env, p: Proc)
    requires |p.chain| == 0 && p.info.mode == Overwrite && p.info.backupPath == ""
    requires p.info.inputPath != p.info.outputPath && Suffix(p.info.inputPath) == Suffix(p.info.outputPath)
    requires Exists(p.fs, p.info.inputPath) && Exists(p.fs, p.info.outputPath)
    ensures var r := Compute(env, p);
      !r.ok && r.p.fs == p.fs && r.p.failures == p.failures + 1 && CopyFailed in r.p.log
  {
    var q := p.(processed := true);
    var r := CopyFile(q);
    assert DeleteOrRestoreExisting(q) == Ret(q, true);
    assert !Copy(q.fs, p.info.inputPath, p.info.outputPath).ok;
    assert r.p.log == q.log + [CopyFailed, InputIs(p.info.inputPath), OutputIs(p.info.outputPath), OsError];
  }

  /** A save that fails when there was no output to back up counts two
      failures: one for the save and one for the attempt to restore a
      back-up that was never made. */
  lemma FailedSaveWithoutBackupCountsTwice(env: Env, p: Proc, img: Image)
    requires p.info.mode == SkipExisting && p.info.backupPath == ""
    requires !Exists(p.fs, p.info.outputPath)
    requires env.encode(img, p.info.outputPath, p.info.compression).None?
    ensures var r := SaveOutput(env, p, img);
      !r.ok && r.p.fs == p.fs && r.p.failures == p.failures + 2 &&
      r.p.log == p.log + [SaveFailed(p.info.outputPath), RestoreFailed(""), OsError]
  {
    assert PrepareDeleteExisting(env, p) == Ret(p, true);
    var p2 := AddFailure(AddLog(p, [SaveFailed(p.info.outputPath)]));
    assert !Rename(p2.fs, "", p.info.outputPath).ok;
  }

  /** Saving touches no file but the output and its back-up. */
  lemma SaveOutputFrame(env: Env, p: Proc, img: Image)
    requires p.info.backupPath == ""
    ensures OnlyChanged(p.fs, SaveOutput(env, p, img).p.fs, {p.info.outputPath, env.backupName(p.info.outputPath)})
  {
    var out := p.info.outputPath;
    var b := env.backupName(out);
    var pr := PrepareDeleteExisting(env, p);
    assert OnlyChanged(p.fs, pr.p.fs, {out, b});
    if pr.ok && p.info.mode != DoNotSave {
      assert pr.p.info.backupPath in {"", b};
      var sv := Save(env, pr.p.fs, img, out, p.info.compression);
      assert OnlyChanged(p.fs, sv.fs, {out, b});
    }
  }

  /** The process path touches no file but the output and its back-up. */
  lemma ProcessFrame(env: Env, p: Proc)
    requires p.info.backupPath == ""
    ensures OnlyChanged(p.fs, Process(env, p).p.fs, {p.info.outputPath, env.backupName(p.info.outputPath)})
  {
    var c := Load(env, p.fs, p.info.inputPath);
    if c.Some? && HasImage(c.value) {
      var p0 := AddLog(p, [Processing(p.info.inputPath)]);
      var ch := RunChain(env, p.info, p.chain, c.value);
      SaveOutputFrame(env, AfterChain(p0, ch), ch.container.image);
    }
  }

  /** The safe-replace protocol: when an existing output is overwritten,
      its old contents are lost only if the new image was written in its
      place; otherwise they are still at the output path or at the back-up
      path. */
  lemma SaveOutputKeepsOriginal(env: Env, p: Proc, img: Image)
    requires p.info.mode == Overwrite && p.info.backupPath == ""
    requires Exists(p.fs, p.info.outputPath)
    ensures var r := SaveOutput(env, p, img);
      var out := p.info.outputPath;
      var b := env.backupName(out);
      var prior := p.fs.files[out];
      (Exists(r.p.fs, out) && r.p.fs.files[out] == prior) ||
      (Exists(r.p.fs, b) && r.p.fs.files[b] == prior) ||
      (Saved(out) in r.p.log && Exists(r.p.fs, out) &&
       r.p.fs.files[out] == env.encode(img, out, p.info.compression).value)
    ensures !PrepareDeleteExisting(env, p).ok ==> SaveOutput(env, p, img).p.fs == p.fs
    ensures PrepareDeleteExisting(env, p).ok ==>
      var r := SaveOutput(env, p, img);
      var out := p.info.outputPath;
      var enc := env.encode(img, out, p.info.compression);
      r.ok && !Exists(r.p.fs, env.backupName(out)) && Exists(r.p.fs, out) &&
      r.p.fs.files[out] == (if enc.Some? then enc.value else p.fs.files[out])
  {
    var out := p.info.outputPath;
    var b := env.backupName(out);
    var pr := PrepareDeleteExisting(env, p);
    if !pr.ok {
      SaveOutputWithoutBackup(env, p, img);
    } else if env.encode(img, out, p.info.compression).Some? {
      SaveOutputReplaces(env, p, img);
    } else {
      SaveOutputRestores(env, p, img);
    }
    if pr.ok {
      assert pr.p.info.backupPath == b && b != out;
      assert Exists(pr.p.fs, b) && pr.p.fs.files[b] == p.fs.files[out];
      var sv := Save(env, pr.p.fs, img, out, p.info.compression);
      if sv.ok {
        var p2 := AddLog(pr.p.(fs := sv.fs), [Saved(out)]);
        var d := DeleteOrRestoreExisting(p2);
        assert SameAt(p2.fs, d.p.fs, out);
        assert Saved(out) in p2.log;
        assert p2.log <= d.p.log;
      } else {
        var p2 := AddFailure(AddLog(pr.p, [SaveFailed(out)]));
        assert !Exists(p2.fs, out);
        var d := DeleteOrRestoreExisting(p2);
        if d.ok {
          assert Exists(d.p.fs, out) && d.p.fs.files[out] == p.fs.files[out];
        }
      }
    }
  }

  /** Overwriting an existing output when the back-up cannot be made
      counts a failure and changes no file. */
  lemma SaveOutputWithoutBackup(env: Env, p: Proc, img: Image)
    requires p.info.mode == Overwrite && Exists(p.fs, p.info.outputPath)
    requires !PrepareDeleteExisting(env, p).ok
    ensures var r := SaveOutput(env, p, img);
      !r.ok && r.p.fs == p.fs && r.p.failures == p.failures + 1
  {
  }

  /** Overwriting an existing output once its back-up is made: an image
      that encodes replaces the output and the back-up is removed. */
  lemma SaveOutputReplaces(env: Env, p: Proc, img: Image)
    requires p.info.mode == Overwrite && Exists(p.fs, p.info.outputPath)
    requires PrepareDeleteExisting(env, p).ok
    requires env.encode(img, p.info.outputPath, p.info.compression).Some?
    ensures var r := SaveOutput(env, p, img);
      var out := p.info.outputPath;
      r.ok && r.p.failures == p.failures && !Exists(r.p.fs, env.backupName(out)) &&
      Exists(r.p.fs, out) && r.p.fs.files[out] == env.encode(img, out, p.info.compression).value
  {
    var out := p.info.outputPath;
    var b := env.backupName(out);
    var pr := PrepareDeleteExisting(env, p);
    assert pr.p.info.backupPath == b && Exists(pr.p.fs, b) && !Exists(pr.p.fs, out);
    assert Writable(pr.p.fs, out) && Writable(pr.p.fs, b);
    var sv := Save(env, pr.p.fs, img, out, p.info.compression);
    assert sv.ok && Exists(sv.fs, b) && Writable(sv.fs, b);
  }

  /** Overwriting an existing output once its back-up is made: an image
      that does not encode counts a failure, and the old contents are moved
      back to the output path, leaving no back-up behind. */
  lemma SaveOutputRestores(env: Env, p: Proc, img: Image)
    requires p.info.mode == Overwrite && Exists(p.fs, p.info.outputPath)
    requires PrepareDeleteExisting(env, p).ok
    requires env.encode(img, p.info.outputPath, p.info.compression).None?
    ensures var r := SaveOutput(env, p, img);
      var out := p.info.outputPath;
      r.ok && r.p.failures == p.failures + 1 && !Exists(r.p.fs, env.backupName(out)) &&
      Exists(r.p.fs, out) && r.p.fs.files[out] == p.fs.files[out]
  {
    var out := p.info.outputPath;
    var b := env.backupName(out);
    var pr := PrepareDeleteExisting(env, p);
    assert pr.p.info.backupPath == b && Exists(pr.p.fs, b) && !Exists(pr.p.fs, out);
    assert pr.p.fs.files[b] == p.fs.files[out];
    assert Writable(pr.p.fs, out) && Writable(pr.p.fs, b);
  }

  /** Saving to a path where no file exists yet: the encoded image is
      written when it encodes and the path is writable. Otherwise the failed
      save counts one failure and the restore from the empty back-up path
      that follows counts a second, and no file changes. */
  lemma SaveOutputWritesNew(env: Env, p: Proc, img: Image)
    requires p.info.mode != DoNotSave && p.info.backupPath == ""
    requires !Exists(p.fs, p.info.outputPath)
    ensures var r := SaveOutput(env, p, img);
      var out := p.info.outputPath;
      var enc := env.encode(img, out, p.info.compression);
      (r.ok <==> enc.Some? && Writable(p.fs, out)) &&
      (r.ok ==> r.p.failures == p.failures && Exists(r.p.fs, out) && r.p.fs.files[out] == enc.value) &&
      (!r.ok ==> r.p.failures == p.failures + 2 && r.p.fs == p.fs)
  {
    var out := p.info.outputPath;
    var pr := PrepareDeleteExisting(env, p);
    assert pr.ok && pr.p == p;
    var sv := Save(env, p.fs, img, out, p.info.compression);
    var p2 := if sv.ok then AddLog(p.(fs := sv.fs), [Saved(out)]) else AddFailure(AddLog(p, [SaveFailed(out)]));
    assert p2.info.backupPath == "";
    assert !sv.ok ==> !Rename(p2.fs, "", out).ok;
  }

  /** The image the steps leave for a process whose input loads. */
  function ChainImage(env: Env, p: Proc): Image
    requires Load(env, p.fs, p.info.inputPath).Some?
  {
    RunChain(env, p.info, p.chain, Load(env, p.fs, p.info.inputPath).value).container.image
  }

  /** The whole process on an existing output to overwrite, once the input
      loads and the back-up is made: a result that encodes replaces the
      output, one that does not leaves the old contents at the output; no
      back-up is left behind either way. */
  lemma ProcessReplacesOrRestores(env: Env, p: Proc)
    requires p.info.mode == Overwrite && Exists(p.fs, p.info.outputPath)
    requires Load(env, p.fs, p.info.inputPath).Some? && HasImage(Load(env, p.fs, p.info.inputPath).value)
    requires PrepareDeleteExisting(env, p).ok
    ensures var r := Process(env, p);
      var out := p.info.outputPath;
      var enc := env.encode(ChainImage(env, p), out, p.info.compression);
      r.ok && !Exists(r.p.fs, env.backupName(out)) && Exists(r.p.fs, out) &&
      r.p.fs.files[out] == (if enc.Some? then enc.value else p.fs.files[out])
  {
    var c := Load(env, p.fs, p.info.inputPath);
    var p0 := AddLog(p, [Processing(p.info.inputPath)]);
    var ch := RunChain(env, p.info, p.chain, c.value);
    var q := AfterChain(p0, ch);
    assert PrepareDeleteExisting(env, q).ok;
    if env.encode(ch.container.image, p.info.outputPath, p.info.compression).Some? {
      SaveOutputReplaces(env, q, ch.container.image);
    } else {
      SaveOutputRestores(env, q, ch.container.image);
    }
  }

  /** The whole process for an input that loads and an output path where
      no file exists yet: the steps' result is written there when it
      encodes and the path is writable, and the failures counted are the
      steps' failures, plus two for a save that did not happen. */
  lemma ProcessWritesNew(env: Env, p: Proc)
    requires p.info.mode != DoNotSave && p.info.backupPath == ""
    requires !Exists(p.fs, p.info.outputPath)
    requires Load(env, p.fs, p.info.inputPath).Some? && HasImage(Load(env, p.fs, p.info.inputPath).value)
    ensures var r := Process(env, p);
      var out := p.info.outputPath;
      var enc := env.encode(ChainImage(env, p), out, p.info.compression);
      var steps := RunChain(env, p.info, p.chain, Load(env, p.fs, p.info.inputPath).value).failures;
      (r.ok <==> enc.Some? && Writable(p.fs, out)) &&
      (r.ok ==> r.p.failures == p.failures + steps && Exists(r.p.fs, out) && r.p.fs.files[out] == enc.value) &&
      (!r.ok ==> r.p.failures == p.failures + steps + 2 && r.p.fs == p.fs)
  {
    var c := Load(env, p.fs, p.info.inputPath);
    var p0 := AddLog(p, [Processing(p.info.inputPath)]);
    var ch := RunChain(env, p.info, p.chain, c.value);
    SaveOutputWritesNew(env, AfterChain(p0, ch), ch.container.image);
  }

  /** The same for the whole process: an existing output that is to be
      overwritten survives, at its path or at the back-up path, unless the
      new image took its place. */
  lemma ReplaceKeepsOriginal(env: Env, p: Proc)
    requires p.info.mode == Overwrite && p.info.backupPath == ""
    requires Exists(p.fs, p.info.outputPath)
    ensures var r := Process(env, p);
      var out := p.info.outputPath;
      var b := env.backupName(out);
      var prior := p.fs.files[out];
      (Exists(r.p.fs, out) && r.p.fs.files[out] == prior) ||
      (Exists(r.p.fs, b) && r.p.fs.files[b] == prior) ||
      (Saved(out) in r.p.log && Exists(r.p.fs, out))
    ensures (Load(env, p.fs, p.info.inputPath).Some? && HasImage(Load(env, p.fs, p.info.inputPath).value) &&
             PrepareDeleteExisting(env, p).ok) ==>
      var r := Process(env, p);
      var out := p.info.outputPath;
      var enc := env.encode(ChainImage(env, p), out, p.info.compression);
      r.ok && !Exists(r.p.fs, env.backupName(out)) && Exists(r.p.fs, out) &&
      r.p.fs.files[out] == (if enc.Some? then enc.value else p.fs.files[out])
  {
    var c := Load(env, p.fs, p.info.inputPath);
    if c.Some? && HasImage(c.value) && PrepareDeleteExisting(env, p).ok {
      ProcessReplacesOrRestores(env, p);
    }
    if c.Some? && HasImage(c.value) {
      var p0 := AddLog(p, [Processing(p.info.inputPath)]);
      var ch := RunChain(env, p.info, p.chain, c.value);
      SaveOutputKeepsOriginal(env, AfterChain(p0, ch), ch.container.image);
    }
  }

  /** The original is deleted only on the copy path, and only once the copy
      is on disk: whenever the input disappears, the output holds what the
      input held. */
  lemma OriginalDeletedOnlyAfterCopy(env: Env, p: Proc)
    requires p.info.backupPath == ""
    requires p.info.inputPath != p.info.outputPath && p.info.inputPath != env.backupName(p.info.outputPath)
    requires Exists(p.fs, p.info.inputPath)
    ensures var r := Compute(env, p);
      !Exists(r.p.fs, p.info.inputPath) ==>
        Exists(r.p.fs, p.info.outputPath) && r.p.fs.files[p.info.outputPath] == p.fs.files[p.info.inputPath]
  {
    var q := p.(processed := true);
    var src, out := p.info.inputPath, p.info.outputPath;
    if !(Exists(p.fs, out) && p.info.mode == SkipExisting) {
      if |p.chain| == 0 && Suffix(src) == Suffix(out) {
        CopyBranchDeletesAfterCopy(q);
      } else {
        ProcessFrame(env, q);
        assert SameAt(p.fs, Process(env, q).p.fs, src);
      }
    }
  }

  /** On the copy path the input disappears only once the output holds a
      copy of it. */
  lemma CopyBranchDeletesAfterCopy(q: Proc)
    requires q.info.backupPath == ""
    requires q.info.inputPath != q.info.outputPath
    requires Exists(q.fs, q.info.inputPath)
    ensures var q1 := CopyBranch(q);
      !Exists(q1.fs, q.info.inputPath) ==>
        Exists(q1.fs, q.info.outputPath) && q1.fs.files[q.info.outputPath] == q.fs.files[q.info.inputPath]
  {
    var src, out := q.info.inputPath, q.info.outputPath;
    var r := CopyFile(q);
    if r.ok {
      var d := DeleteOriginalFile(r.p);
      assert SameAt(r.p.fs, d.p.fs, out);
    } else {
      assert SameAt(q.fs, r.p.fs, src);
    }
  }

  /** Converting files (any process with steps, or a change of format)
      never deletes the originals, whatever the delete-original option says. */
  lemma ProcessKeepsOriginal(env: Env, p: Proc)
    requires p.info.backupPath == ""
    requires p.info.inputPath != p.info.outputPath && p.info.inputPath != env.backupName(p.info.outputPath)
    requires Exists(p.fs, p.info.inputPath)
    requires |p.chain| > 0 || Suffix(p.info.inputPath) != Suffix(p.info.outputPath)
    ensures var r := Compute(env, p);
      Exists(r.p.fs, p.info.inputPath) && r.p.fs.files[p.info.inputPath] == p.fs.files[p.info.inputPath]
  {
    var q := p.(processed := true);
    if !(Exists(p.fs, p.info.outputPath) && p.info.mode == SkipExisting) {
      ProcessFrame(env, q);
      assert SameAt(p.fs, Process(env, q).p.fs, p.info.inputPath);
    }
  }
}

=== FILE: batch_processing.dfy ===
/** A whole batch run: the configuration (DkBatchConfig), one process per
    input file (DkBatchProcessing::init), the run itself as a sequential
    fold over the items sharing one file system, the aggregates the dialog
    shows, and how a configuration is written to and read from the
    settings. */
module BatchProcessing {
  import opened Wrappers
  import opened Text
  import opened FileSystem
  import opened SaveInfos
  import opened BatchLog
  import opened BatchSteps
  import opened BatchProcess
  import opened SettingsStore

  /** DkBatchConfig: the input files, the output directory, the file-name
      pattern, the save options and the processing steps. */
  datatype Config = Config(fileList: seq<Path>, outputDir: Path, pattern: string, saveInfo: SaveInfo, steps: seq<Step>)

  /** A default-constructed DkBatchConfig. The default save options are
      assumed: skip existing outputs, keep originals, compression -1. */
  const DefaultConfig: Config := Config([], "", "", NewSaveInfo(SkipExisting, false, false, -1), [])

  /** DkBatchConfig::isOk: an output directory is given and exists or can
      be created, and there are files and a pattern. Creating the directory
      is the one side effect. */
  function IsOk(fs: Fs, c: Config): (r: Outcome)
    ensures r.ok <==> c.outputDir != "" && (DirExists(fs, c.outputDir) || Writable(fs, c.outputDir)) &&
                      |c.fileList| > 0 && c.pattern != ""
    ensures r.ok ==> DirExists(r.fs, c.outputDir)
    ensures r.fs.files == fs.files
    ensures c.outputDir == "" ==> r.fs == fs
  {
    if c.outputDir == "" then Outcome(fs, false)
    else
      var m := MkPath(fs, c.outputDir);
      if !m.ok then Outcome(m.fs, false)
      else if |c.fileList| == 0 then Outcome(m.fs, false)
      else if c.pattern == "" then Outcome(m.fs, false)
      else Outcome(m.fs, true)
  }

  // ---------------------------------------------------------------------
  // Items

  /** The directory an input file's output goes to. */
  function OutputDirFor(c: Config, file: Path): Path
  {
    if c.saveInfo.inputDirIsOutputDir then DirPath(file) else c.outputDir
  }

  /** The process for file number `idx`: DkFileNameConverter (`convert`,
      whose definition is not part of this model) turns the file name, the
      pattern and the index into the output name. */
  function InitItem(fs: Fs, c: Config, convert: (string, string, int) -> string, idx: nat): (p: Proc)
    requires idx < |c.fileList|
    ensures p.info.inputPath == c.fileList[idx]
    ensures p.info.outputPath == JoinPath(OutputDirFor(c, c.fileList[idx]), convert(FileName(c.fileList[idx]), c.pattern, idx))
    ensures p.info.mode == c.saveInfo.mode && p.info.deleteOriginal == c.saveInfo.deleteOriginal
    ensures p.info.backupPath == c.saveInfo.backupPath && p.info.compression == c.saveInfo.compression
    ensures p.chain == c.steps && p.log == [] && p.failures == 0 && !p.processed
  {
    var file := c.fileList[idx];
    var out := JoinPath(OutputDirFor(c, file), convert(FileName(file), c.pattern, idx));
    NewProc(fs, c.saveInfo.(inputPath := file, outputPath := out), c.steps)
  }

  /** DkBatchProcessing::init: one fresh process per input file, in order. */
  function Init(fs: Fs, c: Config, convert: (string, string, int) -> string): (items: seq<Proc>)
    ensures |items| == |c.fileList|
    ensures forall i :: 0 <= i < |items| ==> items[i] == InitItem(fs, c, convert, i)
  {
    seq(|c.fileList|, i requires 0 <= i < |c.fileList| => InitItem(fs, c, convert, i))
  }

  /** Every item's output lies in the input file's own directory when the
      input-directory option is set, and in the configured output directory
      otherwise (for converted names without '/'). */
  lemma InitOutputDirectory(fs: Fs, c: Config, convert: (string, string, int) -> string, i: nat)
    requires i < |c.fileList|
    requires '/' !in convert(FileName(c.fileList[i]), c.pattern, i)
    requires var d := OutputDirFor(c, c.fileList[i]); |d| > 1 && d[|d| - 1] != '/'
    ensures var out := Init(fs, c, convert)[i].info.outputPath;
      DirPath(out) == (if c.saveInfo.inputDirIsOutputDir then DirPath(c.fileList[i]) else c.outputDir)
  {
    DirPathOfJoin(OutputDirFor(c, c.fileList[i]), convert(FileName(c.fileList[i]), c.pattern, i));
  }

  // ---------------------------------------------------------------------
  // The run

  /** The items after a run and the file system they left. */
  datatype Batch = Batch(items: seq<Proc>, fs: Fs)

  /** The run: every item computes on the file system the previous items
      left (QtConcurrent::map runs them in parallel; this model runs them in
      order). */
  function RunAll(env: Env, items: seq<Proc>, fs: Fs): (r: Batch)
    ensures |r.items| == |items|
    ensures forall i :: 0 <= i < |items| ==> r.items[i].processed
    ensures forall i :: 0 <= i < |items| ==>
      r.items[i].info.inputPath == items[i].info.inputPath && r.items[i].info.outputPath == items[i].info.outputPath
    decreases |items|
  {
    if |items| == 0 then Batch([], fs)
    else
      var first := Compute(env, items[0].(fs := fs));
      var rest := RunAll(env, items[1..], first.p.fs);
      Batch([first.p] + rest.items, rest.fs)
  }

  /** DkBatchProcessing::compute: init, then run every item. */
  function Run(env: Env, fs: Fs, c: Config, convert: (string, string, int) -> string): (r: Batch)
    ensures |r.items| == |c.fileList|
    ensures forall i :: 0 <= i < |c.fileList| ==> r.items[i].info.inputPath == c.fileList[i] && r.items[i].processed
  {
    RunAll(env, Init(fs, c, convert), fs)
  }

  // ---------------------------------------------------------------------
  // Aggregates

  /** DkBatchProcessing::getNumFailures. */
  function NumFailures(items: seq<Proc>): (n: nat)
    ensures n <= |items|
    decreases |items|
  {
    if |items| == 0 then 0
    else (if HasFailed(items[0]) then 1 else 0) + NumFailures(items[1..])
  }

  /** DkBatchProcessing::getNumProcessed. */
  function NumProcessed(items: seq<Proc>): (n: nat)
    ensures n <= |items|
    decreases |items|
  {
    if |items| == 0 then 0
    else (if items[0].processed then 1 else 0) + NumProcessed(items[1..])
  }

  /** The positions of the items that satisfy `f`, in increasing order. */
  function IndicesWhere(items: seq<Proc>, f: Proc -> bool): (ix: seq<nat>)
    ensures |ix| <= |items|
    decreases |items|
  {
    if |items| == 0 then []
    else (if f(items[0]) then [0] else []) + Shift(IndicesWhere(items[1..], f))
  }

  /** Every position moved one item further on. */
  function Shift(ix: seq<nat>): (r: seq<nat>)
    ensures |r| == |ix| && forall k :: 0 <= k < |ix| ==> r[k] == ix[k] + 1
  {
    seq(|ix|, k requires 0 <= k < |ix| => ix[k] + 1)
  }

  predicate Processed(p: Proc)
  {
    p.processed
  }

  /** The listed positions are increasing, in range and satisfy `f`, and
      every position that satisfies `f` is listed. */
  lemma {:induction false} IndicesWhereExact(items: seq<Proc>, f: Proc -> bool)
    ensures var ix := IndicesWhere(items, f);
      (forall k :: 0 <= k < |ix| ==> ix[k] < |items| && f(items[ix[k]])) &&
      (forall k, l :: 0 <= k < l < |ix| ==> ix[k] < ix[l]) &&
      (forall i :: 0 <= i < |items| && f(items[i]) ==> i in ix)
    decreases |items|
  {
    if |items| > 0 {
      var rest := IndicesWhere(items[1..], f);
      var head: seq<nat> := if f(items[0]) then [0] else [];
      IndicesWhereExact(items[1..], f);
      assert rest == IndicesWhere(items[1..], f);
      assert IndicesWhere(items, f) == head + Shift(rest);
      StepSound(items, f, head, rest);
      StepSorted(head, rest);
      StepComplete(items, f, head, rest);
    }
  }

  lemma StepSound(items: seq<Proc>, f: Proc -> bool, head: seq<nat>, rest: seq<nat>)
    requires |items| > 0 && head == (if f(items[0]) then [0] else [])
    requires forall k :: 0 <= k < |rest| ==> rest[k] < |items[1..]| && f(items[1..][rest[k]])
    ensures var ix := head + Shift(rest);
      forall k :: 0 <= k < |ix| ==> ix[k] < |items| && f(items[ix[k]])
  {
    var ix := head + Shift(rest);
    forall k | 0 <= k < |ix|
      ensures ix[k] < |items| && f(items[ix[k]])
    {
      if k >= |head| {
        assert ix[k] == rest[k - |head|] + 1;
        assert items[1..][rest[k - |head|]] == items[ix[k]];
      }
    }
  }

  lemma StepSorted(head: seq<nat>, rest: seq<nat>)
    requires head == [] || head == [0]
    requires forall k, l :: 0 <= k < l < |rest| ==> rest[k] < rest[l]
    ensures var ix := head + Shift(rest);
      forall k, l :: 0 <= k < l < |ix| ==> ix[k] < ix[l]
  {
  }

  lemma StepComplete(items: seq<Proc>, f: Proc -> bool, head: seq<nat>, rest: seq<nat>)
    requires |items| > 0 && head == (if f(items[0]) then [0] else [])
    requires forall i :: 0 <= i < |items[1..]| && f(items[1..][i]) ==> i in rest
    ensures forall i :: 0 <= i < |items| && f(items[i]) ==> i in head + Shift(rest)
  {
    var ix := head + Shift(rest);
    forall i | 1 <= i < |items| && f(items[i])
      ensures i in ix
    {
      assert items[1..][i - 1] == items[i];
      var k :| 0 <= k < |rest| && rest[k] == i - 1;
      assert ix[|head| + k] == i;
    }
  }

  /** getNumFailures counts exactly the failed items. */
  lemma {:induction false} NumFailuresCountsFailed(items: seq<Proc>)
    ensures NumFailures(items) == |IndicesWhere(items, HasFailed)|
    decreases |items|
  {
    if |items| > 0 {
      NumFailuresCountsFailed(items[1..]);
    }
  }

  /** getNumProcessed counts exactly the processed items. */
  lemma {:induction false} NumProcessedCountsProcessed(items: seq<Proc>)
    ensures NumProcessed(items) == |IndicesWhere(items, Processed)|
    decreases |items|
  {
    if |items| > 0 {
      NumProcessedCountsProcessed(items[1..]);
    }
  }

  /** Line k of the result list is the summary of the k-th processed
      item. */
  lemma {:induction false} ResultListLines(items: seq<Proc>)
    ensures var ix := IndicesWhere(items, Processed);
      |ResultList(items)| == |ix| &&
      forall k :: 0 <= k < |ix| ==> ix[k] < |items| && ResultList(items)[k] == Summary(items[ix[k]])
    decreases |items|
  {
    IndicesWhereExact(items, Processed);
    NumProcessedCountsProcessed(items);
    if |items| > 0 {
      ResultListLines(items[1..]);
      var head: seq<nat> := if items[0].processed then [0] else [];
      assert IndicesWhere(items, Processed) == head + Shift(IndicesWhere(items[1..], Processed));
      ResultListStep(items, head, IndicesWhere(items[1..], Processed));
    }
  }

  lemma ResultListStep(items: seq<Proc>, head: seq<nat>, rest: seq<nat>)
    requires |items| > 0 && head == (if items[0].processed then [0] else [])
    requires |ResultList(items[1..])| == |rest|
    requires forall k :: 0 <= k < |rest| ==> rest[k] < |items[1..]| && ResultList(items[1..])[k] == Summary(items[1..][rest[k]])
    ensures var ix := head + Shift(rest);
      |ResultList(items)| == |ix| &&
      forall k :: 0 <= k < |ix| ==> ix[k] < |items| && ResultList(items)[k] == Summary(items[ix[k]])
  {
    var ix := head + Shift(rest);
    var tail := ResultList(items[1..]);
    var hl := if items[0].processed then [Summary(items[0])] else [];
    assert ResultList(items) == hl + tail;
    forall k | 0 <= k < |ix|
      ensures ix[k] < |items| && (hl + tail)[k] == Summary(items[ix[k]])
    {
      ResultLineAt(items, Summary, head, rest, hl, tail, k);
    }
  }

  /** One line of a list built from a head item and a tail list, for any
      line-making function g. */
  lemma ResultLineAt<T>(items: seq<Proc>, g: Proc -> T, head: seq<nat>, rest: seq<nat>, hl: seq<T>, tail: seq<T>, k: nat)
    requires |items| > 0 && head == (if items[0].processed then [0] else [])
    requires hl == (if items[0].processed then [g(items[0])] else [])
    requires |tail| == |rest|
    requires forall k :: 0 <= k < |rest| ==> rest[k] < |items[1..]| && tail[k] == g(items[1..][rest[k]])
    requires k < |head + Shift(rest)|
    ensures (head + Shift(rest))[k] < |items| && (hl + tail)[k] == g(items[(head + Shift(rest))[k]])
  {
    var ix := head + Shift(rest);
    if k >= |head| {
      var m := k - |head|;
      assert ix[k] == Shift(rest)[m] == rest[m] + 1;
      assert (hl + tail)[k] == tail[m];
      assert items[1..][rest[m]] == items[ix[k]];
    } else {
      assert ix[k] == 0 && (hl + tail)[k] == g(items[0]);
    }
  }

  /** An item that has not been computed has no failure. */
  predicate UntouchedClean(items: seq<Proc>)
  {
    forall i :: 0 <= i < |items| ==> items[i].processed || items[i].failures == 0
  }

  /** Only computed items can have failed. */
  lemma {:induction false} FailuresAtMostProcessed(items: seq<Proc>)
    requires UntouchedClean(items)
    ensures NumFailures(items) <= NumProcessed(items)
    decreases |items|
  {
    if |items| > 0 {
      FailuresAtMostProcessed(items[1..]);
    }
  }

  /** After a run every item is processed, and each failed item is one whose
      compute returned false. */
  lemma {:induction false} RunProcessesAll(env: Env, items: seq<Proc>, fs: Fs)
    ensures NumProcessed(RunAll(env, items, fs).items) == |items|
    ensures forall i :: 0 <= i < |items| ==> items[i].failures == 0 ==>
      (HasFailed(RunAll(env, items, fs).items[i]) <==>
       !Compute(env, items[i].(fs := RunFsBefore(env, items, fs, i))).ok)
    decreases |items|
  {
    if |items| > 0 {
      var first := Compute(env, items[0].(fs := fs));
      RunProcessesAll(env, items[1..], first.p.fs);
      forall i | 0 <= i < |items| && items[i].failures == 0
        ensures HasFailed(RunAll(env, items, fs).items[i]) <==>
                !Compute(env, items[i].(fs := RunFsBefore(env, items, fs, i))).ok
      {
        if i > 0 {
          assert items[1..][i - 1] == items[i];
          assert RunAll(env, items, fs).items[i] == RunAll(env, items[1..], first.p.fs).items[i - 1];
        }
      }
    }
  }

  /** The file system item `i` computes on. */
  function RunFsBefore(env: Env, items: seq<Proc>, fs: Fs, i: nat): Fs
    requires i < |items|
    decreases i
  {
    if i == 0 then fs
    else RunFsBefore(env, items[1..], Compute(env, items[0].(fs := fs)).p.fs, i - 1)
  }

  /** What DkBatchProcessing::getCurrentResults reports of an item. */
  datatype ItemResult = NotComputed | Failed | Succeeded

  /** DkBatchProcessing::getCurrentResults: an empty result list is first
      filled with "not computed"; each entry still "not computed" whose item
      was processed becomes "failed" or "succeeded". */
  function CurrentResults(res: seq<ItemResult>, items: seq<Proc>): (r: seq<ItemResult>)
    requires |res| <= |items|
    ensures |r| == if |res| == 0 then |items| else |res|
    ensures forall i :: 0 <= i < |res| && res[i] != NotComputed ==> r[i] == res[i]
    ensures forall i :: 0 <= i < |r| && (|res| == 0 || res[i] == NotComputed) ==>
      r[i] == (if !items[i].processed then NotComputed else if HasFailed(items[i]) then Failed else Succeeded)
  {
    var start := if |res| == 0 then seq(|items|, _ => NotComputed) else res;
    seq(|start|, i requires 0 <= i < |start| =>
      if start[i] != NotComputed then start[i]
      else if items[i].processed then (if HasFailed(items[i]) then Failed else Succeeded)
      else NotComputed)
  }

  /** Once an entry has left "not computed" it never changes, whatever the
      items look like at the next call. */
  lemma CurrentResultsStable(res: seq<ItemResult>, items1: seq<Proc>, items2: seq<Proc>, i: nat)
    requires |res| <= |items1| && |items1| == |items2|
    requires i < |CurrentResults(res, items1)|
    requires CurrentResults(res, items1)[i] != NotComputed
    ensures CurrentResults(CurrentResults(res, items1), items2)[i] == CurrentResults(res, items1)[i]
  {
  }

  const OkSpan: string := " <span style=\" color:#00aa00;\">[OK]</span>"
  const FailSpan: string := " <span style=\" color:#aa0000;\">[FAIL]</span>"

  /** DkBatchProcessing::getBatchSummary: the input path, a tab and a
      coloured [OK] or [FAIL]. */
  function Summary(p: Proc): (s: string)
    ensures |s| > |p.info.inputPath| && s[..|p.info.inputPath| + 1] == p.info.inputPath + "\t"
    ensures s[|p.info.inputPath| + 1..] == OkSpan <==> !HasFailed(p)
  {
    var s := p.info.inputPath + "\t" + (if !HasFailed(p) then OkSpan else FailSpan);
    assert s[|p.info.inputPath| + 1..] == if !HasFailed(p) then OkSpan else FailSpan;
    assert OkSpan[22] != FailSpan[22];
    s
  }

  /** DkBatchProcessing::getResultList: one summary per processed item. */
  function ResultList(items: seq<Proc>): (r: seq<string>)
    ensures |r| == NumProcessed(items)
    decreases |items|
  {
    if |items| == 0 then []
    else (if items[0].processed then [Summary(items[0])] else []) + ResultList(items[1..])
  }

  /** DkBatchProcessing::getLog: each item's log followed by an empty line. */
  function GetLog(items: seq<Proc>): (r: seq<Msg>)
    ensures |r| >= |items|
    decreases |items|
  {
    if |items| == 0 then [] else items[0].log + [EmptyLine] + GetLog(items[1..])
  }

  /** The log of two runs of items one after the other is the first log
      followed by the second. */
  lemma {:induction false} GetLogConcat(a: seq<Proc>, b: seq<Proc>)
    ensures GetLog(a + b) == GetLog(a) + GetLog(b)
    decreases |a|
  {
    if |a| == 0 {
      assert a + b == b;
    } else {
      assert (a + b)[1..] == a[1..] + b;
      GetLogConcat(a[1..], b);
    }
  }

  /** One item contributes its own log and an empty line. */
  lemma GetLogOfOne(p: Proc)
    ensures GetLog([p]) == p.log + [EmptyLine]
  {
    assert [p][1..] == [];
  }

  function CountEmpty(log: seq<Msg>): nat
  {
    if |log| == 0 then 0 else (if log[0] == EmptyLine then 1 else 0) + CountEmpty(log[1..])
  }

  lemma {:induction false} CountEmptyConcat(a: seq<Msg>, b: seq<Msg>)
    ensures CountEmpty(a + b) == CountEmpty(a) + CountEmpty(b)
    decreases |a|
  {
    if |a| > 0 {
      assert (a + b)[1..] == a[1..] + b;
      CountEmptyConcat(a[1..], b);
    } else {
      assert a + b == b;
    }
  }

  lemma {:induction false} CountEmptyAbsent(a: seq<Msg>)
    requires EmptyLine !in a
    ensures CountEmpty(a) == 0
    decreases |a|
  {
    if |a| > 0 {
      CountEmptyAbsent(a[1..]);
    }
  }

  /** The joined log has exactly one separating empty line per item, as
      long as no item's own log holds one. */
  lemma {:induction false} GetLogSeparatesItems(items: seq<Proc>)
    requires forall i :: 0 <= i < |items| ==> EmptyLine !in items[i].log
    ensures CountEmpty(GetLog(items)) == |items|
    decreases |items|
  {
    if |items| > 0 {
      GetLogSeparatesItems(items[1..]);
      CountEmptyAbsent(items[0].log);
      CountEmptyConcat(items[0].log, [EmptyLine]);
      CountEmptyConcat(items[0].log + [EmptyLine], GetLog(items[1..]));
    }
  }

  /** Every record the items produced, in item order. */
  function AllInfos(items: seq<Proc>): (r: seq<Option<BatchInfo>>)
    ensures forall i, j :: 0 <= i < |items| && 0 <= j < |items[i].infos| ==> items[i].infos[j] in r
    decreases |items|
  {
    if |items| == 0 then []
    else
      var rest := AllInfos(items[1..]);
      assert forall i :: 1 <= i < |items| ==> items[i] == items[1..][i - 1];
      items[0].infos + rest
  }

  /** The records of two runs of items one after the other are the first
      run's records followed by the second's. */
  lemma {:induction false} AllInfosConcat(a: seq<Proc>, b: seq<Proc>)
    ensures AllInfos(a + b) == AllInfos(a) + AllInfos(b)
    decreases |a|
  {
    if |a| == 0 {
      assert a + b == b;
    } else {
      assert (a + b)[1..] == a[1..] + b;
      AllInfosConcat(a[1..], b);
    }
  }

  /** One item contributes exactly its own records. */
  lemma AllInfosOfOne(p: Proc)
    ensures AllInfos([p]) == p.infos
  {
    assert [p][1..] == [];
  }

  /** DkBatchProcessing::postLoad: the records of all items are handed to
      every step; only plugin steps act on them. */
  function PostLoad(items: seq<Proc>, steps: seq<Step>): (calls: seq<PostLoadCall>)
    ensures forall k :: 0 <= k < |calls| ==> calls[k].handle.iface == BatchInterface(true)
    ensures forall k, j :: 0 <= k < |calls| && 0 <= j < |calls[k].infos| ==> calls[k].infos[j].runId == calls[k].runId
    ensures forall k :: 0 <= k < |calls| ==> calls[k].infos == FilterInfos(AllInfos(items), calls[k].runId)
    decreases |steps|
  {
    if |steps| == 0 then []
    else (if steps[0].Plugin? then PostLoadCalls(steps[0], AllInfos(items)) else []) + PostLoad(items, steps[1..])
  }

  /** Every batch plugin loaded in any plugin step is called with the
      records of all items that carry its run id. */
  lemma {:induction false} PostLoadComplete(items: seq<Proc>, steps: seq<Step>)
    ensures forall s, j :: (0 <= s < |steps| && steps[s].Plugin? && 0 <= j < |steps[s].loaded| &&
                            steps[s].loaded[j].handle.Some? && steps[s].loaded[j].handle.value.iface == BatchInterface(true)) ==>
      PostLoadCall(steps[s].loaded[j].handle.value, steps[s].loaded[j].runId,
                   FilterInfos(AllInfos(items), steps[s].loaded[j].runId)) in PostLoad(items, steps)
    decreases |steps|
  {
    if |steps| > 0 {
      PostLoadComplete(items, steps[1..]);
      if steps[0].Plugin? {
        PostLoadCallsComplete(steps[0], AllInfos(items));
      }
      forall s | 1 <= s < |steps|
        ensures steps[s] == steps[1..][s - 1]
      {
      }
    }
  }

  // ---------------------------------------------------------------------
  // Settings

  /** The group a configuration is written under. */
  const General: seq<string> := ["General"]

  /** Every step's saveSettings, in order. */
  function SaveSteps(st: Settings, g: seq<string>, steps: seq<Step>): Settings
    decreases |steps|
  {
    if |steps| == 0 then st else SaveSteps(SaveStep(st, g, steps[0]), g, steps[1..])
  }

  /** The group the save options live in, which loadSettings skips when it
      looks for steps. */
  const SaveInfoGroup: seq<string> := ["General", "SaveInfo"]

  /** The keys DkSaveInfo::saveSettings writes: at least one. */
  type SaveInfoKeys = m: map<string, Value> | |m| > 0 witness map["" := VInt(0)]

  /** DkSaveInfo::saveSettings and DkSaveInfo::loadSettings, which are not
      part of this model: the keys the save options are stored under, and
      the save options read from the group's keys over the current ones. */
  datatype SaveInfoCodec = SaveInfoCodec(
    keys: SaveInfo -> SaveInfoKeys,
    read: (map<string, Value>, SaveInfo) -> SaveInfo)

  /** DkSaveInfo::saveSettings: its keys are set in its own group. */
  function SaveSaveInfo(st: Settings, codec: SaveInfoCodec, si: SaveInfo): (r: Settings)
    ensures Keys(r, SaveInfoGroup) == Keys(st, SaveInfoGroup) + codec.keys(si)
    ensures forall g :: g in st && g != SaveInfoGroup ==> g in r && r[g] == st[g]
    ensures forall g :: g in r <==> g in st || g == SaveInfoGroup
  {
    st[SaveInfoGroup := Keys(st, SaveInfoGroup) + codec.keys(si)]
  }

  /** DkBatchConfig::saveSettings: the header keys, the save options, then
      every step. */
  function ConfigSave(st: Settings, codec: SaveInfoCodec, c: Config): Settings
  {
    SaveSteps(SaveSaveInfo(SaveHeader(st, c), codec, c.saveInfo), General, c.steps)
  }

  /** The keys DkBatchConfig::saveSettings writes itself. */
  function SaveHeader(st: Settings, c: Config): Settings
  {
    var st1 := Put(st, General, "FileList", VString(Join(c.fileList, ";")));
    var st2 := Put(st1, General, "OutputDirPath", VString(c.outputDir));
    Put(st2, General, "FileNamePattern", VString(c.pattern))
  }

  /** The steps named by the child groups, in the order they are listed:
      "SaveInfo" and names no step kind has are skipped. None when loading
      one of the steps fails. */
  function LoadGroups(host: PluginHost, st: Settings, groups: seq<string>, withPlugins: bool): (r: Option<seq<Step>>)
    ensures r.Some? ==> |r.value| <= |groups|
    decreases |groups|
  {
    if |groups| == 0 then Some([])
    else
      var rest := LoadGroups(host, st, groups[1..], withPlugins);
      if !Accepted(groups[0], withPlugins) then rest
      else match LoadStep(host, st, General, CreateFromName(groups[0], withPlugins).value)
        case None => None
        case Some(s) => if rest.None? then None else Some([s] + rest.value)
  }

  /** A child group loadSettings turns into a step. */
  predicate Accepted(name: string, withPlugins: bool)
  {
    name != "SaveInfo" && CreateFromName(name, withPlugins).Some?
  }

  /** The step an accepted group gives, or None when loading it fails. */
  function GroupStep(host: PluginHost, st: Settings, name: string, withPlugins: bool): Option<Step>
    requires Accepted(name, withPlugins)
  {
    LoadStep(host, st, General, CreateFromName(name, withPlugins).value)
  }

  /** Two loads one after the other succeed when both do. */
  function BothLoaded(a: Option<seq<Step>>, b: Option<seq<Step>>): Option<seq<Step>>
  {
    if a.Some? && b.Some? then Some(a.value + b.value) else None
  }

  /** The steps of two lists of groups one after the other are the steps of
      each, in that order, and loading fails when either part fails. */
  lemma {:induction false} LoadGroupsConcat(host: PluginHost, st: Settings, a: seq<string>, b: seq<string>, withPlugins: bool)
    ensures LoadGroups(host, st, a + b, withPlugins) ==
      BothLoaded(LoadGroups(host, st, a, withPlugins), LoadGroups(host, st, b, withPlugins))
    decreases |a|
  {
    if |a| == 0 {
      assert a + b == b;
      if LoadGroups(host, st, b, withPlugins).Some? {
        assert [] + LoadGroups(host, st, b, withPlugins).value == LoadGroups(host, st, b, withPlugins).value;
      }
    } else {
      assert (a + b)[0] == a[0] && (a + b)[1..] == a[1..] + b;
      LoadGroupsConcat(host, st, a[1..], b, withPlugins);
      var ra := LoadGroups(host, st, a[1..], withPlugins);
      var rb := LoadGroups(host, st, b, withPlugins);
      if Accepted(a[0], withPlugins) && GroupStep(host, st, a[0], withPlugins).Some? && ra.Some? && rb.Some? {
        var x := GroupStep(host, st, a[0], withPlugins).value;
        assert [x] + (ra.value + rb.value) == ([x] + ra.value) + rb.value;
      }
    }
  }

  /** One group gives the step of that name, loaded from its keys, when it
      is accepted, and nothing otherwise; loading that step may fail. */
  lemma LoadGroupsOfOne(host: PluginHost, st: Settings, name: string, withPlugins: bool)
    ensures !Accepted(name, withPlugins) ==> LoadGroups(host, st, [name], withPlugins) == Some([])
    ensures Accepted(name, withPlugins) ==>
      LoadGroups(host, st, [name], withPlugins) ==
        (if GroupStep(host, st, name, withPlugins).None? then None else Some([GroupStep(host, st, name, withPlugins).value]))
  {
    assert [name][1..] == [];
    if Accepted(name, withPlugins) && GroupStep(host, st, name, withPlugins).Some? {
      assert [GroupStep(host, st, name, withPlugins).value] + [] == [GroupStep(host, st, name, withPlugins).value];
    }
  }

  /** Loading the groups fails exactly when one accepted group's step fails
      to load. */
  lemma {:induction false} LoadGroupsFailsIff(host: PluginHost, st: Settings, groups: seq<string>, withPlugins: bool)
    ensures LoadGroups(host, st, groups, withPlugins).None? <==>
      exists j :: 0 <= j < |groups| && Accepted(groups[j], withPlugins) && GroupStep(host, st, groups[j], withPlugins).None?
    decreases |groups|
  {
    if |groups| > 0 {
      LoadGroupsFailsIff(host, st, groups[1..], withPlugins);
      if exists j :: 0 <= j < |groups[1..]| && Accepted(groups[1..][j], withPlugins) && GroupStep(host, st, groups[1..][j], withPlugins).None? {
        var j :| 0 <= j < |groups[1..]| && Accepted(groups[1..][j], withPlugins) && GroupStep(host, st, groups[1..][j], withPlugins).None?;
        assert groups[j + 1] == groups[1..][j];
      }
      if exists j :: 0 <= j < |groups| && Accepted(groups[j], withPlugins) && GroupStep(host, st, groups[j], withPlugins).None? {
        var j :| 0 <= j < |groups| && Accepted(groups[j], withPlugins) && GroupStep(host, st, groups[j], withPlugins).None?;
        if j > 0 {
          assert groups[1..][j - 1] == groups[j];
        }
      }
    }
  }

  /** Every loaded step is named by an accepted group of the listing, and
      every accepted group of the listing gives a step of its name. */
  lemma LoadGroupsNames(host: PluginHost, st: Settings, groups: seq<string>, withPlugins: bool)
    requires LoadGroups(host, st, groups, withPlugins).Some?
    ensures var steps := LoadGroups(host, st, groups, withPlugins).value;
      forall k :: 0 <= k < |steps| ==> SettingsName(steps[k]) in groups && Accepted(SettingsName(steps[k]), withPlugins)
    ensures var steps := LoadGroups(host, st, groups, withPlugins).value;
      forall j :: 0 <= j < |groups| && Accepted(groups[j], withPlugins) ==>
        exists k :: 0 <= k < |steps| && SettingsName(steps[k]) == groups[j]
  {
    LoadGroupsNamed(host, st, groups, withPlugins);
    forall j | 0 <= j < |groups| && Accepted(groups[j], withPlugins)
      ensures exists k :: (0 <= k < |LoadGroups(host, st, groups, withPlugins).value| &&
                           SettingsName(LoadGroups(host, st, groups, withPlugins).value[k]) == groups[j])
    {
      LoadGroupsCovers(host, st, groups, withPlugins, j);
    }
  }

  lemma {:induction false} LoadGroupsNamed(host: PluginHost, st: Settings, groups: seq<string>, withPlugins: bool)
    requires LoadGroups(host, st, groups, withPlugins).Some?
    ensures forall k :: 0 <= k < |LoadGroups(host, st, groups, withPlugins).value| ==>
      SettingsName(LoadGroups(host, st, groups, withPlugins).value[k]) in groups &&
      Accepted(SettingsName(LoadGroups(host, st, groups, withPlugins).value[k]), withPlugins)
    decreases |groups|
  {
    if |groups| > 0 {
      var rest := LoadGroups(host, st, groups[1..], withPlugins).value;
      LoadGroupsNamed(host, st, groups[1..], withPlugins);
      var steps := LoadGroups(host, st, groups, withPlugins).value;
      if Accepted(groups[0], withPlugins) {
        var s := GroupStep(host, st, groups[0], withPlugins).value;
        assert steps == [s] + rest;
        forall k | 0 <= k < |steps|
          ensures SettingsName(steps[k]) in groups && Accepted(SettingsName(steps[k]), withPlugins)
        {
          if k == 0 {
            assert SettingsName(s) == groups[0];
          } else {
            assert steps[k] == rest[k - 1];
            assert SettingsName(rest[k - 1]) in groups[1..];
          }
        }
      } else {
        assert steps == rest;
        forall k | 0 <= k < |steps|
          ensures SettingsName(steps[k]) in groups
        {
          assert SettingsName(rest[k]) in groups[1..];
        }
      }
    }
  }

  /** The position in the loaded steps of the step an accepted group gives. */
  lemma {:induction false} LoadGroupsCovers(host: PluginHost, st: Settings, groups: seq<string>, withPlugins: bool, j: nat)
    requires j < |groups| && Accepted(groups[j], withPlugins)
    requires LoadGroups(host, st, groups, withPlugins).Some?
    ensures exists k :: (0 <= k < |LoadGroups(host, st, groups, withPlugins).value| &&
                         SettingsName(LoadGroups(host, st, groups, withPlugins).value[k]) == groups[j])
    decreases |groups|
  {
    var rest := LoadGroups(host, st, groups[1..], withPlugins).value;
    var steps := LoadGroups(host, st, groups, withPlugins).value;
    if Accepted(groups[0], withPlugins) {
      var s := GroupStep(host, st, groups[0], withPlugins).value;
      assert steps == [s] + rest;
      if j == 0 {
        assert SettingsName(steps[0]) == groups[0];
      } else {
        assert groups[j] == groups[1..][j - 1];
        LoadGroupsCovers(host, st, groups[1..], withPlugins, j - 1);
        var k :| 0 <= k < |rest| && SettingsName(rest[k]) == groups[j];
        assert steps[k + 1] == rest[k];
      }
    } else {
      assert steps == rest;
      assert j != 0;
      assert groups[j] == groups[1..][j - 1];
      LoadGroupsCovers(host, st, groups[1..], withPlugins, j - 1);
    }
  }

  /** A configuration read back, and the settings after the loaded steps
      were written again. */
  datatype Loaded = Loaded(config: Config, settings: Settings)

  /** DkBatchConfig::loadSettings into the configuration `c`. `groups` is
      QSettings::childGroups() of "General", which lists the groups sorted.
      Loaded steps are appended to the steps `c` already has, and every
      step is saved again at the end. None when loading a step fails, or
      when saving one of `c`'s own steps again dereferences a null batch
      plugin (SettingsCrash). */
  function ConfigLoad(host: PluginHost, codec: SaveInfoCodec, st: Settings, c: Config, groups: seq<string>,
                      withPlugins: bool): (r: Option<Loaded>)
    requires IsSortedListing(groups, ChildGroups(st, General))
    ensures r.Some? <==>
      LoadGroups(host, st, groups, withPlugins).Some? && forall k :: 0 <= k < |c.steps| ==> !SettingsCrash(c.steps[k])
    ensures r.Some? ==> r.value.config.saveInfo == codec.read(Keys(st, SaveInfoGroup), c.saveInfo)
    ensures r.Some? ==> |r.value.config.fileList| >= 1
    ensures r.Some? ==> c.steps <= r.value.config.steps
    ensures r.Some? ==> Some(r.value.config.steps[|c.steps|..]) == LoadGroups(host, st, groups, withPlugins)
    ensures r.Some? ==> r.value.settings == SaveSteps(st, General, r.value.config.steps)
  {
    var list := Split(ReadString(st, General, "FileList", ListAsString(c.fileList)), ";");
    var outDir := ReadString(st, General, "OutputDirPath", c.outputDir);
    var pattern := ReadString(st, General, "FileNamePattern", c.pattern);
    var si := codec.read(Keys(st, SaveInfoGroup), c.saveInfo);
    match LoadGroups(host, st, groups, withPlugins)
    case None => None
    case Some(loaded) =>
      if exists k :: 0 <= k < |c.steps| && SettingsCrash(c.steps[k]) then None
      else
        var steps := c.steps + loaded;
        assert steps[|c.steps|..] == loaded;
        Some(Loaded(Config(list, outDir, pattern, si, steps), SaveSteps(st, General, steps)))
  }

  // ---------------------------------------------------------------------
  // Settings lemmas

  /** Saving a step writes only into the step's own group. */
  lemma SaveStepKeepsOtherGroups(st: Settings, g: seq<string>, s: Step, g2: seq<string>, k: string)
    requires g2 != g + [SettingsName(s)]
    ensures Get(SaveStep(st, g, s), g2, k) == Get(st, g2, k)
  {
  }

  lemma {:induction false} SaveStepsKeepsGroup(st: Settings, g: seq<string>, steps: seq<Step>, g2: seq<string>, k: string)
    requires |g2| <= |g|
    ensures Get(SaveSteps(st, g, steps), g2, k) == Get(st, g2, k)
    decreases |steps|
  {
    if |steps| > 0 {
      SaveStepKeepsOtherGroups(st, g, steps[0], g2, k);
      SaveStepsKeepsGroup(SaveStep(st, g, steps[0]), g, steps[1..], g2, k);
    }
  }

  /** The file list, output directory and pattern survive saving and
      loading, for a non-empty file list whose paths contain no ';'. */
  lemma ConfigFieldsRoundTrip(host: PluginHost, codec: SaveInfoCodec, st: Settings, c: Config, d: Config, groups: seq<string>, withPlugins: bool)
    requires |c.fileList| > 0 && forall k :: 0 <= k < |c.fileList| ==> ';' !in c.fileList[k]
    requires IsSortedListing(groups, ChildGroups(ConfigSave(st, codec, c), General))
    ensures var l := ConfigLoad(host, codec, ConfigSave(st, codec, c), d, groups, withPlugins);
      l.Some? ==> l.value.config.fileList == c.fileList && l.value.config.outputDir == c.outputDir && l.value.config.pattern == c.pattern
  {
    SavedHeader(st, codec, c);
    SplitJoin(c.fileList, ';');
    ConfigLoadHeader(host, codec, ConfigSave(st, codec, c), d, groups, withPlugins);
  }

  /** The header fields a successful load reads. */
  lemma ConfigLoadHeader(host: PluginHost, codec: SaveInfoCodec, st: Settings, c: Config, groups: seq<string>, withPlugins: bool)
    requires IsSortedListing(groups, ChildGroups(st, General))
    ensures var l := ConfigLoad(host, codec, st, c, groups, withPlugins);
      l.Some? ==>
        l.value.config.fileList == Split(ReadString(st, General, "FileList", ListAsString(c.fileList)), ";") &&
        l.value.config.outputDir == ReadString(st, General, "OutputDirPath", c.outputDir) &&
        l.value.config.pattern == ReadString(st, General, "FileNamePattern", c.pattern)
  {
  }

  /** The header keys are read back from the saved settings. */
  lemma SavedHeader(st: Settings, codec: SaveInfoCodec, c: Config)
    ensures Get(ConfigSave(st, codec, c), General, "FileList") == Some(VString(Join(c.fileList, ";")))
    ensures Get(ConfigSave(st, codec, c), General, "OutputDirPath") == Some(VString(c.outputDir))
    ensures Get(ConfigSave(st, codec, c), General, "FileNamePattern") == Some(VString(c.pattern))
  {
    var st1 := Put(st, General, "FileList", VString(Join(c.fileList, ";")));
    var st2 := Put(st1, General, "OutputDirPath", VString(c.outputDir));
    var st3 := SaveHeader(st, c);
    GetPut(st2, General, "FileNamePattern", VString(c.pattern), General, "FileList");
    GetPut(st2, General, "FileNamePattern", VString(c.pattern), General, "OutputDirPath");
    GetPut(st1, General, "OutputDirPath", VString(c.outputDir), General, "FileList");
    var st4 := SaveSaveInfo(st3, codec, c.saveInfo);
    assert General in st3 && st4[General] == st3[General];
    SaveStepsKeepsGroup(st4, General, c.steps, General, "FileList");
    SaveStepsKeepsGroup(st4, General, c.steps, General, "OutputDirPath");
    SaveStepsKeepsGroup(st4, General, c.steps, General, "FileNamePattern");
  }

  /** An empty file list comes back as a list holding one empty path. */
  lemma EmptyFileListReloadsAsBlank(host: PluginHost, codec: SaveInfoCodec, st: Settings, c: Config, d: Config, groups: seq<string>, withPlugins: bool)
    requires |c.fileList| == 0
    requires IsSortedListing(groups, ChildGroups(ConfigSave(st, codec, c), General))
    ensures var l := ConfigLoad(host, codec, ConfigSave(st, codec, c), d, groups, withPlugins);
      l.Some? ==> l.value.config.fileList == [""]
  {
    SavedHeader(st, codec, c);
    assert Join(c.fileList, ";") == "";
    ConfigLoadHeader(host, codec, ConfigSave(st, codec, c), d, groups, withPlugins);
  }

  /** Saving a step adds exactly its own group, with at least one key. */
  lemma SaveStepGroups(st: Settings, g: seq<string>, s: Step)
    ensures SaveStep(st, g, s).Keys == st.Keys + {g + [SettingsName(s)]}
    ensures |SaveStep(st, g, s)[g + [SettingsName(s)]]| > 0
  {
    var k := g + [SettingsName(s)];
    match s
    case Resize(sf, mode, prop, ipl, gamma) =>
      var st1 := Put(st, k, "ScaleFactor", VReal(sf));
      var st2 := Put(st1, k, "Mode", VInt(mode));
      var st3 := Put(st2, k, "Property", VInt(prop));
      var st4 := Put(st3, k, "IplMethod", VInt(ipl));
      PutGroups(st, k, "ScaleFactor", VReal(sf));
      PutGroups(st1, k, "Mode", VInt(mode));
      PutGroups(st2, k, "Property", VInt(prop));
      PutGroups(st3, k, "IplMethod", VInt(ipl));
      PutGroups(st4, k, "CorrectGamma", VBool(gamma));
    case Transform(angle, h, v, crop) =>
      var st1 := Put(st, k, "Angle", VInt(angle));
      var st2 := Put(st1, k, "HorizontalFlip", VBool(h));
      var st3 := Put(st2, k, "VerticalFlip", VBool(v));
      PutGroups(st, k, "Angle", VInt(angle));
      PutGroups(st1, k, "HorizontalFlip", VBool(h));
      PutGroups(st2, k, "VerticalFlip", VBool(v));
      PutGroups(st3, k, "CropFromMetadata", VBool(crop));
    case Plugin(list, _) =>
      PutGroups(st, k, "pluginList", VString(Join(list, ";")));
  }

  /** Saving a step never empties a group. */
  lemma SaveStepKeepsNonEmpty(st: Settings, g: seq<string>, s: Step, x: seq<string>)
    requires x in st && |st[x]| > 0
    ensures x in SaveStep(st, g, s) && |SaveStep(st, g, s)[x]| > 0
  {
    SaveStepGroups(st, g, s);
    if x != g + [SettingsName(s)] {
      var k: string :| k in st[x];
      assert Get(st, x, k).Some?;
      SaveStepKeepsOtherGroups(st, g, s, x, k);
    }
  }

  /** The group names a saved resize, transform and plugin step leave,
      with the save options' group. */
  lemma ChildGroupsOfSaved(st: Settings)
    requires st.Keys == {General, SaveInfoGroup, General + ["ResizeBatch"], General + ["TransformBatch"], General + ["PluginBatch"]}
    requires forall x :: x in st ==> |st[x]| > 0
    ensures ChildGroups(st, General) == {"ResizeBatch", "TransformBatch", "PluginBatch", "SaveInfo"}
  {
    var want := {"ResizeBatch", "TransformBatch", "PluginBatch", "SaveInfo"};
    forall n | n in ChildGroups(st, General)
      ensures n in want
    {
      var x :| x in st && |x| > 1 && x[..1] == General && |st[x]| > 0 && x[1] == n;
    }
    assert (General + ["ResizeBatch"])[1] == "ResizeBatch";
    assert (General + ["TransformBatch"])[1] == "TransformBatch";
    assert (General + ["PluginBatch"])[1] == "PluginBatch";
    assert SaveInfoGroup[1] == "SaveInfo";
    assert (General + ["ResizeBatch"])[..1] == General;
    assert (General + ["TransformBatch"])[..1] == General;
    assert (General + ["PluginBatch"])[..1] == General;
    assert SaveInfoGroup[..1] == General;
  }

  /** The child groups of such a profile in QSettings' order. */
  const SavedGroups: seq<string> := ["PluginBatch", "ResizeBatch", "SaveInfo", "TransformBatch"]

  lemma SavedGroupsListing()
    ensures IsSortedListing(SavedGroups, {"ResizeBatch", "TransformBatch", "PluginBatch", "SaveInfo"})
  {
    var xs := SavedGroups;
    assert StrLess(xs[0], xs[1]) && StrLess(xs[1], xs[2]) && StrLess(xs[2], xs[3]);
    assert StrLess(xs[0], xs[2]) && StrLess(xs[0], xs[3]) && StrLess(xs[1], xs[3]);
  }

  /** Loading reads a step only from its own group. */
  lemma LoadStepReadsOwnGroup(host: PluginHost, st1: Settings, st2: Settings, g: seq<string>, blank: Step)
    requires forall k :: Get(st1, g + [SettingsName(blank)], k) == Get(st2, g + [SettingsName(blank)], k)
    ensures LoadStep(host, st1, g, blank) == LoadStep(host, st2, g, blank)
  {
    var k := g + [SettingsName(blank)];
    match blank
    case Resize(_, _, _, _, _) =>
      assert Get(st1, k, "ScaleFactor") == Get(st2, k, "ScaleFactor");
      assert Get(st1, k, "Mode") == Get(st2, k, "Mode");
      assert Get(st1, k, "Property") == Get(st2, k, "Property");
      assert Get(st1, k, "IplMethod") == Get(st2, k, "IplMethod");
      assert Get(st1, k, "Correct Gamma") == Get(st2, k, "Correct Gamma");
    case Transform(_, _, _, _) =>
      assert Get(st1, k, "Angle") == Get(st2, k, "Angle");
      assert Get(st1, k, "HorizontalFlip") == Get(st2, k, "HorizontalFlip");
      assert Get(st1, k, "VerticalFlip") == Get(st2, k, "VerticalFlip");
      assert Get(st1, k, "CropFromMetadata") == Get(st2, k, "CropFromMetadata");
    case Plugin(_, _) =>
      assert Get(st1, k, "pluginList") == Get(st2, k, "pluginList");
  }

  /** The header and the save options of a fresh profile. */
  function SavedPrefix(c: Config, codec: SaveInfoCodec): Settings
  {
    SaveSaveInfo(SaveHeader(map[], c), codec, c.saveInfo)
  }

  /** What a fresh profile holds after saving a resize, a transform and a
      plugin step. */
  function SavedThree(c: Config, codec: SaveInfoCodec, r: Step, t: Step, p: Step): Settings
  {
    SaveStep(SaveStep(SaveStep(SavedPrefix(c, codec), General, r), General, t), General, p)
  }

  lemma ConfigSaveOfThree(c: Config, codec: SaveInfoCodec, r: Step, t: Step, p: Step)
    requires c.steps == [r, t, p]
    ensures ConfigSave(map[], codec, c) == SavedThree(c, codec, r, t, p)
  {
    var G := General;
    var st3 := SavedPrefix(c, codec);
    var sr := SaveStep(st3, G, r);
    var srt := SaveStep(sr, G, t);
    assert SaveSteps(st3, G, c.steps) == SaveSteps(sr, G, [t, p]);
    assert SaveSteps(sr, G, [t, p]) == SaveSteps(srt, G, [p]);
  }

  /** Such a profile holds the general group, the save options' group and
      one group per step, none of them empty. */
  lemma SavedThreeShape(c: Config, codec: SaveInfoCodec, r: Step, t: Step, p: Step)
    requires r.Resize? && t.Transform? && p.Plugin?
    ensures var all := SavedThree(c, codec, r, t, p);
      all.Keys == {General, SaveInfoGroup, General + ["ResizeBatch"], General + ["TransformBatch"], General + ["PluginBatch"]} &&
      forall x :: x in all ==> |all[x]| > 0
  {
    SavedPrefixShape(c, codec);
    ThreeStepsShape(SavedPrefix(c, codec), r, t, p);
  }

  /** Saving the three steps after the header and the save options. */
  lemma ThreeStepsShape(st3: Settings, r: Step, t: Step, p: Step)
    requires r.Resize? && t.Transform? && p.Plugin?
    requires st3.Keys == {General, SaveInfoGroup} && forall x :: x in st3 ==> |st3[x]| > 0
    ensures var all := SaveStep(SaveStep(SaveStep(st3, General, r), General, t), General, p);
      all.Keys == {General, SaveInfoGroup, General + ["ResizeBatch"], General + ["TransformBatch"], General + ["PluginBatch"]} &&
      forall x :: x in all ==> |all[x]| > 0
  {
    ThreeStepsKeys(st3, r, t, p);
    ThreeStepsNonEmpty(st3, General, r, t, p);
  }

  lemma ThreeStepsKeys(st3: Settings, r: Step, t: Step, p: Step)
    requires r.Resize? && t.Transform? && p.Plugin?
    requires st3.Keys == {General, SaveInfoGroup}
    ensures SaveStep(SaveStep(SaveStep(st3, General, r), General, t), General, p).Keys ==
      {General, SaveInfoGroup, General + ["ResizeBatch"], General + ["TransformBatch"], General + ["PluginBatch"]}
  {
    var G := General;
    var sr := SaveStep(st3, G, r);
    var srt := SaveStep(sr, G, t);
    ThreeNames(r, t, p);
    SaveStepGroups(st3, G, r);
    SaveStepGroups(sr, G, t);
    SaveStepGroups(srt, G, p);
  }

  lemma ThreeStepsNonEmpty(st: Settings, g: seq<string>, r: Step, t: Step, p: Step)
    requires forall x :: x in st ==> |st[x]| > 0
    ensures var all := SaveStep(SaveStep(SaveStep(st, g, r), g, t), g, p);
      forall x :: x in all ==> |all[x]| > 0
  {
    var sr := SaveStep(st, g, r);
    var srt := SaveStep(sr, g, t);
    SaveStepShape(st, g, r);
    SaveStepShape(sr, g, t);
    SaveStepShape(srt, g, p);
  }

  /** The settings names of the three kinds of step. */
  lemma ThreeNames(r: Step, t: Step, p: Step)
    requires r.Resize? && t.Transform? && p.Plugin?
    ensures SettingsName(r) == "ResizeBatch" && SettingsName(t) == "TransformBatch" && SettingsName(p) == "PluginBatch"
  {
  }

  /** The header fills the general group alone. */
  lemma SaveHeaderShape(c: Config)
    ensures SaveHeader(map[], c).Keys == {General} && |SaveHeader(map[], c)[General]| > 0
  {
    var st1 := Put(map[], General, "FileList", VString(Join(c.fileList, ";")));
    var st2 := Put(st1, General, "OutputDirPath", VString(c.outputDir));
    PutGroups(map[], General, "FileList", VString(Join(c.fileList, ";")));
    PutGroups(st1, General, "OutputDirPath", VString(c.outputDir));
    PutGroups(st2, General, "FileNamePattern", VString(c.pattern));
  }

  /** The header and the save options fill two groups. */
  lemma SavedPrefixShape(c: Config, codec: SaveInfoCodec)
    ensures SavedPrefix(c, codec).Keys == {General, SaveInfoGroup}
    ensures forall x :: x in SavedPrefix(c, codec) ==> |SavedPrefix(c, codec)[x]| > 0
  {
    SaveHeaderShape(c);
    var st := SaveHeader(map[], c);
    assert SaveInfoGroup !in st by { assert SaveInfoGroup != General; }
    assert SavedPrefix(c, codec)[SaveInfoGroup] == map[] + codec.keys(c.saveInfo);
  }

  /** Saving a step adds its group and keeps every group non-empty. */
  lemma SaveStepShape(st: Settings, g: seq<string>, s: Step)
    requires forall x :: x in st ==> |st[x]| > 0
    ensures SaveStep(st, g, s).Keys == st.Keys + {g + [SettingsName(s)]}
    ensures forall x :: x in SaveStep(st, g, s) ==> |SaveStep(st, g, s)[x]| > 0
  {
    SaveStepGroups(st, g, s);
    forall x | x in SaveStep(st, g, s)
      ensures |SaveStep(st, g, s)[x]| > 0
    {
      if x != g + [SettingsName(s)] {
        SaveStepKeepsNonEmpty(st, g, s, x);
      }
    }
  }

  /** The groups QSettings lists for such a profile. */
  lemma SavedThreeGroups(c: Config, codec: SaveInfoCodec, r: Step, t: Step, p: Step, groups: seq<string>)
    requires r.Resize? && t.Transform? && p.Plugin?
    requires IsSortedListing(groups, ChildGroups(SavedThree(c, codec, r, t, p), General))
    ensures groups == SavedGroups
  {
    var all := SavedThree(c, codec, r, t, p);
    SavedThreeShape(c, codec, r, t, p);
    ChildGroupsOfSaved(all);
    SavedGroupsListing();
    SortedListingUnique(groups, SavedGroups, ChildGroups(all, General));
  }

  /** Loading the groups in that order: the save options' group is
      skipped, and only the plugin step can fail to load. */
  lemma LoadSavedGroups(host: PluginHost, st: Settings)
    ensures LoadGroups(host, st, SavedGroups, true) ==
      if LoadStep(host, st, General, DefaultPlugin).None? then None
      else Some([LoadStep(host, st, General, DefaultPlugin).value, LoadStep(host, st, General, DefaultResize).value,
                 LoadStep(host, st, General, DefaultTransform).value])
  {
    var xs := SavedGroups;
    var T := LoadStep(host, st, General, DefaultTransform).value;
    var R := LoadStep(host, st, General, DefaultResize).value;
    assert CreateFromName(xs[3], true) == Some(DefaultTransform);
    assert xs[3..][1..] == [];
    assert [T] + [] == [T];
    assert LoadGroups(host, st, xs[3..], true) == Some([T]);
    assert xs[2..][1..] == xs[3..];
    assert LoadGroups(host, st, xs[2..], true) == Some([T]);
    assert CreateFromName(xs[1], true) == Some(DefaultResize);
    assert xs[1..][1..] == xs[2..];
    assert [R] + [T] == [R, T];
    assert LoadGroups(host, st, xs[1..], true) == Some([R, T]);
    assert CreateFromName(xs[0], true) == Some(DefaultPlugin);
    if LoadStep(host, st, General, DefaultPlugin).Some? {
      assert [LoadStep(host, st, General, DefaultPlugin).value] + [R, T] == [LoadStep(host, st, General, DefaultPlugin).value, R, T];
    }
  }

  /** Each of the three steps is read back from its own group; the plugin
      step only when each of its entries names a batch plugin. */
  lemma SavedThreeSteps(host: PluginHost, c: Config, codec: SaveInfoCodec, r: Step, t: Step, p: Step)
    requires r.Resize? && t.Transform? && p.Plugin?
    requires |p.pluginList| > 0 && forall k :: 0 <= k < |p.pluginList| ==> ';' !in p.pluginList[k]
    ensures LoadStep(host, SavedThree(c, codec, r, t, p), General, DefaultPlugin).Some? <==>
      forall k :: 0 <= k < |p.pluginList| ==> BatchReady(LoadPlugin(host, p.pluginList[k]))
    ensures LoadStep(host, SavedThree(c, codec, r, t, p), General, DefaultPlugin).Some? ==>
      LoadStep(host, SavedThree(c, codec, r, t, p), General, DefaultPlugin).value == LoadAllPlugins(host, Plugin(p.pluginList, []))
    ensures LoadStep(host, SavedThree(c, codec, r, t, p), General, DefaultResize) == Some(r.(correctGamma := false))
    ensures LoadStep(host, SavedThree(c, codec, r, t, p), General, DefaultTransform) == Some(t)
  {
    var G := General;
    var sr := SaveStep(SavedPrefix(c, codec), G, r);
    var srt := SaveStep(sr, G, t);
    PluginSettingsRoundTrip(host, srt, G, p);
    SavedThreeResize(host, c, codec, r, t, p);
    SavedThreeTransform(host, c, codec, r, t, p);
  }

  /** The resize step is read back from its group, which the later steps
      leave alone. */
  lemma SavedThreeResize(host: PluginHost, c: Config, codec: SaveInfoCodec, r: Step, t: Step, p: Step)
    requires r.Resize? && t.Transform? && p.Plugin?
    ensures LoadStep(host, SavedThree(c, codec, r, t, p), General, DefaultResize) == Some(r.(correctGamma := false))
  {
    var G := General;
    var st3 := SavedPrefix(c, codec);
    var sr := SaveStep(st3, G, r);
    var srt := SaveStep(sr, G, t);
    LoadAfterOtherSave(host, srt, G, p, DefaultResize);
    LoadAfterOtherSave(host, sr, G, t, DefaultResize);
    PrefixLeavesResizeGroup(c, codec);
    ResizeSettingsRoundTrip(host, st3, G, r);
  }

  /** The header and the save options write no gamma key for a resize
      step. */
  lemma PrefixLeavesResizeGroup(c: Config, codec: SaveInfoCodec)
    ensures Get(SavedPrefix(c, codec), General + ["ResizeBatch"], "Correct Gamma") == None
  {
    HeaderLeavesStepGroups(c, "ResizeBatch", "Correct Gamma");
    assert General + ["ResizeBatch"] != SaveInfoGroup by {
      assert (General + ["ResizeBatch"])[1] != SaveInfoGroup[1];
    }
    SaveInfoLeavesOtherGroups(SaveHeader(map[], c), codec, c.saveInfo, General + ["ResizeBatch"], "Correct Gamma");
  }

  /** The transform step is read back from its group, which the plugin step
      leaves alone. */
  lemma SavedThreeTransform(host: PluginHost, c: Config, codec: SaveInfoCodec, r: Step, t: Step, p: Step)
    requires r.Resize? && t.Transform? && p.Plugin?
    ensures LoadStep(host, SavedThree(c, codec, r, t, p), General, DefaultTransform) == Some(t)
  {
    var sr := SaveStep(SavedPrefix(c, codec), General, r);
    var srt := SaveStep(sr, General, t);
    LoadAfterOtherSave(host, srt, General, p, DefaultTransform);
    TransformSettingsRoundTrip(host, sr, General, t);
  }

  /** Saving a step of another kind leaves what a step loads unchanged. */
  lemma LoadAfterOtherSave(host: PluginHost, st: Settings, g: seq<string>, s: Step, blank: Step)
    requires SettingsName(s) != SettingsName(blank)
    ensures LoadStep(host, SaveStep(st, g, s), g, blank) == LoadStep(host, st, g, blank)
  {
    var K := g + [SettingsName(blank)];
    assert K != g + [SettingsName(s)] by {
      assert K[|g|] != (g + [SettingsName(s)])[|g|];
    }
    forall k
      ensures Get(SaveStep(st, g, s), K, k) == Get(st, K, k)
    {
      SaveStepKeepsOtherGroups(st, g, s, K, k);
    }
    LoadStepReadsOwnGroup(host, SaveStep(st, g, s), st, g, blank);
  }

  /** The header writes nothing into a step's group. */
  lemma HeaderLeavesStepGroups(c: Config, name: string, key: string)
    ensures Get(SaveHeader(map[], c), General + [name], key) == None
  {
    var K := General + [name];
    assert K != General by { assert |K| != |General|; }
    var st1 := Put(map[], General, "FileList", VString(Join(c.fileList, ";")));
    var st2 := Put(st1, General, "OutputDirPath", VString(c.outputDir));
    GetPut(map[], General, "FileList", VString(Join(c.fileList, ";")), K, key);
    GetPut(st1, General, "OutputDirPath", VString(c.outputDir), K, key);
    GetPut(st2, General, "FileNamePattern", VString(c.pattern), K, key);
  }

  /** The save options write nothing outside their own group. */
  lemma SaveInfoLeavesOtherGroups(st: Settings, codec: SaveInfoCodec, si: SaveInfo, g: seq<string>, k: string)
    requires g != SaveInfoGroup
    ensures Get(SaveSaveInfo(st, codec, si), g, k) == Get(st, g, k)
  {
  }

  /** Saving a step leaves every other group's keys as they were. */
  lemma SaveStepKeepsGroupKeys(st: Settings, g: seq<string>, s: Step, g2: seq<string>)
    requires g2 != g + [SettingsName(s)]
    ensures Keys(SaveStep(st, g, s), g2) == Keys(st, g2)
  {
    var a := Keys(SaveStep(st, g, s), g2);
    var b := Keys(st, g2);
    forall k
      ensures (k in a <==> k in b) && (k in a ==> a[k] == b[k])
    {
      SaveStepKeepsOtherGroups(st, g, s, g2, k);
    }
  }

  /** Saving steps leaves the save options' group as it was. */
  lemma {:induction false} SaveStepsKeepsSaveInfo(st: Settings, steps: seq<Step>)
    ensures Keys(SaveSteps(st, General, steps), SaveInfoGroup) == Keys(st, SaveInfoGroup)
    decreases |steps|
  {
    if |steps| > 0 {
      var s := steps[0];
      assert SaveInfoGroup != General + [SettingsName(s)] by {
        assert SaveInfoGroup[1] == "SaveInfo";
      }
      SaveStepKeepsGroupKeys(st, General, s, SaveInfoGroup);
      SaveStepsKeepsSaveInfo(SaveStep(st, General, s), steps[1..]);
    }
  }

  /** The save options read back are those read from the keys
      saveSettings wrote, over whatever the group held before. */
  lemma SaveInfoRoundTrip(host: PluginHost, codec: SaveInfoCodec, st: Settings, c: Config, d: Config,
                          groups: seq<string>, withPlugins: bool)
    requires IsSortedListing(groups, ChildGroups(ConfigSave(st, codec, c), General))
    ensures var l := ConfigLoad(host, codec, ConfigSave(st, codec, c), d, groups, withPlugins);
      l.Some? ==> l.value.config.saveInfo == codec.read(Keys(st, SaveInfoGroup) + codec.keys(c.saveInfo), d.saveInfo)
  {
    var st4 := SaveSaveInfo(SaveHeader(st, c), codec, c.saveInfo);
    SaveStepsKeepsSaveInfo(st4, c.steps);
    HeaderLeavesSaveInfo(st, c);
  }

  /** The header keys go into the general group, not the save options'. */
  lemma HeaderLeavesSaveInfo(st: Settings, c: Config)
    ensures Keys(SaveHeader(st, c), SaveInfoGroup) == Keys(st, SaveInfoGroup)
  {
    assert SaveInfoGroup != General;
  }

  /** In a fresh profile the save options come back whenever DkSaveInfo
      reads back what it writes. */
  lemma ProfileKeepsSaveInfo(host: PluginHost, codec: SaveInfoCodec, c: Config, d: Config,
                             groups: seq<string>, withPlugins: bool)
    requires codec.read(codec.keys(c.saveInfo), d.saveInfo) == c.saveInfo
    requires IsSortedListing(groups, ChildGroups(ConfigSave(map[], codec, c), General))
    ensures var l := ConfigLoad(host, codec, ConfigSave(map[], codec, c), d, groups, withPlugins);
      l.Some? ==> l.value.config.saveInfo == c.saveInfo
  {
    SaveInfoRoundTrip(host, codec, map[], c, d, groups, withPlugins);
    assert Keys(map[], SaveInfoGroup) + codec.keys(c.saveInfo) == codec.keys(c.saveInfo);
  }

  /** A profile written from the chain the batch dialog builds (resize,
      transform, plugin) and read into a fresh configuration fails to load
      when one of the plugin entries names no batch plugin; otherwise it
      comes back with the steps in the alphabetical order of their group
      names, so the plugin step moves to the front; the resize step loses
      its gamma flag and the plugin step comes back with its plugins
      loaded. */
  lemma StepOrderAfterReload(host: PluginHost, codec: SaveInfoCodec, c: Config, d: Config, groups: seq<string>,
                             r: Step, t: Step, p: Step)
    requires r.Resize? && t.Transform? && p.Plugin? && c.steps == [r, t, p] && d.steps == []
    requires |p.pluginList| > 0 && forall k :: 0 <= k < |p.pluginList| ==> ';' !in p.pluginList[k]
    requires IsSortedListing(groups, ChildGroups(ConfigSave(map[], codec, c), General))
    ensures ConfigLoad(host, codec, ConfigSave(map[], codec, c), d, groups, true).Some? <==>
      forall k :: 0 <= k < |p.pluginList| ==> BatchReady(LoadPlugin(host, p.pluginList[k]))
    ensures ConfigLoad(host, codec, ConfigSave(map[], codec, c), d, groups, true).Some? ==>
      ConfigLoad(host, codec, ConfigSave(map[], codec, c), d, groups, true).value.config.steps ==
        [LoadAllPlugins(host, Plugin(p.pluginList, [])), r.(correctGamma := false), t]
  {
    ConfigSaveOfThree(c, codec, r, t, p);
    SavedThreeGroups(c, codec, r, t, p, groups);
    SavedThreeSteps(host, c, codec, r, t, p);
    LoadSavedGroups(host, SavedThree(c, codec, r, t, p));
  }

  /** The saved chain holds the resize step's gamma flag under
      "CorrectGamma"; loading it saves the steps again, and the resize
      step, which read the flag under "Correct Gamma" and so kept it off,
      writes it off. */
  lemma ReloadRewritesGamma(host: PluginHost, codec: SaveInfoCodec, c: Config, d: Config, groups: seq<string>,
                            r: Step, t: Step, p: Step)
    requires r.Resize? && t.Transform? && p.Plugin? && c.steps == [r, t, p] && d.steps == []
    requires |p.pluginList| > 0 && forall k :: 0 <= k < |p.pluginList| ==> ';' !in p.pluginList[k]
    requires forall k :: 0 <= k < |p.pluginList| ==> BatchReady(LoadPlugin(host, p.pluginList[k]))
    requires IsSortedListing(groups, ChildGroups(ConfigSave(map[], codec, c), General))
    ensures Get(ConfigSave(map[], codec, c), General + ["ResizeBatch"], "CorrectGamma") == Some(VBool(r.correctGamma))
    ensures var l := ConfigLoad(host, codec, ConfigSave(map[], codec, c), d, groups, true);
      l.Some? && Get(l.value.settings, General + ["ResizeBatch"], "CorrectGamma") == Some(VBool(false))
  {
    SavedChainGamma(c, codec, r, t, p);
    ResavedChainGamma(host, codec, c, d, groups, r, t, p);
  }

  /** The saved chain holds the resize step's gamma flag. */
  lemma SavedChainGamma(c: Config, codec: SaveInfoCodec, r: Step, t: Step, p: Step)
    requires r.Resize? && t.Transform? && p.Plugin? && c.steps == [r, t, p]
    ensures Get(ConfigSave(map[], codec, c), General + ["ResizeBatch"], "CorrectGamma") == Some(VBool(r.correctGamma))
  {
    ConfigSaveOfThree(c, codec, r, t, p);
    var sr := SaveStep(SavedPrefix(c, codec), General, r);
    var srt := SaveStep(sr, General, t);
    ResizeSavesGamma(SavedPrefix(c, codec), r);
    OtherStepKeepsGamma(sr, t);
    OtherStepKeepsGamma(srt, p);
  }

  /** Loading the saved chain writes the gamma flag off. */
  lemma ResavedChainGamma(host: PluginHost, codec: SaveInfoCodec, c: Config, d: Config, groups: seq<string>,
                          r: Step, t: Step, p: Step)
    requires r.Resize? && t.Transform? && p.Plugin? && c.steps == [r, t, p] && d.steps == []
    requires |p.pluginList| > 0 && forall k :: 0 <= k < |p.pluginList| ==> ';' !in p.pluginList[k]
    requires forall k :: 0 <= k < |p.pluginList| ==> BatchReady(LoadPlugin(host, p.pluginList[k]))
    requires IsSortedListing(groups, ChildGroups(ConfigSave(map[], codec, c), General))
    ensures var l := ConfigLoad(host, codec, ConfigSave(map[], codec, c), d, groups, true);
      l.Some? && Get(l.value.settings, General + ["ResizeBatch"], "CorrectGamma") == Some(VBool(false))
  {
    StepOrderAfterReload(host, codec, c, d, groups, r, t, p);
    var st := ConfigSave(map[], codec, c);
    var P := LoadAllPlugins(host, Plugin(p.pluginList, []));
    var r2 := r.(correctGamma := false);
    ThreeSaved(st, P, r2, t);
    ResizeSavesGamma(SaveStep(st, General, P), r2);
    OtherStepKeepsGamma(SaveStep(SaveStep(st, General, P), General, r2), t);
  }

  /** Saving three steps is saving one after the other. */
  lemma ThreeSaved(st: Settings, x: Step, y: Step, z: Step)
    ensures SaveSteps(st, General, [x, y, z]) == SaveStep(SaveStep(SaveStep(st, General, x), General, y), General, z)
  {
    var s1 := SaveStep(st, General, x);
    var s2 := SaveStep(s1, General, y);
    assert SaveSteps(st, General, [x, y, z]) == SaveSteps(s1, General, [y, z]);
    assert SaveSteps(s1, General, [y, z]) == SaveSteps(s2, General, [z]);
  }

  /** A resize step writes its gamma flag under "CorrectGamma". */
  lemma ResizeSavesGamma(st: Settings, r: Step)
    requires r.Resize?
    ensures Get(SaveStep(st, General, r), General + ["ResizeBatch"], "CorrectGamma") == Some(VBool(r.correctGamma))
  {
  }

  /** Any other step leaves the resize step's keys alone. */
  lemma OtherStepKeepsGamma(st: Settings, s: Step)
    requires !s.Resize?
    ensures Get(SaveStep(st, General, s), General + ["ResizeBatch"], "CorrectGamma") == Get(st, General + ["ResizeBatch"], "CorrectGamma")
  {
    var RG := General + ["ResizeBatch"];
    assert RG != General + [SettingsName(s)] by { assert RG[1] != (General + [SettingsName(s)])[1]; }
    SaveStepKeepsOtherGroups(st, General, s, RG, "CorrectGamma");
  }
}

=== FILE: batch_profile.dfy ===
/** DkBatchProfile: batch configurations stored as INI files with the
    extension "pnm" in a profile directory, listed by their base names. The
    application data directory, the INI text format and the directory
    listing are parameters. */
module BatchProfile {
  import opened Wrappers
  import opened Text
  import opened FileSystem
  import opened SaveInfos
  import opened BatchSteps
  import opened SettingsStore
  import opened BatchProcessing

  /** The profile file extension. */
  const Ext: string := "pnm"

  /** DkUtils::getAppDataPath() + "/Profiles". */
  function DefaultProfilePath(appData: Path): (p: Path)
    ensures |p| > 1 && p[|p| - 1] != '/'
    ensures FileName(p) == "Profiles"
  {
    var p := appData + "/Profiles";
    assert p[|appData|] == '/' && p[|appData| + 1..] == "Profiles";
    LastIndexAt(p, '/', |appData|);
    p
  }

  /** The file a profile of the given name is saved to. */
  function ProfileNameToPath(appData: Path, name: string): (p: Path)
    ensures p == JoinPath(DefaultProfilePath(appData), name + "." + Ext)
  {
    DefaultProfilePath(appData) + "/" + name + "." + Ext
  }

  /** makeUserFriendly: the base name of a profile file. */
  function MakeUserFriendly(path: Path): (n: string)
    ensures '.' !in n && '/' !in n
  {
    BaseName(path)
  }

  /** A profile's file name is turned back into the profile's name. */
  lemma UserFriendlyNameOfPath(appData: Path, name: string)
    requires '/' !in name && '.' !in name
    ensures MakeUserFriendly(ProfileNameToPath(appData, name)) == name
  {
    BaseNameOfJoin(DefaultProfilePath(appData), name, Ext);
  }

  /** The profile manager: the directory it lists and the names found by
      the last listing (empty until the first one). */
  datatype Profile = Profile(dir: Path, paths: seq<string>)

  /** DkBatchProfile(profileDir): the default directory when none is given. */
  function NewProfile(appData: Path, profileDir: Path): (pr: Profile)
    ensures pr.paths == []
    ensures profileDir != "" ==> pr.dir == profileDir
    ensures profileDir == "" ==> pr.dir == DefaultProfilePath(appData)
  {
    Profile(if profileDir == "" then DefaultProfilePath(appData) else profileDir, [])
  }

  /** The "*.pnm" name filter, which QDir applies without regard to case,
      on a file that is not hidden. */
  predicate IsProfileFile(n: string)
  {
    |n| >= 4 && ToLower(n[|n| - 4..]) == ".pnm" && n[0] != '.'
  }

  /** The names of the profile files directly inside `dir`. */
  function ProfileFiles(fs: Fs, dir: Path): set<string>
  {
    set p | p in fs.files && p != "" && DirPath(p) == dir && IsProfileFile(FileName(p)) :: FileName(p)
  }

  /** index(dir): QDir::entryList sorted by name, taken to be the sorted
      listing of the profile files in the directory. */
  predicate IsIndex(fs: Fs, dir: Path, listing: seq<string>)
  {
    IsSortedListing(listing, ProfileFiles(fs, dir))
  }

  /** A directory has only one index. */
  lemma IndexUnique(fs: Fs, dir: Path, a: seq<string>, b: seq<string>)
    requires IsIndex(fs, dir, a) && IsIndex(fs, dir, b)
    ensures a == b
  {
    SortedListingUnique(a, b, ProfileFiles(fs, dir));
  }

  /** The user-facing names of some profile files, in order. */
  function UserNames(paths: seq<string>): (names: seq<string>)
    ensures |names| == |paths|
    ensures forall i :: 0 <= i < |paths| ==> names[i] == MakeUserFriendly(paths[i])
  {
    seq(|paths|, i requires 0 <= i < |paths| => MakeUserFriendly(paths[i]))
  }

  /** profileNames(): the directory is listed only while no listing is
      cached; the names are the base names of the cached listing. */
  function ProfileNames(pr: Profile, listing: seq<string>): (r: (seq<string>, Profile))
    ensures r.1.dir == pr.dir
    ensures r.1.paths == if pr.paths == [] then listing else pr.paths
    ensures r.0 == UserNames(r.1.paths)
  {
    var paths := if pr.paths == [] then listing else pr.paths;
    (UserNames(paths), pr.(paths := paths))
  }

  /** The file a profile is saved to is a profile file of its directory. */
  lemma SavedProfileFile(fs: Fs, appData: Path, name: string)
    requires '/' !in name && '.' !in name && |name| > 0
    requires Exists(fs, ProfileNameToPath(appData, name))
    ensures name + "." + Ext in ProfileFiles(fs, DefaultProfilePath(appData))
  {
    var dir := DefaultProfilePath(appData);
    var file := name + "." + Ext;
    var p := ProfileNameToPath(appData, name);
    FileNameOfJoin(dir, file);
    DirPathOfJoin(dir, file);
    NamedProfileFile(name);
    assert p in fs.files && p != "" && DirPath(p) == dir && IsProfileFile(FileName(p));
  }

  /** A plain name with the profile extension passes the name filter. */
  lemma NamedProfileFile(name: string)
    requires '.' !in name && |name| > 0
    ensures IsProfileFile(name + "." + Ext)
  {
    var file := name + "." + Ext;
    assert file[|file| - 4..] == ".pnm";
    assert ToLower(".pnm") == ".pnm" by {
      assert LowerChar('.') == '.' && LowerChar('p') == 'p' && LowerChar('n') == 'n' && LowerChar('m') == 'm';
    }
    assert file[0] == name[0];
  }

  /** The listed file name of a profile gives back its name. */
  lemma UserFriendlyNameOfFile(name: string)
    requires '/' !in name && '.' !in name
    ensures MakeUserFriendly(name + "." + Ext) == name
  {
    BaseNameOfName(name, Ext);
  }

  /** A profile saved under a plain name in the default directory shows up
      under that name when the directory is listed. */
  lemma SavedProfileIsListed(fs: Fs, appData: Path, name: string, listing: seq<string>)
    requires '/' !in name && '.' !in name && |name| > 0
    requires Exists(fs, ProfileNameToPath(appData, name))
    requires IsIndex(fs, DefaultProfilePath(appData), listing)
    ensures name in ProfileNames(NewProfile(appData, ""), listing).0
  {
    var file := name + "." + Ext;
    SavedProfileFile(fs, appData, name);
    var i :| 0 <= i < |listing| && listing[i] == file;
    UserFriendlyNameOfFile(name);
    assert ProfileNames(NewProfile(appData, ""), listing).0[i] == name;
  }

  /** What loading a profile leaves: the configuration read and the files
      afterwards. */
  datatype ProfileLoad = ProfileLoad(config: Config, fs: Fs)

  /** loadProfile: a default configuration when the file is missing,
      otherwise the configuration read from the parsed file. Reading goes
      through QSettings on the file itself, so the settings with every
      loaded step saved again are written back to it when it is writable.
      None when loading fails. `groups` is the sorted child-group listing
      of the parsed settings. */
  function LoadProfile(host: PluginHost, codec: SaveInfoCodec, fs: Fs, path: Path, parse: Blob -> Settings,
                       render: Settings -> Blob, groups: seq<string>, withPlugins: bool): (r: Option<ProfileLoad>)
    requires Exists(fs, path) ==> IsSortedListing(groups, ChildGroups(parse(fs.files[path]), General))
    ensures !Exists(fs, path) ==> r == Some(ProfileLoad(DefaultConfig, fs))
    ensures Exists(fs, path) ==> (r.Some? <==> ConfigLoad(host, codec, parse(fs.files[path]), DefaultConfig, groups, withPlugins).Some?)
    ensures (Exists(fs, path) && r.Some?) ==>
      r.value.config == ConfigLoad(host, codec, parse(fs.files[path]), DefaultConfig, groups, withPlugins).value.config
    ensures (Exists(fs, path) && r.Some? && Writable(fs, path)) ==>
      Exists(r.value.fs, path) &&
      r.value.fs.files[path] == render(ConfigLoad(host, codec, parse(fs.files[path]), DefaultConfig, groups, withPlugins).value.settings)
    ensures r.Some? && !Writable(fs, path) ==> r.value.fs == fs
    ensures r.Some? ==> |r.value.config.steps| <= |groups|
  {
    if !Exists(fs, path) then Some(ProfileLoad(DefaultConfig, fs))
    else match ConfigLoad(host, codec, parse(fs.files[path]), DefaultConfig, groups, withPlugins)
      case None => None
      case Some(l) => Some(ProfileLoad(l.config, Write(fs, path, render(l.settings)).fs))
  }

  /** saveProfile: the settings are cleared and the configuration written;
      the result is true whether or not the file could be written. */
  function SaveProfile(fs: Fs, path: Path, codec: SaveInfoCodec, c: Config, render: Settings -> Blob): (r: Outcome)
    ensures r.ok
    ensures Writable(fs, path) ==> Exists(r.fs, path) && r.fs.files[path] == render(ConfigSave(map[], codec, c))
    ensures !Writable(fs, path) ==> r.fs == fs
  {
    Outcome(Write(fs, path, render(ConfigSave(map[], codec, c))).fs, true)
  }

  /** Saving a profile and loading it again restores the file list, the
      output directory and the pattern, when the file format reproduces
      the settings and the file list is non-empty and free of ';'. */
  lemma ProfileRoundTrip(host: PluginHost, codec: SaveInfoCodec, fs: Fs, path: Path, c: Config,
                         render: Settings -> Blob, parse: Blob -> Settings, groups: seq<string>, withPlugins: bool)
    requires Writable(fs, path)
    requires parse(render(ConfigSave(map[], codec, c))) == ConfigSave(map[], codec, c)
    requires |c.fileList| > 0 && forall k :: 0 <= k < |c.fileList| ==> ';' !in c.fileList[k]
    requires IsSortedListing(groups, ChildGroups(ConfigSave(map[], codec, c), General))
    ensures var l := LoadProfile(host, codec, SaveProfile(fs, path, codec, c, render).fs, path, parse, render, groups, withPlugins);
      l.Some? ==> l.value.config.fileList == c.fileList && l.value.config.outputDir == c.outputDir && l.value.config.pattern == c.pattern
  {
    var saved := SaveProfile(fs, path, codec, c, render).fs;
    assert parse(saved.files[path]) == ConfigSave(map[], codec, c);
    ConfigFieldsRoundTrip(host, codec, map[], c, DefaultConfig, groups, withPlugins);
  }

  /** The save options survive saving and loading a profile when the file
      format reproduces the settings and DkSaveInfo reads back what it
      writes. */
  lemma ProfileSaveInfoRoundTrip(host: PluginHost, codec: SaveInfoCodec, fs: Fs, path: Path, c: Config,
                                 render: Settings -> Blob, parse: Blob -> Settings, groups: seq<string>, withPlugins: bool)
    requires Writable(fs, path)
    requires parse(render(ConfigSave(map[], codec, c))) == ConfigSave(map[], codec, c)
    requires codec.read(codec.keys(c.saveInfo), DefaultConfig.saveInfo) == c.saveInfo
    requires IsSortedListing(groups, ChildGroups(ConfigSave(map[], codec, c), General))
    ensures var l := LoadProfile(host, codec, SaveProfile(fs, path, codec, c, render).fs, path, parse, render, groups, withPlugins);
      l.Some? ==> l.value.config.saveInfo == c.saveInfo
  {
    var saved := SaveProfile(fs, path, codec, c, render).fs;
    assert parse(saved.files[path]) == ConfigSave(map[], codec, c);
    ProfileKeepsSaveInfo(host, codec, c, DefaultConfig, groups, withPlugins);
  }

  /** A failed write goes unreported: loading afterwards sees whatever was
      there before. */
  lemma UnwritableProfileReportsSuccess(fs: Fs, path: Path, codec: SaveInfoCodec, c: Config, render: Settings -> Blob)
    requires !Writable(fs, path)
    ensures SaveProfile(fs, path, codec, c, render).ok
    ensures SaveProfile(fs, path, codec, c, render).fs == fs
  {
  }

  /** A profile saved from the dialog's chain (resize, transform, plugin)
      with the gamma flag on holds the flag on; after it is loaded once the
      file holds it off, when the file format reproduces the settings. */
  lemma LoadingRewritesGammaOff(host: PluginHost, codec: SaveInfoCodec, fs: Fs, path: Path, c: Config,
                                render: Settings -> Blob, parse: Blob -> Settings, groups: seq<string>,
                                r: Step, t: Step, p: Step)
    requires r.Resize? && r.correctGamma && t.Transform? && p.Plugin? && c.steps == [r, t, p]
    requires |p.pluginList| > 0 && forall k :: 0 <= k < |p.pluginList| ==> ';' !in p.pluginList[k]
    requires forall k :: 0 <= k < |p.pluginList| ==> BatchReady(LoadPlugin(host, p.pluginList[k]))
    requires Writable(fs, path)
    requires forall x :: parse(render(x)) == x
    requires IsSortedListing(groups, ChildGroups(ConfigSave(map[], codec, c), General))
    ensures var saved := SaveProfile(fs, path, codec, c, render).fs;
      Get(parse(saved.files[path]), General + ["ResizeBatch"], "CorrectGamma") == Some(VBool(true))
    ensures var saved := SaveProfile(fs, path, codec, c, render).fs;
      var l := LoadProfile(host, codec, saved, path, parse, render, groups, true);
      l.Some? && Get(parse(l.value.fs.files[path]), General + ["ResizeBatch"], "CorrectGamma") == Some(VBool(false))
  {
    var saved := SaveProfile(fs, path, codec, c, render).fs;
    assert parse(saved.files[path]) == ConfigSave(map[], codec, c);
    ReloadRewritesGamma(host, codec, c, DefaultConfig, groups, r, t, p);
  }
}

=== FILE: batch_steps.dfy ===
/** The processing steps of a batch run (DkAbstractBatch and its three
    kinds): their names and settings names, when each is active, what each
    does to an image container, how plugin strings are resolved, and how
    each step is written to and read from the settings. */
module BatchSteps {
  import opened Wrappers
  import opened Text
  import opened Images
  import opened SaveInfos
  import opened BatchLog
  import opened SettingsStore

  // Resize modes, in the order of the resize widget's mode combo box.
  const ModeDefault: int := 0
  const ModeLongSide: int := 1
  const ModeShortSide: int := 2
  const ModeWidth: int := 3
  const ModeHeight: int := 4

  // Resize properties, in the order of the widget's property combo box.
  const PropAny: int := 0
  const PropDecreaseOnly: int := 1
  const PropIncreaseOnly: int := 2

  /** DkImage::ipl_area, the interpolation a new resize step starts with. */
  const IplArea: int := 1

  /** The kind of interface a loaded plugin offers. `BatchInterface(false)`
      is a plugin that reports the batch interface but whose batch-plugin
      cast yields null. */
  datatype PluginInterface = NoInterface | BasicInterface | BatchInterface(castable: bool) | OtherInterface

  datatype PluginHandle = PluginHandle(name: string, iface: PluginInterface)

  /** One entry of the loaded-plugin list: the plugin (null when it could
      not be found) and the run id of the chosen action. */
  datatype LoadedPlugin = LoadedPlugin(handle: Option<PluginHandle>, runId: string)

  /** What one batch plugin hands back: a container (null or not) and a
      record (null or not). */
  datatype PluginRun = PluginRun(result: Option<Container>, info: Option<BatchInfo>)

  /** The plugin manager and the plugins themselves, which are outside this
      model: lookup by name, action name to run id, and running a plugin. */
  datatype PluginHost = PluginHost(
    byName: string -> Option<PluginHandle>,
    runIdOf: (PluginHandle, string) -> string,
    runBasic: (PluginHandle, string, Container) -> Option<Container>,
    runBatch: (PluginHandle, string, Container, SaveInfo) -> PluginRun)

  datatype Step =
    | Resize(scaleFactor: real, mode: int, property: int, iplMethod: int, correctGamma: bool)
    | Transform(angle: int, hFlip: bool, vFlip: bool, cropFromMetadata: bool)
    | Plugin(pluginList: seq<string>, loaded: seq<LoadedPlugin>)

  /** The steps as their constructors leave them. */
  const DefaultResize: Step := Resize(1.0, ModeDefault, PropAny, IplArea, false)
  const DefaultTransform: Step := Transform(0, false, false, false)
  const DefaultPlugin: Step := Plugin([], [])

  /** The word naming the kind of a step. */
  function KindWord(s: Step): string
  {
    match s
    case Resize(_, _, _, _, _) => "Resize"
    case Transform(_, _, _, _) => "Transform"
    case Plugin(_, _) => "Plugin"
  }

  /** DkAbstractBatch::name(): "[Resize Batch]", "[Transform Batch]" or
      "[Plugin Batch]". */
  function Name(s: Step): string
  {
    "[" + KindWord(s) + " Batch]"
  }

  /** The name with every '[', ']' and ' ' removed. */
  function StripName(n: string): (r: string)
    ensures '[' !in r && ']' !in r && ' ' !in r
  {
    var a := ReplaceAll(n, "[", "");
    var b := ReplaceAll(a, "]", "");
    ReplaceCharRemoves(n, '[', ']');
    ReplaceCharRemoves(a, ']', '[');
    ReplaceCharRemoves(b, ' ', '[');
    ReplaceCharRemoves(b, ' ', ']');
    ReplaceAll(b, " ", "")
  }

  /** DkAbstractBatch::settingsName(): the name with the brackets and
      spaces removed (SettingsNameStripsName shows it is that). */
  function SettingsName(s: Step): string
  {
    match s
    case Resize(_, _, _, _, _) => "ResizeBatch"
    case Transform(_, _, _, _) => "TransformBatch"
    case Plugin(_, _) => "PluginBatch"
  }

  /** Stripping a stripped name changes nothing. */
  lemma StripNameIdempotent(n: string)
    ensures StripName(StripName(n)) == StripName(n)
  {
    var r := StripName(n);
    ReplaceCharAbsent(r, '[', "");
    ReplaceCharAbsent(r, ']', "");
    ReplaceCharAbsent(r, ' ', "");
  }

  /** "[A B]" strips to "AB". */
  lemma StripBracketed(a: string, b: string)
    requires '[' !in a && ']' !in a && ' ' !in a
    requires '[' !in b && ']' !in b && ' ' !in b
    ensures StripName("[" + a + " " + b + "]") == a + b
  {
    var n := "[" + a + " " + b + "]";
    var mid := a + [' '] + b;
    var rest := mid + [']'];
    assert n == "" + ['['] + rest;
    RemoveCharBetween("", '[', rest);
    assert ReplaceAll(n, "[", "") == rest;
    assert rest == mid + [']'] + "";
    RemoveCharBetween(mid, ']', "");
    assert ReplaceAll(rest, "]", "") == mid;
    RemoveCharBetween(a, ' ', b);
    assert ReplaceAll(mid, " ", "") == a + b;
  }

  /** The kind words hold no bracket or space, and the settings name is the
      kind word followed by "Batch". */
  lemma KindWordPlain(s: Step)
    ensures '[' !in KindWord(s) && ']' !in KindWord(s) && ' ' !in KindWord(s)
    ensures SettingsName(s) == KindWord(s) + "Batch"
  {
  }

  /** The settings name is the display name stripped of '[', ']' and ' '. */
  lemma SettingsNameStripsName(s: Step)
    ensures SettingsName(s) == StripName(Name(s))
  {
    var w := KindWord(s);
    KindWordPlain(s);
    assert Name(s) == "[" + w + " " + "Batch" + "]";
    StripBracketed(w, "Batch");
  }

  /** DkAbstractBatch::createFromName: a blank step whose settings name is
      `n`, tried in the order resize, transform, plugin (the plugin step only
      in builds with plugin support); None when no kind matches. */
  function CreateFromName(n: string, withPlugins: bool): (r: Option<Step>)
    ensures r.Some? ==> SettingsName(r.value) == n
    ensures r.Some? ==> r.value in {DefaultResize, DefaultTransform, DefaultPlugin}
    ensures r.None? <==> n != "ResizeBatch" && n != "TransformBatch" && (n != "PluginBatch" || !withPlugins)
  {
    if SettingsName(DefaultResize) == n then Some(DefaultResize)
    else if SettingsName(DefaultTransform) == n then Some(DefaultTransform)
    else if withPlugins && SettingsName(DefaultPlugin) == n then Some(DefaultPlugin)
    else None
  }

  /** DkAbstractBatch::isActive() of each kind. */
  predicate IsActive(s: Step)
  {
    match s
    case Resize(sf, mode, _, _, _) => mode != ModeDefault || sf != 1.0
    case Transform(angle, h, v, crop) => h || v || angle != 0 || crop
    case Plugin(list, _) => |list| > 0
  }

  // ---------------------------------------------------------------------
  // Resize

  function Transpose(s: Size): Size
  {
    Size(s.height, s.width)
  }

  /** Whether prepareProperties swaps the sides so that the side the mode
      talks about comes first. */
  predicate Transposes(mode: int, s: Size)
  {
    (mode == ModeLongSide && s.width < s.height) ||
    (mode == ModeShortSide && s.width > s.height) ||
    mode == ModeHeight
  }

  function Normalized(mode: int, s: Size): Size
  {
    if Transposes(mode, s) then Transpose(s) else s
  }

  /** The outcome of DkResizeBatch::prepareProperties: skip (with the line it
      logs), resize to a size by a factor, or a factor divided by a zero side
      (an infinity or not-a-number) that the sizes cannot represent. */
  datatype Prepared = Skip(reason: Msg) | Degenerate | Go(size: Size, factor: real)

  /** DkResizeBatch::prepareProperties. Only the default mode hands its scale
      factor on; the side modes compute a size and leave the factor at 1. */
  function PrepareProperties(r: Step, s: Size): (p: Prepared)
    requires r.Resize?
    ensures r.mode == ModeDefault ==> p == Go(InvalidSize, r.scaleFactor)
    ensures p.Go? && r.mode != ModeDefault ==> p.factor == 1.0
    ensures p.Degenerate? ==> r.mode != ModeDefault && Normalized(r.mode, s).width == 0
    ensures (r.mode != ModeDefault && Normalized(r.mode, s).width == 0 && r.scaleFactor > 0.0 &&
             r.property == PropDecreaseOnly) ==> p == Skip(ResizeWouldEnlarge)
  {
    if r.mode == ModeDefault then Go(InvalidSize, r.scaleFactor)
    else
      var norm := Normalized(r.mode, s);
      if norm.width == 0 then
        // the quotient is +inf, -inf or NaN: only the first two can skip
        if r.scaleFactor > 0.0 && r.property == PropDecreaseOnly then Skip(ResizeWouldEnlarge)
        else if r.scaleFactor < 0.0 && r.property == PropIncreaseOnly then Skip(ResizeWouldShrink)
        else Degenerate
      else
        var sf := r.scaleFactor / norm.width as real;
        if sf > 1.0 && r.property == PropDecreaseOnly then Skip(ResizeWouldEnlarge)
        else if sf < 1.0 && r.property == PropIncreaseOnly then Skip(ResizeWouldShrink)
        else if sf == 1.0 then Skip(ResizeSizeMatches)
        else
          var size := Size(QRound(r.scaleFactor), QRound(sf * norm.height as real));
          Go(if norm != s then Transpose(size) else size, 1.0)
  }

  /** An image, whether the step succeeded and what it logged. */
  datatype ImageResult = ImageResult(ok: bool, image: Image, log: seq<Msg>)

  /** DkResizeBatch::compute(QImage&). */
  function ResizeCompute(ops: ImageOps, r: Step, img: Image): (res: ImageResult)
    requires r.Resize?
    ensures !res.ok ==> res.image == img
    ensures res.ok && res.image != img ==> !IsNull(res.image)
  {
    if r.scaleFactor == 1.0 then ImageResult(true, img, [ResizeIgnored])
    else
      match PrepareProperties(r, SizeOf(img))
      case Skip(m) => ImageResult(true, img, [m, ResizeNotNeeded])
      case Degenerate => ImageResult(false, img, [ResizeFailed])
      case Go(size, sf) =>
        var t := ResizeImage(ops, img, size, sf);
        if IsNull(t) then ImageResult(false, img, [ResizeFailed])
        else
          var line := if r.mode == ModeDefault then ResizedByFactor(r.scaleFactor * 100.0)
                      else ResizedToSide(r.scaleFactor);
          ImageResult(true, t, [line])
  }

  /** The size the resize step has resizeImage resample to, if any. */
  function ResizeTarget(r: Step, img: Image): Option<Size>
    requires r.Resize?
  {
    if r.scaleFactor == 1.0 then None
    else
      match PrepareProperties(r, SizeOf(img))
      case Go(size, f) =>
        (match PlanResize(img, size, f)
         case Resample(t) => Some(t)
         case _ => None)
      case _ => None
  }

  /** The resize step fails exactly when resizeImage is reached and gives a
      null image, or the prepared factor is degenerate. */
  predicate ResizeFails(ops: ImageOps, r: Step, img: Image)
    requires r.Resize?
  {
    r.scaleFactor != 1.0 &&
    match PrepareProperties(r, SizeOf(img))
    case Degenerate => true
    case Go(size, f) => IsNull(ResizeImage(ops, img, size, f))
    case Skip(_) => false
  }

  /** For a convertible image the resize step either keeps the image, or
      replaces it by the resampler's output at the target size when that is
      not null and fails otherwise. */
  lemma ResizeComputeUsesTarget(ops: ImageOps, r: Step, img: Image)
    requires r.Resize? && ops.convertible(img)
    ensures ResizeTarget(r, img).None? ==> ResizeCompute(ops, r, img).image == img
    ensures ResizeTarget(r, img).Some? ==>
      var t := ResizeTarget(r, img).value;
      var out := ops.resample(img, t.width, t.height);
      ResizeCompute(ops, r, img).ok == !IsNull(out) &&
      ResizeCompute(ops, r, img).image == (if IsNull(out) then img else out)
    ensures ResizeCompute(ops, r, img).ok <==> !ResizeFails(ops, r, img)
  {
  }

  /** The resize step leaves the image as it is, and succeeds, when the
      factor is 1 or the shrink-only / enlarge-only option forbids the
      change or the side already has the requested length. */
  lemma ResizeSkips(ops: ImageOps, r: Step, img: Image)
    requires r.Resize?
    requires r.scaleFactor == 1.0 || PrepareProperties(r, SizeOf(img)).Skip?
    ensures ResizeCompute(ops, r, img).ok && ResizeCompute(ops, r, img).image == img
  {
  }

  /** In a side mode, a computed size that equals the image's own size
      keeps the image and succeeds, although the requested side length
      differs from the image's. */
  lemma SideModeSameSizeKeepsImage(ops: ImageOps, r: Step, img: Image)
    requires r.Resize? && r.mode != ModeDefault && r.scaleFactor != 1.0
    requires !IsNull(img)
    requires PrepareProperties(r, SizeOf(img)).Go? && PrepareProperties(r, SizeOf(img)).size == SizeOf(img)
    ensures ResizeCompute(ops, r, img) == ImageResult(true, img, [ResizedToSide(r.scaleFactor)])
  {
  }

  /** A width of 100.3 pixels asked of a 100 x 100 image rounds back to
      100 x 100: the image is kept, whatever the resampler would do. */
  lemma NearSideKeepsImage(ops: ImageOps, iplMethod: int, gamma: bool, pixels: nat)
    ensures var r := Resize(100.3, ModeWidth, PropAny, iplMethod, gamma);
      var img := Image(100, 100, pixels);
      ResizeCompute(ops, r, img) == ImageResult(true, img, [ResizedToSide(100.3)])
  {
    var r := Resize(100.3, ModeWidth, PropAny, iplMethod, gamma);
    var img := Image(100, 100, pixels);
    assert QRound(100.3) == 100;
    assert 100.3 / 100.0 * 100.0 == 100.3;
    assert PrepareProperties(r, SizeOf(img)) == Go(Size(100, 100), 1.0);
    SideModeSameSizeKeepsImage(ops, r, img);
  }

  /** A null image under a shrink-only side mode is skipped: its zero side
      makes the quotient infinite, which counts as enlarging. */
  lemma NullImageSkippedByShrinkOnly(ops: ImageOps, r: Step, img: Image)
    requires r.Resize? && r.mode != ModeDefault && r.scaleFactor > 0.0 && r.property == PropDecreaseOnly
    requires Normalized(r.mode, SizeOf(img)).width == 0
    ensures ResizeCompute(ops, r, img) ==
      if r.scaleFactor == 1.0 then ImageResult(true, img, [ResizeIgnored])
      else ImageResult(true, img, [ResizeWouldEnlarge, ResizeNotNeeded])
  {
  }

  /** In the default mode the requested size is invalid, so an image that
      does not convert is resampled to (-1, -1) instead of by the factor. */
  lemma DefaultModeUnconvertibleAsksInvalidSize(ops: ImageOps, r: Step, img: Image)
    requires r.Resize? && r.mode == ModeDefault && r.scaleFactor != 1.0 && !ops.convertible(img)
    requires PlanResize(img, InvalidSize, r.scaleFactor).Resample?
    ensures var out := ops.resample(img, -1, -1);
      ResizeCompute(ops, r, img).ok == !IsNull(out) &&
      ResizeCompute(ops, r, img).image == (if IsNull(out) then img else out)
  {
  }

  /** A side scaled by a factor below one and rounded is no longer. */
  lemma ScaledSideBelow(a: int, f: real)
    requires a >= 0 && f < 1.0
    ensures QRound(a as real * f) <= a
  {
    var d := 1.0 - f;
    assert a as real == a as real * f + a as real * d;
    MulNonNeg(a as real, d);
  }

  /** A side scaled by a factor above one and rounded is no shorter. */
  lemma ScaledSideAbove(a: int, f: real)
    requires a >= 0 && f > 1.0
    ensures QRound(a as real * f) >= a
  {
    var d := f - 1.0;
    assert a as real * f == a as real + a as real * d;
    MulNonNeg(a as real, d);
  }

  lemma MulNonNeg(x: real, y: real)
    requires x >= 0.0 && y >= 0.0
    ensures x * y >= 0.0
  {
  }

  /** A factor below one never gives a larger side, a factor above one never
      a smaller one. */
  lemma ScaledSizeBounds(s: Size, f: real)
    requires s.width >= 0 && s.height >= 0
    ensures f < 1.0 ==> ScaledSize(s, f).width <= s.width && ScaledSize(s, f).height <= s.height
    ensures f > 1.0 ==> ScaledSize(s, f).width >= s.width && ScaledSize(s, f).height >= s.height
  {
    if f < 1.0 {
      ScaledSideBelow(s.width, f);
      ScaledSideBelow(s.height, f);
    } else if f > 1.0 {
      ScaledSideAbove(s.width, f);
      ScaledSideAbove(s.height, f);
    }
  }

  /** A requested side shorter than the side it replaces rounds to no more
      than that side; a longer one to no less. */
  lemma RoundedSideBounds(side: real, w: int)
    ensures side < w as real ==> QRound(side) <= w
    ensures side > w as real ==> QRound(side) >= w
  {
  }

  /** The prepared side-mode size, in the normalized orientation. */
  lemma PreparedSideSize(r: Step, s: Size)
    requires r.Resize? && r.mode != ModeDefault
    requires PrepareProperties(r, s).Go?
    ensures var norm := Normalized(r.mode, s);
      var sf := r.scaleFactor / norm.width as real;
      var size := Size(QRound(r.scaleFactor), QRound(sf * norm.height as real));
      norm.width != 0 && sf != 1.0 &&
      (sf > 1.0 ==> r.property != PropDecreaseOnly) && (sf < 1.0 ==> r.property != PropIncreaseOnly) &&
      PrepareProperties(r, s).size == (if norm != s then Transpose(size) else size)
  {
  }

  /** Both sides of a normalized size stay within the original's bounds
      after transposing back. */
  lemma TransposedBack(s: Size, norm: Size, size: Size)
    requires norm == s || norm == Transpose(s)
    requires norm != s ==> norm == Transpose(s)
    ensures var out := if norm != s then Transpose(size) else size;
      (size.width <= norm.width && size.height <= norm.height ==> out.width <= s.width && out.height <= s.height) &&
      (size.width >= norm.width && size.height >= norm.height ==> out.width >= s.width && out.height >= s.height)
  {
  }

  /** A side-mode size computed in the normalized orientation and turned
      back stays within the original's sides when the factor is below one. */
  lemma SideOutBelow(s: Size, norm: Size, S: real)
    requires norm == s || norm == Transpose(s)
    requires norm.width > 0 && norm.height >= 0 && S / norm.width as real < 1.0
    ensures var size := Size(QRound(S), QRound(S / norm.width as real * norm.height as real));
      var out := if norm != s then Transpose(size) else size;
      out.width <= s.width && out.height <= s.height
  {
    SideBoundsBelow(S, norm.width, norm.height);
    TransposedBack(s, norm, Size(QRound(S), QRound(S / norm.width as real * norm.height as real)));
  }

  /** A side-mode size computed in the normalized orientation and turned
      back covers the original's sides when the factor is above one. */
  lemma SideOutAbove(s: Size, norm: Size, S: real)
    requires norm == s || norm == Transpose(s)
    requires norm.width > 0 && norm.height >= 0 && S / norm.width as real > 1.0
    ensures var size := Size(QRound(S), QRound(S / norm.width as real * norm.height as real));
      var out := if norm != s then Transpose(size) else size;
      out.width >= s.width && out.height >= s.height
  {
    SideBoundsAbove(S, norm.width, norm.height);
    TransposedBack(s, norm, Size(QRound(S), QRound(S / norm.width as real * norm.height as real)));
  }

  /** Shrink-only never asks for a larger image. */
  lemma {:induction false} ShrinkOnlyNeverEnlarges(r: Step, s: Size)
    requires r.Resize? && r.mode != ModeDefault && r.property == PropDecreaseOnly
    requires s.width >= 0 && s.height >= 0
    ensures PrepareProperties(r, s).Go? ==>
      PrepareProperties(r, s).size.width <= s.width && PrepareProperties(r, s).size.height <= s.height
  {
    if PrepareProperties(r, s).Go? {
      var norm := Normalized(r.mode, s);
      PreparedSideSize(r, s);
      assert norm.width > 0 && norm.height >= 0;
      assert r.scaleFactor / norm.width as real < 1.0;
      SideOutBelow(s, norm, r.scaleFactor);
    }
  }

  /** Enlarge-only never asks for a smaller image. */
  lemma {:induction false} EnlargeOnlyNeverShrinks(r: Step, s: Size)
    requires r.Resize? && r.mode != ModeDefault && r.property == PropIncreaseOnly
    requires s.width >= 0 && s.height >= 0
    ensures PrepareProperties(r, s).Go? ==>
      PrepareProperties(r, s).size.width >= s.width && PrepareProperties(r, s).size.height >= s.height
  {
    if PrepareProperties(r, s).Go? {
      var norm := Normalized(r.mode, s);
      PreparedSideSize(r, s);
      assert norm.width > 0 && norm.height >= 0;
      assert r.scaleFactor / norm.width as real > 1.0;
      SideOutAbove(s, norm, r.scaleFactor);
    }
  }

  /** In the side modes the side the mode names gets the requested number
      of pixels (rounded); the other side keeps the aspect ratio. */
  lemma SideModeHitsRequestedLength(r: Step, s: Size)
    requires r.Resize? && r.mode != ModeDefault
    ensures PrepareProperties(r, s).Go? ==>
      (if Transposes(r.mode, s) then PrepareProperties(r, s).size.height else PrepareProperties(r, s).size.width)
        == QRound(r.scaleFactor)
    ensures PrepareProperties(r, s).Go? ==>
      (if Transposes(r.mode, s) then PrepareProperties(r, s).size.width else PrepareProperties(r, s).size.height)
        == QRound(r.scaleFactor / Normalized(r.mode, s).width as real * Normalized(r.mode, s).height as real)
  {
    if PrepareProperties(r, s).Go? {
      PreparedSideSize(r, s);
      var n := Normalized(r.mode, s);
      if n == s && Transposes(r.mode, s) {
        // a square image is not swapped, so both sides come out equal
        ScaleBack(n.width as real, r.scaleFactor);
        assert r.scaleFactor / n.width as real * n.height as real == r.scaleFactor;
      }
    }
  }

  /** In a side mode the prepared size is what gets resampled to, unless it
      is the image's own size or has a side below one pixel. */
  lemma SideModeTargetIsPreparedSize(r: Step, img: Image)
    requires r.Resize? && r.mode != ModeDefault && r.scaleFactor != 1.0
    requires PrepareProperties(r, SizeOf(img)).Go?
    ensures var t := PrepareProperties(r, SizeOf(img)).size;
      ResizeTarget(r, img) == if t == SizeOf(img) || t.width < 1 || t.height < 1 then None else Some(t)
  {
  }

  /** In the default mode the image's size scaled by the factor is what
      gets resampled to, unless a side rounds to nothing. */
  lemma DefaultModeTargetIsScaledSize(r: Step, img: Image)
    requires r.Resize? && r.mode == ModeDefault && r.scaleFactor != 1.0
    ensures var t := ScaledSize(SizeOf(img), r.scaleFactor);
      ResizeTarget(r, img) == if t.width < 1 || t.height < 1 then None else Some(t)
  {
  }

  /** The side-mode size of a normalized w-by-h image when the factor
      S / w is below one: neither side grows. */
  lemma SideBoundsBelow(S: real, w: int, h: int)
    requires w > 0 && h >= 0
    ensures S / w as real < 1.0 ==> QRound(S) <= w && QRound(S / w as real * h as real) <= h
  {
    var sf := S / w as real;
    if sf < 1.0 {
      QuotientBelowOne(S, w as real);
      RoundedSideBounds(S, w);
      ScaledSideBelow(h, sf);
      assert sf * h as real == h as real * sf;
    }
  }

  /** The side-mode size of a normalized w-by-h image when the factor
      S / w is above one: neither side shrinks. */
  lemma SideBoundsAbove(S: real, w: int, h: int)
    requires w > 0 && h >= 0
    ensures S / w as real > 1.0 ==> QRound(S) >= w && QRound(S / w as real * h as real) >= h
  {
    var sf := S / w as real;
    if sf > 1.0 {
      QuotientAboveOne(S, w as real);
      RoundedSideBounds(S, w);
      ScaledSideAbove(h, sf);
      assert sf * h as real == h as real * sf;
    }
  }

  /** A quotient below one by a positive divisor has a smaller dividend. */
  lemma QuotientBelowOne(a: real, w: real)
    requires w > 0.0
    ensures a / w < 1.0 ==> a < w
  {
    var q := a / w;
    assert a == w * q;
    assert w - a == w * (1.0 - q);
  }

  /** A quotient above one by a positive divisor has a larger dividend. */
  lemma QuotientAboveOne(a: real, w: real)
    requires w > 0.0
    ensures a / w > 1.0 ==> a > w
  {
    var q := a / w;
    assert a == w * q;
    assert a - w == w * (q - 1.0);
  }

  lemma ScaleBack(w: real, f: real)
    requires w != 0.0
    ensures w * (f / w) == f
  {
  }

  // ---------------------------------------------------------------------
  // Transform

  /** A container, whether the step succeeded, what it logged and the
      records it produced. */
  datatype StepResult = StepResult(ok: bool, container: Container, log: seq<Msg>, infos: seq<Option<BatchInfo>>)

  /** DkBatchTransform::compute. */
  function TransformCompute(ops: ImageOps, t: Step, c: Container): (res: StepResult)
    requires t.Transform?
    ensures res.ok ==> (res.container == c || HasImage(res.container))
    ensures res.container.cropRect == c.cropRect
    ensures |res.log| == 1 && res.infos == []
  {
    if !IsActive(t) then StepResult(true, c, [TransformInactive], [])
    else
      var rect := c.cropRect;
      var cropped := if t.cropFromMetadata && !IsEmptyRect(rect) then c.(image := ops.crop(c.image, rect)) else c;
      var rotated := if t.angle != 0 then ops.rotate(cropped.image, t.angle) else cropped.image;
      var out := if t.hFlip || t.vFlip then ops.mirror(rotated, t.hFlip, t.vFlip) else rotated;
      if !IsNull(out) then
        var line := if IsEmptyRect(rect) && t.cropFromMetadata then Transformed else TransformedAndCropped;
        StepResult(true, cropped.(image := out), [line], [])
      else
        StepResult(false, cropped, [TransformFailed], [])
  }

  /** A failed transform still leaves the metadata crop applied. */
  lemma TransformFailureKeepsCrop(ops: ImageOps, t: Step, c: Container)
    requires t.Transform? && t.cropFromMetadata && !IsEmptyRect(c.cropRect)
    requires IsNull(ops.crop(c.image, c.cropRect))
    requires t.angle == 0 && !t.hFlip && !t.vFlip
    ensures !TransformCompute(ops, t, c).ok
    ensures TransformCompute(ops, t, c).container.image == ops.crop(c.image, c.cropRect)
  {
  }

  /** A transform that neither rotates nor mirrors nor crops logs that it
      cropped. */
  lemma TransformReportsCropWithoutCropping(ops: ImageOps, t: Step, c: Container)
    requires t == Transform(0, true, false, false) && !IsNull(ops.mirror(c.image, true, false))
    ensures TransformCompute(ops, t, c).log == [TransformedAndCropped]
  {
  }

  // ---------------------------------------------------------------------
  // Plugins

  /** The container the plugin loop holds, what it logged and the records
      it collected. */
  datatype PluginPass = PluginPass(container: Container, log: seq<Msg>, infos: seq<Option<BatchInfo>>)

  /** One iteration of the loop in DkPluginBatch::compute. */
  function RunOnePlugin(host: PluginHost, lp: LoadedPlugin, c: Container, si: SaveInfo): (p: PluginPass)
    ensures p.container == c || HasImage(p.container)
    ensures |p.infos| <= 1
    ensures lp.handle.Some? && lp.handle.value.iface == BatchInterface(true) ==>
      p.infos == [host.runBatch(lp.handle.value, lp.runId, c, si).info]
    ensures lp.handle.Some? && lp.handle.value.iface == BatchInterface(false) ==> p.infos == [None]
    ensures lp.handle.None? || !lp.handle.value.iface.BatchInterface? ==> p.infos == []
  {
    match lp.handle
    case None => PluginPass(c, [PluginIsNull], [])
    case Some(h) =>
      match h.iface
      case BasicInterface =>
        var res := host.runBasic(h, lp.runId, c);
        if res.Some? && HasImage(res.value) then PluginPass(res.value, [], [])
        else PluginPass(c, [PluginCannotApply(h.name)], [])
      case BatchInterface(castable) =>
        if castable then
          var run := host.runBatch(h, lp.runId, c, si);
          if run.result.Some? && HasImage(run.result.value) then PluginPass(run.result.value, [], [run.info])
          else PluginPass(c, [PluginCannotApply(h.name)], [run.info])
        else PluginPass(c, [PluginCannotCast(h.name), PluginCannotApply(h.name)], [None])
      case _ => PluginPass(c, [PluginIllegalInterface(h.name)], [])
  }

  /** The whole loop: each plugin receives the container the previous one
      produced. */
  function RunPlugins(host: PluginHost, loaded: seq<LoadedPlugin>, c: Container, si: SaveInfo): (p: PluginPass)
    decreases |loaded|
  {
    if |loaded| == 0 then PluginPass(c, [], [])
    else
      var one := RunOnePlugin(host, loaded[0], c, si);
      var rest := RunPlugins(host, loaded[1..], one.container, si);
      PluginPass(rest.container, one.log + rest.log, one.infos + rest.infos)
  }

  /** The loop never loses the image: a plugin result replaces the
      container only when it has an image. */
  lemma {:induction false} RunPluginsKeepsImage(host: PluginHost, loaded: seq<LoadedPlugin>, c: Container, si: SaveInfo)
    requires HasImage(c)
    ensures HasImage(RunPlugins(host, loaded, c, si).container)
    decreases |loaded|
  {
    if |loaded| > 0 {
      var one := RunOnePlugin(host, loaded[0], c, si);
      RunPluginsKeepsImage(host, loaded[1..], one.container, si);
    }
  }

  /** DkPluginBatch::compute. The loop reassigns its own copy of the
      container handle, so the caller's container is handed back as it was. */
  function PluginCompute(host: PluginHost, p: Step, c: Container, si: SaveInfo): (res: StepResult)
    requires p.Plugin?
    ensures res.container == c
  {
    if !IsActive(p) then StepResult(true, c, [PluginsInactive], [])
    else
      var pass := RunPlugins(host, p.loaded, c, si);
      if !HasImage(pass.container) then StepResult(false, c, pass.log + [PluginsFailed], pass.infos)
      else StepResult(true, c, pass.log + [PluginsApplied], pass.infos)
  }

  /** The plugin step cannot fail on a container that has an image. */
  lemma PluginStepSucceedsOnImages(host: PluginHost, p: Step, c: Container, si: SaveInfo)
    requires p.Plugin? && HasImage(c)
    ensures PluginCompute(host, p, c, si).ok
  {
    RunPluginsKeepsImage(host, p.loaded, c, si);
  }

  /** DkPluginBatch::loadPlugin: "<plugin name> | <action name>". */
  function LoadPlugin(host: PluginHost, s: string): (lp: LoadedPlugin)
    ensures lp.handle.None? ==> lp.runId == ""
  {
    var ids := Split(s, " | ");
    if |ids| != 2 then LoadedPlugin(None, "")
    else
      match host.byName(ids[0])
      case None => LoadedPlugin(None, "")
      case Some(h) => LoadedPlugin(Some(h), host.runIdOf(h, ids[1]))
  }

  /** A plugin string as the plugin widget builds it is resolved to the
      named plugin and the run id of the named action. */
  lemma LoadPluginOfActionString(host: PluginHost, name: string, action: string)
    requires '|' !in name && '|' !in action
    ensures LoadPlugin(host, name + " | " + action) ==
      match host.byName(name)
      case None => LoadedPlugin(None, "")
      case Some(h) => LoadedPlugin(Some(h), host.runIdOf(h, action))
  {
    var s := name + " | " + action;
    forall i | 0 <= i < |name|
      ensures !OccursAt(s, " | ", i)
    {
      if i + 3 <= |s| {
        assert s[i..i + 3][1] == s[i + 1];
        if i + 1 < |name| { assert s[i + 1] == name[i + 1]; }
      }
    }
    SplitPrefix(name, " | ", action);
    forall i | 0 <= i < |action|
      ensures !OccursAt(action, " | ", i)
    {
      if i + 3 <= |action| {
        assert action[i..i + 3][1] == action[i + 1];
      }
    }
    SplitNoOccurrence(action, " | ");
  }

  /** A string that is not "<name> | <action>" loads no plugin. */
  lemma LoadPluginRejectsPlainName(host: PluginHost, s: string)
    requires '|' !in s
    ensures LoadPlugin(host, s) == LoadedPlugin(None, "")
  {
    forall i | 0 <= i < |s|
      ensures !OccursAt(s, " | ", i)
    {
      if i + 3 <= |s| {
        assert s[i..i + 3][1] == s[i + 1];
      }
    }
    SplitNoOccurrence(s, " | ");
  }

  /** DkPluginBatch::loadAllPlugins: nothing when the loaded list already has
      the plugin list's length; otherwise one entry per plugin string is
      appended (without clearing what was there). */
  function LoadAllPlugins(host: PluginHost, p: Step): (q: Step)
    requires p.Plugin?
    ensures q.Plugin? && q.pluginList == p.pluginList
    ensures p.loaded <= q.loaded
  {
    if |p.loaded| == |p.pluginList| then p
    else p.(loaded := p.loaded + seq(|p.pluginList|, i requires 0 <= i < |p.pluginList| => LoadPlugin(host, p.pluginList[i])))
  }

  /** From a blank step the loaded list is index-aligned with the plugin
      list, and loading again changes nothing. */
  lemma LoadAllPluginsAligned(host: PluginHost, list: seq<string>)
    ensures var q := LoadAllPlugins(host, Plugin(list, []));
      |q.loaded| == |list| &&
      (forall i :: 0 <= i < |list| ==> q.loaded[i] == LoadPlugin(host, list[i])) &&
      LoadAllPlugins(host, q) == q
  {
  }

  /** With a stale loaded list of another length the new entries are
      appended behind the old ones, so the two lists fall out of step. */
  lemma LoadAllPluginsAppendsToStale(host: PluginHost, list: seq<string>, stale: seq<LoadedPlugin>)
    requires |stale| != |list| && |stale| > 0
    ensures |LoadAllPlugins(host, Plugin(list, stale)).loaded| == |stale| + |list|
  {
  }

  /** One postLoadPlugin call: the plugin, its run id and the records
      handed to it. */
  datatype PostLoadCall = PostLoadCall(handle: PluginHandle, runId: string, infos: seq<BatchInfo>)

  /** DkPluginBatch::postLoad: each loaded batch plugin receives the records
      carrying its run id. The result lists those calls in order. */
  function PostLoadCalls(p: Step, infos: seq<Option<BatchInfo>>): (calls: seq<PostLoadCall>)
    requires p.Plugin?
    ensures |calls| <= |p.loaded|
    ensures forall k :: 0 <= k < |calls| ==> calls[k].handle.iface == BatchInterface(true)
    ensures forall k :: 0 <= k < |calls| ==> LoadedPlugin(Some(calls[k].handle), calls[k].runId) in p.loaded
    ensures forall k, j :: 0 <= k < |calls| && 0 <= j < |calls[k].infos| ==> calls[k].infos[j].runId == calls[k].runId
    ensures forall k :: 0 <= k < |calls| ==> calls[k].infos == FilterInfos(infos, calls[k].runId)
    decreases |p.loaded|
  {
    if |p.loaded| == 0 then []
    else
      var lp := p.loaded[0];
      var rest := PostLoadCalls(p.(loaded := p.loaded[1..]), infos);
      if lp.handle.Some? && lp.handle.value.iface == BatchInterface(true)
      then [PostLoadCall(lp.handle.value, lp.runId, FilterInfos(infos, lp.runId))] + rest
      else rest
  }

  /** Every loaded plugin that is a batch plugin is called, with the
      records carrying its run id. */
  lemma {:induction false} PostLoadCallsComplete(p: Step, infos: seq<Option<BatchInfo>>)
    requires p.Plugin?
    ensures forall j :: (0 <= j < |p.loaded| && p.loaded[j].handle.Some? &&
                         p.loaded[j].handle.value.iface == BatchInterface(true)) ==>
      PostLoadCall(p.loaded[j].handle.value, p.loaded[j].runId, FilterInfos(infos, p.loaded[j].runId)) in PostLoadCalls(p, infos)
    decreases |p.loaded|
  {
    if |p.loaded| > 0 {
      var q := p.(loaded := p.loaded[1..]);
      PostLoadCallsComplete(q, infos);
      forall j | 1 <= j < |p.loaded|
        ensures p.loaded[j] == q.loaded[j - 1]
      {
      }
    }
  }

  // ---------------------------------------------------------------------
  // Any step

  /** DkAbstractBatch::compute(container, saveInfo, log, infos): the
      image-only steps replace the container's image when they succeed. */
  function StepCompute(ops: ImageOps, host: PluginHost, s: Step, c: Container, si: SaveInfo): (res: StepResult)
    ensures !res.ok && !s.Transform? ==> res.container == c
    ensures res.container.cropRect == c.cropRect
  {
    match s
    case Resize(_, _, _, _, _) =>
      var r := ResizeCompute(ops, s, c.image);
      StepResult(r.ok, if r.ok then c.(image := r.image) else c, r.log, [])
    case Transform(_, _, _, _) => TransformCompute(ops, s, c)
    case Plugin(_, _) => PluginCompute(host, s, c, si)
  }

  /** An inactive step succeeds and leaves the container as it is. */
  lemma InactiveStepIsIdentity(ops: ImageOps, host: PluginHost, s: Step, c: Container, si: SaveInfo)
    requires !IsActive(s)
    ensures StepCompute(ops, host, s, c, si).ok
    ensures StepCompute(ops, host, s, c, si).container == c
  {
  }

  /** A succeeding step never leaves a container without an image behind,
      given one with an image. */
  lemma StepKeepsImage(ops: ImageOps, host: PluginHost, s: Step, c: Container, si: SaveInfo)
    requires HasImage(c)
    ensures StepCompute(ops, host, s, c, si).ok ==> HasImage(StepCompute(ops, host, s, c, si).container)
  {
  }

  // ---------------------------------------------------------------------
  // Settings

  /** DkAbstractBatch::saveSettings, inside the groups `g`. */
  function SaveStep(st: Settings, g: seq<string>, s: Step): Settings
  {
    var k := g + [SettingsName(s)];
    match s
    case Resize(sf, mode, prop, ipl, gamma) =>
      Put(Put(Put(Put(Put(st, k, "ScaleFactor", VReal(sf)), k, "Mode", VInt(mode)), k, "Property", VInt(prop)),
          k, "IplMethod", VInt(ipl)), k, "CorrectGamma", VBool(gamma))
    case Transform(angle, h, v, crop) =>
      Put(Put(Put(Put(st, k, "Angle", VInt(angle)), k, "HorizontalFlip", VBool(h)), k, "VerticalFlip", VBool(v)),
          k, "CropFromMetadata", VBool(crop))
    case Plugin(list, _) => Put(st, k, "pluginList", VString(Join(list, ";")))
  }

  /** DkPluginContainer::batchPlugin() is non-null: the plugin was found and
      its batch-interface cast succeeds. */
  predicate BatchReady(lp: LoadedPlugin)
  {
    lp.handle.Some? && lp.handle.value.iface == BatchInterface(true)
  }

  /** DkPluginBatch::loadSettings and saveSettings hand the settings to every
      loaded plugin through batchPlugin(), which is only asserted to be
      non-null: a plugin step holding a plugin that was not found, or that
      is no batch plugin, dereferences null. */
  predicate SettingsCrash(s: Step)
  {
    s.Plugin? && exists k :: 0 <= k < |s.loaded| && !BatchReady(s.loaded[k])
  }

  /** DkAbstractBatch::loadSettings into the step `s`; every missing key
      keeps the step's current value. The resize step reads the gamma flag
      under "Correct Gamma", not the "CorrectGamma" it writes. The plugin
      step reads its list (defaulting to the current list as one QVariant
      string), loads the plugins and hands the settings to each of them;
      None is the null dereference of SettingsCrash. */
  function LoadStep(host: PluginHost, st: Settings, g: seq<string>, s: Step): (r: Option<Step>)
    ensures !s.Plugin? ==> r.Some?
    ensures r.Some? ==> r.value.Resize? == s.Resize? && r.value.Transform? == s.Transform? && r.value.Plugin? == s.Plugin?
    ensures r.Some? ==> !SettingsCrash(r.value)
  {
    var k := g + [SettingsName(s)];
    match s
    case Resize(sf, mode, prop, ipl, gamma) =>
      Some(Resize(ReadReal(st, k, "ScaleFactor", sf), ReadInt(st, k, "Mode", mode), ReadInt(st, k, "Property", prop),
                  ReadInt(st, k, "IplMethod", ipl), ReadBool(st, k, "Correct Gamma", gamma)))
    case Transform(angle, h, v, crop) =>
      Some(Transform(ReadInt(st, k, "Angle", angle), ReadBool(st, k, "HorizontalFlip", h),
                     ReadBool(st, k, "VerticalFlip", v), ReadBool(st, k, "CropFromMetadata", crop)))
    case Plugin(list, _) =>
      var stored := ReadString(st, k, "pluginList", ListAsString(list));
      var q := LoadAllPlugins(host, s.(pluginList := Split(stored, ";")));
      if SettingsCrash(q) then None else Some(q)
  }

  /** Saving a resize step and loading it into a blank one gives the step
      back, except for the gamma flag, which keeps the blank step's value. */
  lemma ResizeSettingsRoundTrip(host: PluginHost, st: Settings, g: seq<string>, s: Step)
    requires s.Resize?
    requires Get(st, g + ["ResizeBatch"], "Correct Gamma") == None
    ensures LoadStep(host, SaveStep(st, g, s), g, DefaultResize) == Some(s.(correctGamma := false))
  {
    var k := g + ["ResizeBatch"];
    var st1 := Put(st, k, "ScaleFactor", VReal(s.scaleFactor));
    var st2 := Put(st1, k, "Mode", VInt(s.mode));
    var st3 := Put(st2, k, "Property", VInt(s.property));
    var st4 := Put(st3, k, "IplMethod", VInt(s.iplMethod));
    var st5 := Put(st4, k, "CorrectGamma", VBool(s.correctGamma));
    assert SaveStep(st, g, s) == st5;
    assert Get(st5, k, "ScaleFactor") == Some(VReal(s.scaleFactor));
    assert Get(st5, k, "Mode") == Some(VInt(s.mode));
    assert Get(st5, k, "Property") == Some(VInt(s.property));
    assert Get(st5, k, "IplMethod") == Some(VInt(s.iplMethod));
    assert Get(st5, k, "Correct Gamma") == None;
  }

  /** A settings file that keeps values as text, as an INI file does, still
      gives a fractional scale factor back. */
  lemma TextScaleFactorLoads(host: PluginHost, st: Settings, g: seq<string>, s: Step)
    requires s.Resize?
    requires Get(st, g + ["ResizeBatch"], "ScaleFactor") == Some(VString(" 0.5 "))
    ensures LoadStep(host, st, g, s).value.scaleFactor == 0.5
  {
    ScaleFactorFromText(host, st, g, s, " 0.5 ");
    HalfReadsAsHalf();
  }

  /** A scale factor kept as text is read as a decimal number. */
  lemma ScaleFactorFromText(host: PluginHost, st: Settings, g: seq<string>, s: Step, t: string)
    requires s.Resize?
    requires Get(st, g + ["ResizeBatch"], "ScaleFactor") == Some(VString(t))
    ensures LoadStep(host, st, g, s).value.scaleFactor == ToReal(t)
  {
  }

  /** Saving a transform step and loading it into a blank one gives the step
      back. */
  lemma TransformSettingsRoundTrip(host: PluginHost, st: Settings, g: seq<string>, s: Step)
    requires s.Transform?
    ensures LoadStep(host, SaveStep(st, g, s), g, DefaultTransform) == Some(s)
  {
    TransformKeysSaved(st, g, s);
  }

  /** The four keys a transform step writes hold its fields. */
  lemma TransformKeysSaved(st: Settings, g: seq<string>, s: Step)
    requires s.Transform?
    ensures var k := g + ["TransformBatch"];
      var sv := SaveStep(st, g, s);
      Get(sv, k, "Angle") == Some(VInt(s.angle)) && Get(sv, k, "HorizontalFlip") == Some(VBool(s.hFlip)) &&
      Get(sv, k, "VerticalFlip") == Some(VBool(s.vFlip)) && Get(sv, k, "CropFromMetadata") == Some(VBool(s.cropFromMetadata))
  {
    var k := g + ["TransformBatch"];
    var st1 := Put(st, k, "Angle", VInt(s.angle));
    var st2 := Put(st1, k, "HorizontalFlip", VBool(s.hFlip));
    var st3 := Put(st2, k, "VerticalFlip", VBool(s.vFlip));
    assert SaveStep(st, g, s) == Put(st3, k, "CropFromMetadata", VBool(s.cropFromMetadata));
    GetPut(st1, k, "HorizontalFlip", VBool(s.hFlip), k, "Angle");
    GetPut(st2, k, "VerticalFlip", VBool(s.vFlip), k, "Angle");
    GetPut(st2, k, "VerticalFlip", VBool(s.vFlip), k, "HorizontalFlip");
    GetPut(st3, k, "CropFromMetadata", VBool(s.cropFromMetadata), k, "Angle");
    GetPut(st3, k, "CropFromMetadata", VBool(s.cropFromMetadata), k, "HorizontalFlip");
    GetPut(st3, k, "CropFromMetadata", VBool(s.cropFromMetadata), k, "VerticalFlip");
  }

  /** A blank plugin step loaded from a list of plugin strings holds one
      loaded entry per string, and the load fails exactly when one of them
      names no batch plugin. */
  lemma PluginLoadOfList(host: PluginHost, list: seq<string>)
    requires |list| > 0
    ensures var q := LoadAllPlugins(host, Plugin(list, []));
      (SettingsCrash(q) <==> exists k :: 0 <= k < |list| && !BatchReady(LoadPlugin(host, list[k])))
  {
    LoadAllPluginsAligned(host, list);
    var q := LoadAllPlugins(host, Plugin(list, []));
    if exists k :: 0 <= k < |list| && !BatchReady(LoadPlugin(host, list[k])) {
      var k :| 0 <= k < |list| && !BatchReady(LoadPlugin(host, list[k]));
      assert !BatchReady(q.loaded[k]);
    }
  }

  /** Saving a plugin step and loading it into a blank one gives the plugin
      list back with every plugin loaded when each entry names a batch
      plugin, and fails when one does not, as long as the list is not
      empty and no entry contains the ';' the list is joined with. */
  lemma PluginSettingsRoundTrip(host: PluginHost, st: Settings, g: seq<string>, s: Step)
    requires s.Plugin?
    requires |s.pluginList| > 0 && forall k :: 0 <= k < |s.pluginList| ==> ';' !in s.pluginList[k]
    ensures LoadStep(host, SaveStep(st, g, s), g, DefaultPlugin).Some? <==>
      forall k :: 0 <= k < |s.pluginList| ==> BatchReady(LoadPlugin(host, s.pluginList[k]))
    ensures LoadStep(host, SaveStep(st, g, s), g, DefaultPlugin).Some? ==>
      LoadStep(host, SaveStep(st, g, s), g, DefaultPlugin).value == LoadAllPlugins(host, Plugin(s.pluginList, []))
  {
    var k := g + ["PluginBatch"];
    var st1 := Put(st, k, "pluginList", VString(Join(s.pluginList, ";")));
    assert SaveStep(st, g, s) == st1;
    SplitJoin(s.pluginList, ';');
    PluginLoadOfList(host, s.pluginList);
  }

  /** An empty plugin list comes back as a list holding one empty name,
      which names no plugin, so loading it fails. */
  lemma EmptyPluginListFailsReload(host: PluginHost, st: Settings, g: seq<string>)
    ensures LoadStep(host, SaveStep(st, g, DefaultPlugin), g, DefaultPlugin).None?
  {
    var k := g + ["PluginBatch"];
    assert SaveStep(st, g, DefaultPlugin) == Put(st, k, "pluginList", VString(""));
    SplitJoinEmpty(';');
    assert Split("", ";") == [""];
    LoadPluginRejectsPlainName(host, "");
    PluginLoadOfList(host, [""]);
    assert !BatchReady(LoadPlugin(host, [""][0]));
  }

  /** Without a stored list the plugin step's current list is the default
      as one QVariant string: a one-entry list is kept, any other list
      becomes one empty name, which fails to load. */
  lemma MissingPluginListKeepsOneEntry(host: PluginHost, st: Settings, g: seq<string>, list: seq<string>)
    requires Get(st, g + ["PluginBatch"], "pluginList") == None
    ensures |list| != 1 ==> LoadStep(host, st, g, Plugin(list, [])).None?
    ensures |list| == 1 && ';' !in list[0] && BatchReady(LoadPlugin(host, list[0])) ==>
      LoadStep(host, st, g, Plugin(list, [])) == Some(LoadAllPlugins(host, Plugin(list, [])))
  {
    if |list| != 1 {
      SplitJoinEmpty(';');
      assert ListAsString(list) == "" && Split("", ";") == [""];
      LoadPluginRejectsPlainName(host, "");
      PluginLoadOfList(host, [""]);
      assert !BatchReady(LoadPlugin(host, [""][0]));
    } else if ';' !in list[0] {
      SplitJoin(list, ';');
      assert Join(list, ";") == list[0];
      PluginLoadOfList(host, list);
    }
  }

  /** The gamma flag does not survive saving and loading. */
  lemma CorrectGammaIsLost(host: PluginHost, g: seq<string>)
    ensures LoadStep(host, SaveStep(map[], g, Resize(0.5, ModeDefault, PropAny, IplArea, true)), g, DefaultResize).value.correctGamma == false
  {
    ResizeSettingsRoundTrip(host, map[], g, Resize(0.5, ModeDefault, PropAny, IplArea, true));
  }
}

=== FILE: batch_widget.dfy ===
/** DkBatchWidget: the batch dialog. This model covers moving between its
    pages and createBatchConfig, which checks the input and output pages,
    builds the configuration and puts the active steps into its chain. The
    resize and plugin pages are represented by the steps they hand over;
    the transform page by its state. */
module BatchWidget {
  import opened Text
  import opened FileSystem
  import opened SaveInfos
  import opened BatchSteps
  import opened BatchProcessing
  import opened FilenameWidget
  import opened BatchOutput
  import opened InputEdit
  import TransformWidget

  // ---------------------------------------------------------------------
  // Pages

  /** nextTab: the following page, wrapping to the first. */
  function NextTab(cur: int, n: int): (r: int)
    requires 0 <= cur < n
    ensures 0 <= r < n
    ensures cur < n - 1 ==> r == cur + 1
    ensures cur == n - 1 ==> r == 0
  {
    (cur + 1) % n
  }

  /** previousTab: the preceding page, wrapping to the last. */
  function PreviousTab(cur: int, n: int): (r: int)
    requires 0 <= cur < n
    ensures 0 <= r < n
    ensures cur > 0 ==> r == cur - 1
    ensures cur == 0 ==> r == n - 1
  {
    var idx := cur - 1;
    if idx < 0 then n - 1 else idx
  }

  /** Going forward and back, or back and forward, returns to the page. */
  lemma TabsInverse(cur: int, n: int)
    requires 0 <= cur < n
    ensures PreviousTab(NextTab(cur, n), n) == cur
    ensures NextTab(PreviousTab(cur, n), n) == cur
  {
  }

  // ---------------------------------------------------------------------
  // The input page

  /** DkBatchInput: the text box, the thumbnails selected in the file
      browser and getDir (the input directory, "" when it does not exist). */
  datatype InputPage = InputPage(text: string, thumbSelection: seq<Path>, dir: Path)

  /** getSelectedFiles: the listed files, or the thumbnail selection when
      none are listed. */
  function SelectedFiles(inp: InputPage): (files: seq<Path>)
    ensures |GetFileList(inp.text)| > 0 ==> files == GetFileList(inp.text)
    ensures |GetFileList(inp.text)| == 0 ==> files == inp.thumbSelection
  {
    var listed := GetFileList(inp.text);
    if |listed| == 0 then inp.thumbSelection else listed
  }

  /** getSelectedFilesBatch: the same files; a thumbnail selection is also
      appended to the text box. */
  function SelectedFilesBatch(inp: InputPage): (r: (seq<Path>, InputPage))
    ensures r.0 == SelectedFiles(inp)
    ensures r.1.thumbSelection == inp.thumbSelection && r.1.dir == inp.dir
  {
    var listed := GetFileList(inp.text);
    if |listed| == 0 then (inp.thumbSelection, inp.(text := AppendFiles(inp.text, inp.thumbSelection)))
    else (listed, inp)
  }

  /** After the thumbnail selection has been copied into an empty text box,
      the box lists exactly that selection when its entries are one-line and
      non-blank: the files the batch runs on are the files shown. */
  lemma SelectionShownAfterBatch(inp: InputPage)
    requires forall k :: 0 <= k < |inp.thumbSelection| ==> '\n' !in inp.thumbSelection[k] && !IsBlank(inp.thumbSelection[k])
    ensures var r := SelectedFilesBatch(inp); GetFileList(r.1.text) == r.0
  {
    var listed := GetFileList(inp.text);
    if |listed| == 0 {
      AppendFilesList(inp.text, inp.thumbSelection);
      NewFilesOfNothing(inp.thumbSelection);
      NonBlankKeepsAll(inp.thumbSelection);
    }
  }

  lemma {:induction false} NewFilesOfNothing(files: seq<string>)
    ensures NewFiles([], files) == files
    decreases |files|
  {
    if |files| > 0 {
      NewFilesOfNothing(files[1..]);
      assert files == [files[0]] + files[1..];
    }
  }

  lemma {:induction false} NonBlankKeepsAll(xs: seq<string>)
    requires forall k :: 0 <= k < |xs| ==> !IsBlank(xs[k])
    ensures NonBlank(xs) == xs
    decreases |xs|
  {
    if |xs| > 0 {
      NonBlankKeepsAll(xs[1..]);
      assert xs == [xs[0]] + xs[1..];
    }
  }

  // ---------------------------------------------------------------------
  // The step chain

  /** The position of a step kind in the chain. */
  function Rank(s: Step): nat
  {
    match s
    case Resize(_, _, _, _, _) => 0
    case Transform(_, _, _, _) => 1
    case Plugin(_, _) => 2
  }

  /** The active steps, resize first, then transform, then the plugins
      (only in a build with plugins). */
  function ActiveChain(resize: Step, transform: Step, plugin: Step, withPlugins: bool): (chain: seq<Step>)
    requires resize.Resize? && transform.Transform? && plugin.Plugin?
    ensures forall k :: 0 <= k < |chain| ==> IsActive(chain[k])
    ensures forall i, j :: 0 <= i < j < |chain| ==> Rank(chain[i]) < Rank(chain[j])
    ensures resize in chain <==> IsActive(resize)
    ensures transform in chain <==> IsActive(transform)
    ensures plugin in chain <==> withPlugins && IsActive(plugin)
  {
    (if IsActive(resize) then [resize] else []) +
    (if IsActive(transform) then [transform] else []) +
    (if withPlugins && IsActive(plugin) then [plugin] else [])
  }

  // ---------------------------------------------------------------------
  // createBatchConfig

  /** The configuration createBatchConfig returns, whether it accepted the
      pages (a refusal returns a default configuration), the file system
      (checking a configuration may create its output directory) and the
      input page (its text box may have received the thumbnail selection). */
  datatype Created = Created(accepted: bool, config: Config, fs: Fs, input: InputPage)

  /** Strict mode refuses to write into the input directory unless the
      output page asks for something (several widgets, a changed first
      widget or a new extension) or existing files are overwritten or no
      output is saved. */
  predicate WritesOverInput(inp: InputPage, out: Output)
    requires |out.widgets| > 0
  {
    !HasOutputInput(out) && ToLower(inp.dir) == ToLower(out.outputDir) && OverwriteMode(out) == SkipExisting
  }

  /** createBatchConfig(strict). `createAnswer` is the user's reply to the
      question whether a missing output directory should be created; the
      reply only lets the configuration through, the directory itself is
      created by isOk. */
  function CreateBatchConfig(strict: bool, inp: InputPage, out: Output, filters: seq<string>,
                             resize: Step, transformPage: TransformWidget.TransformPage, plugin: Step,
                             withPlugins: bool, fs: Fs, createAnswer: bool): (r: Created)
    requires strict ==> |out.widgets| > 0
    requires resize.Resize? && plugin.Plugin?
    ensures !r.accepted ==> r.config == DefaultConfig
    ensures !strict ==> r.fs == fs
    ensures r.fs.files == fs.files
    ensures r.accepted ==>
      r.config.fileList == SelectedFiles(inp) && r.config.outputDir == out.outputDir &&
      r.config.pattern == GetFilePattern(out, filters) &&
      r.config.saveInfo == NewSaveInfo(OverwriteMode(out), out.deleteOriginal, out.useInput, GetCompression(out, filters)) &&
      r.config.steps == ActiveChain(resize, TransformWidget.TransferProperties(transformPage), plugin, withPlugins)
  {
    if strict && |SelectedFiles(inp)| == 0 then Created(false, DefaultConfig, fs, inp)
    else if strict && WritesOverInput(inp, out) then Created(false, DefaultConfig, fs, inp)
    else
      var si := NewSaveInfo(OverwriteMode(out), out.deleteOriginal, out.useInput, GetCompression(out, filters));
      var (files, inp') := SelectedFilesBatch(inp);
      var config := Config(files, out.outputDir, GetFilePattern(out, filters), si, []);
      if out.outputDir != "" && !DirExists(fs, out.outputDir) && !createAnswer then
        Created(false, DefaultConfig, fs, inp')
      else
        var check := if strict then IsOk(fs, config) else Outcome(fs, true);
        if !check.ok then Created(false, DefaultConfig, check.fs, inp')
        else
          var transform := TransformWidget.TransferProperties(transformPage);
          Created(true, config.(steps := ActiveChain(resize, transform, plugin, withPlugins)), check.fs, inp')
  }

  // ---------------------------------------------------------------------
  // Lemmas

  /** Strict mode refuses an empty selection and touches nothing. */
  lemma StrictRefusesEmptySelection(inp: InputPage, out: Output, filters: seq<string>, resize: Step,
                                    tp: TransformWidget.TransformPage, plugin: Step, withPlugins: bool,
                                    fs: Fs, createAnswer: bool)
    requires |out.widgets| > 0 && resize.Resize? && plugin.Plugin?
    requires |GetFileList(inp.text)| == 0 && |inp.thumbSelection| == 0
    ensures CreateBatchConfig(true, inp, out, filters, resize, tp, plugin, withPlugins, fs, createAnswer) ==
      Created(false, DefaultConfig, fs, inp)
  {
  }

  /** Strict mode refuses to write unchanged names into the input directory
      while existing files are skipped: the directories are compared without
      regard to case. */
  lemma StrictRefusesOutputOverInput(inp: InputPage, out: Output, filters: seq<string>, resize: Step,
                                     tp: TransformWidget.TransformPage, plugin: Step, withPlugins: bool,
                                     fs: Fs, createAnswer: bool)
    requires |out.widgets| == 1 && !HasUserInput(out.widgets[0]) && out.extIndex != 1
    requires !out.overwrite && !out.doNotSave && ToLower(inp.dir) == ToLower(out.outputDir)
    requires resize.Resize? && plugin.Plugin?
    ensures !CreateBatchConfig(true, inp, out, filters, resize, tp, plugin, withPlugins, fs, createAnswer).accepted
  {
  }

  /** Overwriting, not saving, or any output input lets the same directory
      through the first checks. */
  lemma SameDirectoryAllowedWhenOverwriting(inp: InputPage, out: Output)
    requires |out.widgets| > 0 && (out.overwrite || out.doNotSave)
    ensures !WritesOverInput(inp, out)
  {
  }

  /** What strict mode accepts has files, an output directory that exists
      afterwards and a pattern. */
  lemma StrictAcceptedIsOk(inp: InputPage, out: Output, filters: seq<string>, resize: Step,
                           tp: TransformWidget.TransformPage, plugin: Step, withPlugins: bool,
                           fs: Fs, createAnswer: bool)
    requires |out.widgets| > 0 && resize.Resize? && plugin.Plugin?
    ensures var r := CreateBatchConfig(true, inp, out, filters, resize, tp, plugin, withPlugins, fs, createAnswer);
      r.accepted ==>
        (|r.config.fileList| > 0 && r.config.outputDir != "" &&
         DirExists(r.fs, r.config.outputDir) && r.config.pattern != "" &&
         !WritesOverInput(inp, out))
  {
  }

  /** Saving a profile (not strict) succeeds unless the user declines to
      create a missing output directory. */
  lemma ProfileConfigAccepted(inp: InputPage, out: Output, filters: seq<string>, resize: Step,
                              tp: TransformWidget.TransformPage, plugin: Step, withPlugins: bool,
                              fs: Fs, createAnswer: bool)
    requires resize.Resize? && plugin.Plugin?
    ensures CreateBatchConfig(false, inp, out, filters, resize, tp, plugin, withPlugins, fs, createAnswer).accepted <==>
      (out.outputDir == "" || DirExists(fs, out.outputDir) || createAnswer)
  {
  }

  /** The transform step is in an accepted chain exactly when the transform
      page has user input. */
  lemma TransformInChainIffUserInput(strict: bool, inp: InputPage, out: Output, filters: seq<string>, resize: Step,
                                     tp: TransformWidget.TransformPage, plugin: Step, withPlugins: bool,
                                     fs: Fs, createAnswer: bool)
    requires (strict ==> |out.widgets| > 0) && resize.Resize? && plugin.Plugin?
    ensures var r := CreateBatchConfig(strict, inp, out, filters, resize, tp, plugin, withPlugins, fs, createAnswer);
      r.accepted ==> (TransformWidget.TransferProperties(tp) in r.config.steps <==> TransformWidget.HasUserInput(tp))
  {
    TransformWidget.TransferActiveIffUserInput(tp);
  }

  /** A chain holds at most one step of each kind. */
  lemma ChainHasNoRepeats(resize: Step, transform: Step, plugin: Step, withPlugins: bool)
    requires resize.Resize? && transform.Transform? && plugin.Plugin?
    ensures var c := ActiveChain(resize, transform, plugin, withPlugins);
      |c| <= 3 && forall i, j :: 0 <= i < j < |c| ==> c[i] != c[j]
  {
    var c := ActiveChain(resize, transform, plugin, withPlugins);
    forall i, j | 0 <= i < j < |c|
      ensures c[i] != c[j]
    {
      assert Rank(c[i]) < Rank(c[j]);
    }
  }
}

=== FILE: filename_widget.dfy ===
/** DkFilenameWidget: one token of the output file-name pattern, shown as
    a row of combo boxes. A token is the current file name with a case
    option (written `<c:C>`), a running number with a digit count and a
    start value (`<d:W:N>`), or literal text. The widget is its fields: the
    combo indices, the spin box value and maximum, the text, and the
    enabled state of its plus and minus buttons. */
module FilenameWidget {
  import opened Text

  /** The entries of the type combo box, in insertion order. */
  const TypeFileName: int := 0
  const TypeText: int := 1
  const TypeNumber: int := 2

  /** Entry counts of the type, case and digit combo boxes. */
  const TypeCount: nat := 3
  const CaseCount: nat := 3
  const DigitCount: nat := 5

  datatype Widget = Widget(
    kind: int,
    caseIdx: int,
    digits: int,
    number: int,
    maximum: int,
    text: string,
    plusEnabled: bool,
    minusEnabled: bool)

  /** QComboBox::setCurrentIndex on a box with `count` entries: an index
      outside the box leaves no entry selected (-1). */
  function ComboIndex(i: int, count: nat): int
  {
    if 0 <= i < count then i else -1
  }

  /** QSpinBox keeps its value within [lo, hi]. */
  function Clamp(v: int, lo: int, hi: int): int
    requires lo <= hi
  {
    if v < lo then lo else if v > hi then hi else v
  }

  /** The spin box maximum for a digit-count index: qRound(10^(index+1) - 1). */
  function MaxNumber(index: int): (m: int)
    requires index >= -1
    ensures m >= 0
  {
    Pow10(index + 1) - 1
  }

  /** The states the widget can reach: every combo index is an entry or -1,
      the maximum follows the digit count and the value lies below it. */
  predicate Valid(w: Widget)
  {
    0 <= w.kind < TypeCount && -1 <= w.caseIdx < CaseCount && -1 <= w.digits < DigitCount &&
    w.maximum == MaxNumber(w.digits) && 0 <= w.number <= w.maximum
  }

  /** A freshly constructed widget: current file name, keep case, three
      digits starting at 1 (maximum 999). */
  const NewWidget: Widget := Widget(TypeFileName, 0, 2, 1, 999, "", true, true)

  lemma NewWidgetValid()
    ensures Valid(NewWidget)
  {
    assert MaxNumber(2) == 999 by {
      assert Pow10(3) == 1000;
    }
  }

  /** digitCBChanged(index): the spin box maximum becomes 10^(index+1) - 1
      and the value is pulled down under it. */
  function DigitCBChanged(w: Widget, index: int): (r: Widget)
    requires index >= -1 && w.number >= 0
    ensures 0 <= r.number <= r.maximum
    ensures w.number <= r.maximum ==> r.number == w.number
    ensures r.kind == w.kind && r.caseIdx == w.caseIdx && r.digits == w.digits && r.text == w.text
  {
    var m := MaxNumber(index);
    w.(maximum := m, number := Clamp(w.number, 0, m))
  }

  /** With index+1 digits available, the spin box admits exactly the
      numbers written with at most index+1 digits. */
  lemma DigitCountBoundsNumber(index: int, n: nat)
    requires 0 <= index
    ensures n <= MaxNumber(index) <==> |NatToString(n)| <= index + 1
  {
    NatToStringLength(n, index + 1);
  }

  /** Selecting a digit count; the changed signal runs digitCBChanged. */
  function SetDigits(w: Widget, i: int): (r: Widget)
    requires w.number >= 0
    ensures Valid(w) ==> Valid(r)
    ensures r.digits == ComboIndex(i, DigitCount)
  {
    var idx := ComboIndex(i, DigitCount);
    if idx != w.digits then DigitCBChanged(w.(digits := idx), idx) else w
  }

  /** QSpinBox::setValue. */
  function SetValue(w: Widget, v: int): Widget
    requires w.maximum >= 0
  {
    w.(number := Clamp(v, 0, w.maximum))
  }

  /** The token without its angle brackets: what the pattern parser hands
      back to setTag. */
  function Inner(w: Widget): string
  {
    if w.kind == TypeNumber then "d:" + IntToString(w.digits) + ":" + IntToString(w.number)
    else if w.kind == TypeFileName then "c:" + IntToString(w.caseIdx)
    else if w.kind == TypeText then w.text
    else ""
  }

  /** getTag. */
  function GetTag(w: Widget): (tag: string)
    ensures w.kind == TypeText ==> tag == w.text
    ensures w.kind == TypeNumber || w.kind == TypeFileName ==> tag == "<" + Inner(w) + ">"
  {
    if w.kind == TypeNumber then
      NumberToken(IntToString(w.digits), IntToString(w.number));
      "<d:" + IntToString(w.digits) + ":" + IntToString(w.number) + ">"
    else if w.kind == TypeFileName then
      CaseToken(IntToString(w.caseIdx));
      "<c:" + IntToString(w.caseIdx) + ">"
    else if w.kind == TypeText then w.text
    else ""
  }

  /** A number token is its inner part "d:digits:number" in angle brackets. */
  lemma NumberToken(a: string, b: string)
    ensures "<d:" + a + ":" + b + ">" == "<" + ("d:" + a + ":" + b) + ">"
  {
    assert "<d:" == "<" + "d:";
  }

  /** A file-name token is its inner part "c:case" in angle brackets. */
  lemma CaseToken(a: string)
    ensures "<c:" + a + ">" == "<" + ("c:" + a) + ">"
  {
    assert "<c:" == "<" + "c:";
  }

  /** setTag reads cmds[2] of a "d" tag without checking that there is
      one; a "d" tag must therefore have three parts. */
  predicate TagReadable(tag: string)
  {
    var cmds := Split(tag, ":");
    !(|cmds| == 2 && cmds[0] == "d")
  }

  /** setTag: a tag without ':' becomes literal text; "c" selects the file
      name with a case index, "d" a number with digit count and value; any
      other prefix is refused and changes nothing. */
  function SetTag(w: Widget, tag: string): (r: (bool, Widget))
    requires TagReadable(tag) && w.number >= 0 && w.maximum >= 0
    ensures !r.0 ==> r.1 == w
    ensures Valid(w) ==> Valid(r.1)
    ensures r.1.plusEnabled == w.plusEnabled && r.1.minusEnabled == w.minusEnabled
  {
    var cmds := Split(tag, ":");
    if |cmds| == 1 then (true, w.(kind := TypeText, text := tag))
    else if cmds[0] == "c" then (true, w.(kind := TypeFileName, caseIdx := ComboIndex(ToInt(cmds[1]), CaseCount)))
    else if cmds[0] == "d" then
      var wd := SetDigits(w.(kind := TypeNumber), ToInt(cmds[1]));
      (true, if wd.maximum >= 0 then SetValue(wd, ToInt(cmds[2])) else wd)
    else (false, w)
  }

  /** checkForUserInput: anything but "current file name, keep case". */
  predicate HasUserInput(w: Widget)
  {
    !(w.kind == TypeFileName && w.caseIdx == 0)
  }

  // ---------------------------------------------------------------------
  // Lemmas

  /** Text without ':' is taken as literal text. */
  lemma PlainTagIsText(w: Widget, tag: string)
    requires ':' !in tag && w.number >= 0 && w.maximum >= 0
    ensures TagReadable(tag)
    ensures SetTag(w, tag) == (true, w.(kind := TypeText, text := tag))
  {
    SplitCharAbsent(tag, ':');
  }

  /** A tag with ':' is accepted exactly when it starts with "c:" or "d:". */
  lemma CommandTagAccepted(w: Widget, tag: string, i: nat)
    requires i < |tag| && tag[i] == ':' && ':' !in tag[..i]
    requires TagReadable(tag) && w.number >= 0 && w.maximum >= 0
    ensures SetTag(w, tag).0 <==> i == 1 && (tag[0] == 'c' || tag[0] == 'd')
  {
    SplitCharFirst(tag, ':', i);
    if i == 1 {
      assert tag[..i] == [tag[0]];
    }
  }

  /** Setting the token a widget stands for on any reachable widget gives
      back the same tag, for text without ':'. */
  lemma TagRoundTrip(w0: Widget, w: Widget)
    requires Valid(w0) && Valid(w)
    requires w.kind == TypeText ==> ':' !in w.text
    ensures TagReadable(Inner(w))
    ensures SetTag(w0, Inner(w)).0
    ensures GetTag(SetTag(w0, Inner(w)).1) == GetTag(w)
  {
    if w.kind == TypeText {
      PlainTagIsText(w0, w.text);
    } else if w.kind == TypeFileName {
      FileNameTagRoundTrip(w0, w);
    } else {
      NumberTagRoundTrip(w0, w);
    }
  }

  lemma FileNameTagRoundTrip(w0: Widget, w: Widget)
    requires Valid(w0) && Valid(w) && w.kind == TypeFileName
    ensures TagReadable(Inner(w))
    ensures SetTag(w0, Inner(w)) == (true, w0.(kind := TypeFileName, caseIdx := w.caseIdx))
  {
    var n := IntToString(w.caseIdx);
    IntToStringChars(w.caseIdx, ':');
    assert Inner(w) == "c" + [':'] + n;
    SplitCharTwo("c", ':', n);
    assert Split(Inner(w), ":") == ["c", n];
    ToIntOfIntToString(w.caseIdx);
  }

  lemma NumberTagRoundTrip(w0: Widget, w: Widget)
    requires Valid(w0) && Valid(w) && w.kind == TypeNumber
    ensures TagReadable(Inner(w))
    ensures var r := SetTag(w0, Inner(w));
      r.0 && r.1.kind == TypeNumber && r.1.digits == w.digits && r.1.number == w.number
  {
    var d := IntToString(w.digits);
    var n := IntToString(w.number);
    IntToStringChars(w.digits, ':');
    IntToStringChars(w.number, ':');
    assert Inner(w) == "d" + [':'] + (d + [':'] + n);
    SplitCharConcat("d", ':', d + [':'] + n);
    SplitCharAbsent("d", ':');
    SplitCharTwo(d, ':', n);
    var cmds := Split(Inner(w), ":");
    assert cmds == ["d", d, n];
    ToIntOfIntToString(w.digits);
    ToIntOfIntToString(w.number);
    SetNumberTag(w0, Inner(w), d, n, w.digits, w.number);
  }

  /** A tag "d:a:b" whose parts read as the given numbers sets the digits
      and then the value. */
  lemma SetNumberTag(w0: Widget, tag: string, a: string, b: string, digits: int, number: int)
    requires Valid(w0) && Split(tag, ":") == ["d", a, b]
    requires ToInt(a) == digits && ToInt(b) == number
    requires -1 <= digits < DigitCount && 0 <= number <= MaxNumber(digits)
    ensures TagReadable(tag)
    ensures var r := SetTag(w0, tag);
      r.0 && r.1.kind == TypeNumber && r.1.digits == digits && r.1.number == number
  {
    SetTagOfNumberTag(w0, tag, a, b);
    NumberTagSets(w0, digits, number);
  }

  lemma SetTagOfNumberTag(w0: Widget, tag: string, a: string, b: string)
    requires Valid(w0) && Split(tag, ":") == ["d", a, b]
    ensures TagReadable(tag)
    ensures var wd := SetDigits(w0.(kind := TypeNumber), ToInt(a));
      SetTag(w0, tag) == (true, if wd.maximum >= 0 then SetValue(wd, ToInt(b)) else wd)
  {
  }

  lemma NumberTagSets(w0: Widget, digits: int, number: int)
    requires Valid(w0)
    requires -1 <= digits < DigitCount && 0 <= number <= MaxNumber(digits)
    ensures var wd := SetDigits(w0.(kind := TypeNumber), digits);
      wd.maximum >= 0 && wd.kind == TypeNumber && wd.digits == digits && SetValue(wd, number).number == number
  {
    Pow10Monotone(digits + 1, 5);
    assert Pow10(5) == 100000;
    var wd := SetDigits(w0.(kind := TypeNumber), digits);
    assert wd.maximum == MaxNumber(digits);
  }

  lemma {:induction false} Pow10Monotone(a: nat, b: nat)
    requires a <= b
    ensures Pow10(a) <= Pow10(b)
    decreases b
  {
    if a < b {
      Pow10Monotone(a, b - 1);
    }
  }

  /** An unknown prefix is refused and leaves the widget as it was. */
  lemma UnknownPrefixRefused(w: Widget, tag: string, i: nat)
    requires i < |tag| && tag[i] == ':' && ':' !in tag[..i]
    requires tag[..i] != "c" && tag[..i] != "d"
    requires w.number >= 0 && w.maximum >= 0
    ensures TagReadable(tag)
    ensures SetTag(w, tag) == (false, w)
  {
    SplitCharFirst(tag, ':', i);
  }
}

=== FILE: filesystem.dfy ===
/** The part of the file system the batch process touches: file contents by
    path, the directories that exist and the paths the process is not
    allowed to create, rename or remove. File operations follow QFile:
    rename and copy refuse an existing target, the empty path never exists.
    Paths are absolute and '/'-separated (QFileInfo's view on every
    platform). */
module FileSystem {
  import opened Text

  type Path = string
  type Blob = seq<int>

  datatype Fs = Fs(files: map<Path, Blob>, dirs: set<Path>, locked: set<Path>)

  /** The result of a file operation: the new tree and whether it succeeded. */
  datatype Outcome = Outcome(fs: Fs, ok: bool)

  /** QFileInfo(p).exists() for a file. */
  predicate Exists(fs: Fs, p: Path)
  {
    p != "" && p in fs.files
  }

  /** QDir(d).exists(). */
  predicate DirExists(fs: Fs, d: Path)
  {
    d != "" && d in fs.dirs
  }

  /** The entry for `p` is the same in both trees. */
  predicate SameAt(a: Fs, b: Fs, p: Path)
  {
    (p in a.files <==> p in b.files) && (p in a.files ==> a.files[p] == b.files[p])
  }

  /** Only the listed paths differ between the two trees. */
  ghost predicate OnlyChanged(a: Fs, b: Fs, ps: set<Path>)
  {
    a.dirs == b.dirs && a.locked == b.locked &&
    forall p :: p !in ps ==> SameAt(a, b, p)
  }

  predicate Writable(fs: Fs, p: Path)
  {
    p != "" && p !in fs.locked
  }

  /** QFile::rename(src, dst). */
  function Rename(fs: Fs, src: Path, dst: Path): (r: Outcome)
    ensures r.ok <==> Exists(fs, src) && !Exists(fs, dst) && Writable(fs, src) && Writable(fs, dst)
    ensures r.ok ==> src != dst && !Exists(r.fs, src) && Exists(r.fs, dst) && r.fs.files[dst] == fs.files[src]
    ensures !r.ok ==> r.fs == fs
    ensures OnlyChanged(fs, r.fs, {src, dst})
  {
    if Exists(fs, src) && !Exists(fs, dst) && Writable(fs, src) && Writable(fs, dst) then
      Outcome(fs.(files := fs.files[dst := fs.files[src]] - {src}), true)
    else
      Outcome(fs, false)
  }

  /** QFile::copy(src, dst). */
  function Copy(fs: Fs, src: Path, dst: Path): (r: Outcome)
    ensures r.ok <==> Exists(fs, src) && !Exists(fs, dst) && Writable(fs, dst)
    ensures r.ok ==> src != dst && Exists(r.fs, src) && r.fs.files[src] == fs.files[src] &&
                     Exists(r.fs, dst) && r.fs.files[dst] == fs.files[src]
    ensures !r.ok ==> r.fs == fs
    ensures OnlyChanged(fs, r.fs, {dst})
  {
    if Exists(fs, src) && !Exists(fs, dst) && Writable(fs, dst) then
      Outcome(fs.(files := fs.files[dst := fs.files[src]]), true)
    else
      Outcome(fs, false)
  }

  /** QFile::remove(p). */
  function Remove(fs: Fs, p: Path): (r: Outcome)
    ensures r.ok <==> Exists(fs, p) && Writable(fs, p)
    ensures r.ok ==> !Exists(r.fs, p)
    ensures !r.ok ==> r.fs == fs
    ensures OnlyChanged(fs, r.fs, {p})
  {
    if Exists(fs, p) && Writable(fs, p) then Outcome(fs.(files := fs.files - {p}), true)
    else Outcome(fs, false)
  }

  /** Writing a whole file (an image writer that succeeded). */
  function Write(fs: Fs, p: Path, content: Blob): (r: Outcome)
    ensures r.ok <==> Writable(fs, p)
    ensures r.ok ==> Exists(r.fs, p) && r.fs.files[p] == content
    ensures !r.ok ==> r.fs == fs
    ensures OnlyChanged(fs, r.fs, {p})
  {
    if Writable(fs, p) then Outcome(fs.(files := fs.files[p := content]), true)
    else Outcome(fs, false)
  }

  /** QDir::mkpath(d): succeeds when the directory exists afterwards. */
  function MkPath(fs: Fs, d: Path): (r: Outcome)
    ensures r.ok <==> DirExists(r.fs, d)
    ensures r.ok <==> DirExists(fs, d) || Writable(fs, d)
    ensures r.fs.files == fs.files
  {
    if DirExists(fs, d) then Outcome(fs, true)
    else if Writable(fs, d) then Outcome(fs.(dirs := fs.dirs + {d}), true)
    else Outcome(fs, false)
  }

  // ---------------------------------------------------------------------
  // QFileInfo's view of a path

  /** Index of the last occurrence of `c`, or -1. */
  function LastIndex(s: string, c: char): (r: int)
    ensures -1 <= r < |s|
    ensures r >= 0 ==> s[r] == c && c !in s[r + 1..]
    ensures r == -1 ==> c !in s
  {
    if |s| == 0 then -1
    else if s[|s| - 1] == c then |s| - 1
    else
      var r := LastIndex(s[..|s| - 1], c);
      assert s == s[..|s| - 1] + [s[|s| - 1]];
      r
  }

  /** Index of the first occurrence of `c`, or -1. */
  function FirstIndex(s: string, c: char): (r: int)
    ensures -1 <= r < |s|
    ensures r >= 0 ==> s[r] == c && c !in s[..r]
    ensures r == -1 ==> c !in s
  {
    if |s| == 0 then -1
    else if s[0] == c then 0
    else
      var r := FirstIndex(s[1..], c);
      assert s == [s[0]] + s[1..];
      if r == -1 then -1 else r + 1
  }

  /** QFileInfo::fileName(): the part after the last '/'. */
  function FileName(p: Path): (n: string)
    ensures '/' !in n
  {
    var i := LastIndex(p, '/');
    p[i + 1..]
  }

  /** QFileInfo::absolutePath(): the directory part. */
  function DirPath(p: Path): Path
  {
    var i := LastIndex(p, '/');
    if i < 0 then "" else if i == 0 then "/" else p[..i]
  }

  /** QFileInfo::suffix(): the file name after its last '.', or "". */
  function Suffix(p: Path): (s: string)
    ensures '.' !in s
  {
    var n := FileName(p);
    var i := LastIndex(n, '.');
    if i < 0 then "" else n[i + 1..]
  }

  /** QFileInfo::baseName(): the file name up to its first '.'. */
  function BaseName(p: Path): (b: string)
    ensures '.' !in b
  {
    var n := FileName(p);
    var i := FirstIndex(n, '.');
    if i < 0 then n else n[..i]
  }

  /** QFileInfo(QDir(dir), name).absoluteFilePath() for a relative name. */
  function JoinPath(dir: Path, name: string): Path
  {
    if |dir| > 0 && dir[|dir| - 1] == '/' then dir + name else dir + "/" + name
  }

  /** A name without '/' is the file name of the joined path. */
  lemma FileNameOfJoin(dir: Path, name: string)
    requires '/' !in name
    ensures FileName(JoinPath(dir, name)) == name
  {
    var p := JoinPath(dir, name);
    var k := |p| - |name|;
    assert p[k - 1] == '/' && p[k..] == name;
    LastIndexAt(p, '/', k - 1);
  }

  /** The suffix of a joined path is the suffix of the name. */
  lemma SuffixOfJoin(dir: Path, base: string, ext: string)
    requires '/' !in base && '/' !in ext && '.' !in ext
    ensures Suffix(JoinPath(dir, base + "." + ext)) == ext
  {
    var name := base + "." + ext;
    FileNameOfJoin(dir, name);
    var k := |base|;
    assert name[k + 1..] == ext;
    LastIndexAt(name, '.', k);
  }

  /** A name without '/' joined to a directory without a trailing '/' has
      that directory as its directory part. */
  lemma DirPathOfJoin(dir: Path, name: string)
    requires '/' !in name && |dir| > 1 && dir[|dir| - 1] != '/'
    ensures DirPath(JoinPath(dir, name)) == dir
  {
    var p := JoinPath(dir, name);
    assert p == dir + "/" + name;
    assert p[|dir|] == '/' && p[|dir| + 1..] == name;
    LastIndexAt(p, '/', |dir|);
    assert p[..|dir|] == dir;
  }

  /** The last occurrence is the one with no occurrence after it. */
  lemma LastIndexAt(s: string, c: char, k: nat)
    requires k < |s| && s[k] == c && c !in s[k + 1..]
    ensures LastIndex(s, c) == k
  {
    var r := LastIndex(s, c);
    if r < k {
      assert false;
    } else if r > k {
      assert false;
    }
  }

  /** The first occurrence is the one with no occurrence before it. */
  lemma FirstIndexAt(s: string, c: char, k: nat)
    requires k < |s| && s[k] == c && c !in s[..k]
    ensures FirstIndex(s, c) == k
  {
    var r := FirstIndex(s, c);
    if r < k {
      assert false;
    } else if r > k {
      assert false;
    }
  }

  /** The base name of `dir/base.ext` is `base` when `base` has no '.' and
      neither part has a '/'. */
  lemma BaseNameOfJoin(dir: Path, base: string, ext: string)
    requires '/' !in base && '.' !in base && '/' !in ext
    ensures BaseName(JoinPath(dir, base + "." + ext)) == base
  {
    var name := base + "." + ext;
    FileNameOfJoin(dir, name);
    assert name[..|base|] == base;
    FirstIndexAt(name, '.', |base|);
  }

  /** The base name of a bare `base.ext` is `base`. */
  lemma BaseNameOfName(base: string, ext: string)
    requires '/' !in base && '.' !in base && '/' !in ext
    ensures BaseName(base + "." + ext) == base
  {
    var name := base + "." + ext;
    assert '/' !in name;
    assert LastIndex(name, '/') == -1;
    assert FileName(name) == name;
    assert name[..|base|] == base;
    FirstIndexAt(name, '.', |base|);
  }
}

=== FILE: image_buffers.dfy ===
/** Pixel-level helpers of DkImage that the batch steps rely on. An image
    buffer is a list of scan lines; each line holds at least the bytes the
    pixels use (width * depth bits, rounded up to bytes) followed by
    padding. The loops of the code walk a pointer over the used bytes and
    skip the padding at each line end, which is the same as visiting the
    used columns of every row in turn. */
module ImageBuffers {
  import opened Wrappers
  import opened Text

  type Byte = x: int | 0 <= x < 256

  /** The pixel formats the helpers distinguish. */
  datatype Format = Argb32 | Argb32Premultiplied | Rgb32 | OtherFormat(alphaChannel: bool)

  datatype Buffer = Buffer(width: nat, depth: nat, format: Format, rows: seq<seq<Byte>>)

  /** Used bytes per scan line. */
  function Bpl(b: Buffer): nat
  {
    (b.width * b.depth + 7) / 8
  }

  /** Every scan line is at least as long as its used bytes. */
  predicate Padded(b: Buffer)
  {
    forall r :: 0 <= r < |b.rows| ==> Bpl(b) <= |b.rows[r]|
  }

  predicate IsArgb(f: Format)
  {
    f == Argb32 || f == Argb32Premultiplied
  }

  /** QImage::hasAlphaChannel, or a 32-bit format whose fourth byte is unused. */
  predicate HasAlphaByte(f: Format)
  {
    IsArgb(f) || f == Rgb32 || (f.OtherFormat? && f.alphaChannel)
  }

  /** Same size, format and line lengths. */
  predicate SameShape(a: Buffer, b: Buffer)
  {
    a.width == b.width && a.depth == b.depth && a.format == b.format && |a.rows| == |b.rows|
    && forall r :: 0 <= r < |a.rows| ==> |a.rows[r]| == |b.rows[r]|
  }

  // ---------------------------------------------------------------------
  // alphaChannelUsed

  /** Some alpha byte (every fourth used byte) is not fully opaque. */
  predicate SomeTranslucent(b: Buffer)
  {
    exists r, c :: 0 <= r < |b.rows| && 0 <= c < Bpl(b) && c < |b.rows[r]| && c % 4 == 3 && b.rows[r][c] != 255
  }

  /** alphaChannelUsed: only ARGB images can use their alpha channel, and
      they do when some alpha byte is below 255. */
  method AlphaChannelUsed(b: Buffer) returns (used: bool)
    requires Padded(b)
    ensures used <==> IsArgb(b.format) && SomeTranslucent(b)
  {
    if !IsArgb(b.format) {
      return false;
    }
    var bpl := Bpl(b);
    var r := 0;
    while r < |b.rows|
      invariant 0 <= r <= |b.rows|
      invariant forall r', c :: 0 <= r' < r && 0 <= c < bpl && c % 4 == 3 ==> b.rows[r'][c] == 255
    {
      var c := 0;
      while c < bpl
        invariant 0 <= c <= bpl
        invariant forall c' :: 0 <= c' < c && c' % 4 == 3 ==> b.rows[r][c'] == 255
      {
        if c % 4 == 3 && b.rows[r][c] != 255 {
          return true;
        }
        c := c + 1;
      }
      r := r + 1;
    }
    return false;
  }

  // ---------------------------------------------------------------------
  // mapGammaTable

  /** The code's guard lets a byte equal to the table length through, and
      the lookup then reads one entry past the end of the table: None marks
      that read. Bytes above the length are left as they are. */
  function MapByteAsWritten(table: seq<Byte>, v: Byte): (r: Option<Byte>)
    ensures r.None? <==> v == |table|
  {
    if v > |table| then Some(v)
    else if v == |table| then None
    else Some(table[v])
  }

  /** The lookup with the guard the code evidently intends: bytes the table
      covers are mapped, all others are kept. */
  function MapByte(table: seq<Byte>, v: Byte): (r: Byte)
    ensures v < |table| ==> r == table[v]
    ensures v >= |table| ==> r == v
  {
    if v < |table| then table[v] else v
  }

  /** A table with 255 entries and a byte of 255 reads past the table. */
  lemma GammaGuardReadsPastTable(table: seq<Byte>)
    requires |table| == 255
    ensures MapByteAsWritten(table, 255).None?
  {
  }

  /** The two guards agree wherever the code's does not read past the table;
      in particular always for the usual 256-entry tables. */
  lemma GammaGuardsAgree(table: seq<Byte>, v: Byte)
    requires v != |table|
    ensures MapByteAsWritten(table, v) == Some(MapByte(table, v))
  {
  }

  /** mapGammaTable: every used byte is replaced by its table entry, the
      padding is untouched. */
  method MapGammaTable(b: Buffer, table: seq<Byte>) returns (out: Buffer)
    requires Padded(b)
    ensures SameShape(out, b)
    ensures forall r, c :: 0 <= r < |b.rows| && 0 <= c < |b.rows[r]| ==>
      out.rows[r][c] == (if c < Bpl(b) then MapByte(table, b.rows[r][c]) else b.rows[r][c])
  {
    var bpl := Bpl(b);
    var rows := b.rows;
    var r := 0;
    while r < |rows|
      invariant 0 <= r <= |rows| && |rows| == |b.rows|
      invariant forall i :: 0 <= i < |rows| ==> |rows[i]| == |b.rows[i]|
      invariant forall i, c :: 0 <= i < r && 0 <= c < |rows[i]| ==>
        rows[i][c] == (if c < bpl then MapByte(table, b.rows[i][c]) else b.rows[i][c])
      invariant forall i :: r <= i < |rows| ==> rows[i] == b.rows[i]
    {
      var row := rows[r];
      var c := 0;
      while c < bpl
        invariant 0 <= c <= bpl && |row| == |b.rows[r]|
        invariant forall k :: 0 <= k < |row| ==> row[k] == (if k < c then MapByte(table, b.rows[r][k]) else b.rows[r][k])
      {
        row := row[c := MapByte(table, row[c])];
        c := c + 1;
      }
      rows := rows[r := row];
      r := r + 1;
    }
    out := b.(rows := rows);
  }

  // ---------------------------------------------------------------------
  // normImage

  /** The bytes normImage looks at: used bytes other than the alpha bytes
      of a format with a fourth byte. */
  predicate Counted(b: Buffer, c: int)
  {
    0 <= c < Bpl(b) && !(HasAlphaByte(b.format) && c % 4 == 3)
  }

  /** The linear stretch of [lo, hi] onto [0, 255], rounded like qRound. */
  function Stretch(v: int, lo: int, hi: int): (r: int)
    requires lo < hi
  {
    QRound(255.0 * (v - lo) as real / (hi - lo) as real)
  }

  /** The range of the counted bytes. */
  predicate InRange(b: Buffer, lo: int, hi: int)
  {
    forall r, c :: 0 <= r < |b.rows| && 0 <= c < |b.rows[r]| && Counted(b, c) ==> lo <= b.rows[r][c] <= hi
  }

  predicate Attained(b: Buffer, v: int)
  {
    exists r, c :: 0 <= r < |b.rows| && 0 <= c < |b.rows[r]| && Counted(b, c) && b.rows[r][c] == v
  }

  /** The first pass of normImage: the smallest and the largest counted
      byte, or 255 and 0 when no byte is counted. */
  method ByteRange(b: Buffer) returns (lo: Byte, hi: Byte)
    requires Padded(b)
    ensures InRange(b, lo, hi)
    ensures lo == 255 || Attained(b, lo)
    ensures hi == 0 || Attained(b, hi)
  {
    lo, hi := 255, 0;
    var r := 0;
    while r < |b.rows|
      invariant 0 <= r <= |b.rows|
      invariant InRange(b.(rows := b.rows[..r]), lo, hi)
      invariant lo == 255 || Attained(b.(rows := b.rows[..r]), lo)
      invariant hi == 0 || Attained(b.(rows := b.rows[..r]), hi)
    {
      var c := 0;
      var row := b.rows[r];
      while c < Bpl(b)
        invariant 0 <= c <= Bpl(b)
        invariant InRange(b.(rows := b.rows[..r]), lo, hi)
        invariant forall k :: 0 <= k < c && Counted(b, k) ==> lo <= row[k] <= hi
        invariant lo == 255 || Attained(b.(rows := b.rows[..r]), lo) || exists k :: 0 <= k < c && Counted(b, k) && row[k] == lo
        invariant hi == 0 || Attained(b.(rows := b.rows[..r]), hi) || exists k :: 0 <= k < c && Counted(b, k) && row[k] == hi
      {
        if Counted(b, c) {
          if row[c] > hi {
            hi := row[c];
          }
          if row[c] < lo {
            lo := row[c];
          }
        }
        c := c + 1;
      }
      RangeExtend(b, r, lo, hi);
      r := r + 1;
    }
    assert b.rows[..|b.rows|] == b.rows;
  }

  /** Adding row r to the rows before it. */
  lemma RangeExtend(b: Buffer, r: nat, lo: int, hi: int)
    requires Padded(b) && r < |b.rows|
    requires InRange(b.(rows := b.rows[..r]), lo, hi)
    requires forall k :: 0 <= k < Bpl(b) && Counted(b, k) ==> lo <= b.rows[r][k] <= hi
    ensures InRange(b.(rows := b.rows[..r + 1]), lo, hi)
    ensures (Attained(b.(rows := b.rows[..r]), lo) || exists k :: 0 <= k < Bpl(b) && Counted(b, k) && b.rows[r][k] == lo)
      ==> Attained(b.(rows := b.rows[..r + 1]), lo)
    ensures (Attained(b.(rows := b.rows[..r]), hi) || exists k :: 0 <= k < Bpl(b) && Counted(b, k) && b.rows[r][k] == hi)
      ==> Attained(b.(rows := b.rows[..r + 1]), hi)
  {
    var b0 := b.(rows := b.rows[..r]);
    var b1 := b.(rows := b.rows[..r + 1]);
    assert forall c :: Counted(b1, c) == Counted(b, c) == Counted(b0, c);
    forall i, c | 0 <= i < |b1.rows| && 0 <= c < |b1.rows[i]| && Counted(b1, c)
      ensures lo <= b1.rows[i][c] <= hi
    {
      if i < r {
        assert b1.rows[i] == b0.rows[i];
      }
    }
    forall v | v == lo || v == hi
      ensures (Attained(b0, v) || exists k :: 0 <= k < Bpl(b) && Counted(b, k) && b.rows[r][k] == v) ==> Attained(b1, v)
    {
      if Attained(b0, v) {
        var i, c :| 0 <= i < |b0.rows| && 0 <= c < |b0.rows[i]| && Counted(b0, c) && b0.rows[i][c] == v;
        assert b1.rows[i] == b0.rows[i];
      } else if k :| 0 <= k < Bpl(b) && Counted(b, k) && b.rows[r][k] == v {
        assert b1.rows[r][k] == v;
      }
    }
  }

  /** The second pass of normImage on one scan line. */
  method StretchRow(b: Buffer, row: seq<Byte>, lo: Byte, hi: Byte) returns (out: seq<Byte>)
    requires lo < hi && Bpl(b) <= |row|
    requires forall k :: 0 <= k < |row| && Counted(b, k) ==> lo <= row[k] <= hi
    ensures |out| == |row|
    ensures forall k :: 0 <= k < |row| ==> out[k] == (if Counted(b, k) then Stretch(row[k], lo, hi) else row[k])
  {
    out := row;
    var c := 0;
    while c < Bpl(b)
      invariant 0 <= c <= Bpl(b) && |out| == |row|
      invariant forall k :: 0 <= k < |row| ==>
        out[k] == (if k < c && Counted(b, k) then Stretch(row[k], lo, hi) else row[k])
    {
      if Counted(b, c) {
        StretchInRange(row[c], lo, hi);
        var v: Byte := Stretch(row[c], lo, hi);
        out := out[c := v];
      }
      c := c + 1;
    }
  }

  /** The second pass of normImage: every counted byte is stretched from
      [lo, hi] onto [0, 255]; the other bytes are kept. */
  method StretchCounted(b: Buffer, lo: Byte, hi: Byte) returns (out: Buffer)
    requires Padded(b) && lo < hi && InRange(b, lo, hi)
    ensures SameShape(out, b)
    ensures forall r, c :: 0 <= r < |b.rows| && 0 <= c < |b.rows[r]| ==>
      out.rows[r][c] == (if Counted(b, c) then Stretch(b.rows[r][c], lo, hi) else b.rows[r][c])
  {
    var rows: seq<seq<Byte>> := b.rows;
    var r := 0;
    while r < |rows|
      invariant 0 <= r <= |rows| && |rows| == |b.rows|
      invariant forall i :: 0 <= i < |rows| ==> |rows[i]| == |b.rows[i]|
      invariant forall i, c :: 0 <= i < r && 0 <= c < |rows[i]| ==>
        rows[i][c] == (if Counted(b, c) then Stretch(b.rows[i][c], lo, hi) else b.rows[i][c])
      invariant forall i :: r <= i < |rows| ==> rows[i] == b.rows[i]
    {
      var row := StretchRow(b, b.rows[r], lo, hi);
      rows := rows[r := row];
      r := r + 1;
    }
    out := b.(rows := rows);
  }

  /** normImage: finds the smallest and largest counted byte, reports no
      change when they already span 0..255 or are equal, and otherwise
      stretches every counted byte linearly. The result is also true when
      no byte is counted (the extremes stay 255 and 0), and the image is
      then left as it is. */
  method NormImage(b: Buffer) returns (changed: bool, out: Buffer, lo: Byte, hi: Byte)
    requires Padded(b)
    ensures InRange(b, lo, hi)
    ensures lo == 255 || Attained(b, lo)
    ensures hi == 0 || Attained(b, hi)
    ensures changed <==> !(lo == 0 && hi == 255) && hi != lo
    ensures SameShape(out, b)
    ensures !(changed && lo < hi) ==> out == b
    ensures changed && lo < hi ==> forall r, c :: 0 <= r < |b.rows| && 0 <= c < |b.rows[r]| ==>
      out.rows[r][c] == (if Counted(b, c) then Stretch(b.rows[r][c], lo, hi) else b.rows[r][c])
  {
    lo, hi := ByteRange(b);
    if (lo == 0 && hi == 255) || hi == lo {
      return false, b, lo, hi;
    }
    changed := true;
    if hi < lo {
      // no byte was counted: the second pass writes nothing
      out := b;
    } else {
      out := StretchCounted(b, lo, hi);
    }
  }

  /** When the pass reports a change with hi below lo, no byte was counted. */
  lemma EmptyRangeMeansNothingCounted(b: Buffer, lo: Byte, hi: Byte)
    requires Padded(b) && InRange(b, lo, hi) && hi < lo
    ensures forall r, c :: 0 <= r < |b.rows| && 0 <= c < |b.rows[r]| ==> !Counted(b, c)
  {
  }

  /** The stretch keeps bytes between the extremes inside 0..255. */
  lemma StretchInRange(v: int, lo: int, hi: int)
    requires lo < hi && lo <= v <= hi
    ensures 0 <= Stretch(v, lo, hi) <= 255
  {
    var q := 255.0 * (v - lo) as real / (hi - lo) as real;
    assert 0.0 <= q;
    assert q <= 255.0 by {
      assert (v - lo) as real <= (hi - lo) as real;
      assert 255.0 * (v - lo) as real <= 255.0 * (hi - lo) as real;
    }
  }

  /** The smallest byte goes to 0 and the largest to 255. */
  lemma StretchEnds(lo: int, hi: int)
    requires lo < hi
    ensures Stretch(lo, lo, hi) == 0 && Stretch(hi, lo, hi) == 255
  {
    assert 255.0 * (hi - lo) as real / (hi - lo) as real == 255.0;
  }

  /** The stretch keeps the order of bytes. */
  lemma StretchMonotone(u: int, v: int, lo: int, hi: int)
    requires lo < hi && u <= v
    ensures Stretch(u, lo, hi) <= Stretch(v, lo, hi)
  {
    var d := (hi - lo) as real;
    assert 255.0 * (u - lo) as real <= 255.0 * (v - lo) as real;
    assert 255.0 * (u - lo) as real / d <= 255.0 * (v - lo) as real / d;
  }

  /** After a change the counted bytes span the full range: the smallest
      one is 0 and the largest 255. */
  lemma NormImageSpansRange(b: Buffer, out: Buffer, lo: Byte, hi: Byte, r1: int, c1: int, r2: int, c2: int)
    requires Padded(b) && lo < hi && SameShape(out, b)
    requires 0 <= r1 < |b.rows| && Counted(b, c1) && b.rows[r1][c1] == lo
    requires 0 <= r2 < |b.rows| && Counted(b, c2) && b.rows[r2][c2] == hi
    requires forall r, c :: 0 <= r < |b.rows| && 0 <= c < |b.rows[r]| ==>
      out.rows[r][c] == (if Counted(b, c) then Stretch(b.rows[r][c], lo, hi) else b.rows[r][c])
    ensures out.rows[r1][c1] == 0 && out.rows[r2][c2] == 255
  {
    StretchEnds(lo, hi);
  }

  // ---------------------------------------------------------------------
  // findHistPeak

  /** The number of pixels in the bins from i up. */
  function SumFrom(hist: seq<int>, i: nat): int
    decreases |hist| - i
  {
    if i >= |hist| then 0 else hist[i] + SumFrom(hist, i + 1)
  }

  /** The share of pixels in bins i..255 is above the quantile. An empty
      histogram divides zero by zero, and that comparison is false. */
  predicate Exceeds(hist: seq<int>, i: nat, quantile: real)
  {
    SumFrom(hist, 0) != 0 && SumFrom(hist, i) as real / SumFrom(hist, 0) as real > quantile
  }

  /** findHistPeak: scanning down from the brightest bin, the first bin
      whose upper tail holds more than the quantile of all pixels; 255 when
      there is none. */
  method FindHistPeak(hist: seq<int>, quantile: real) returns (idx: int)
    requires |hist| == 256 && forall k :: 0 <= k < 256 ==> hist[k] >= 0
    ensures 0 <= idx <= 255
    ensures Exceeds(hist, idx, quantile) || (idx == 255 && forall i :: 0 <= i < 256 ==> !Exceeds(hist, i, quantile))
    ensures forall i :: idx < i < 256 ==> !Exceeds(hist, i, quantile)
  {
    var area := 0;
    var k := 0;
    while k < 256
      invariant 0 <= k <= 256
      invariant area + SumFrom(hist, k) == SumFrom(hist, 0)
    {
      area := area + hist[k];
      k := k + 1;
    }
    var sumBins := 0;
    var i := 255;
    while i >= 0
      invariant -1 <= i <= 255
      invariant sumBins == SumFrom(hist, i + 1)
      invariant forall j :: i < j < 256 ==> !Exceeds(hist, j, quantile)
    {
      sumBins := sumBins + hist[i];
      if area != 0 && sumBins as real / area as real > quantile {
        return i;
      }
      i := i - 1;
    }
    return 255;
  }

  lemma {:induction false} SumFromNonNegative(hist: seq<int>, i: nat)
    requires forall k :: 0 <= k < |hist| ==> hist[k] >= 0
    ensures SumFrom(hist, i) >= 0
    decreases |hist| - i
  {
    if i < |hist| {
      SumFromNonNegative(hist, i + 1);
    }
  }

  /** The upper tails grow as the bin index falls. */
  lemma {:induction false} SumFromAntitone(hist: seq<int>, i: nat, j: nat)
    requires forall k :: 0 <= k < |hist| ==> hist[k] >= 0
    requires i <= j
    ensures SumFrom(hist, j) <= SumFrom(hist, i)
    decreases j - i
  {
    if i < j {
      SumFromAntitone(hist, i + 1, j);
      if i < |hist| {
        assert SumFrom(hist, i) == hist[i] + SumFrom(hist, i + 1);
      }
    }
  }

  /** Exceeding the quantile holds for every bin below one that exceeds it,
      so the peak is the largest such bin: every bin at or below it exceeds
      the quantile and none above it does. */
  lemma HistPeakSplitsBins(hist: seq<int>, quantile: real, idx: int, i: int)
    requires |hist| == 256 && forall k :: 0 <= k < 256 ==> hist[k] >= 0
    requires 0 <= i <= idx <= 255 && Exceeds(hist, idx, quantile)
    ensures Exceeds(hist, i, quantile)
  {
    SumFromAntitone(hist, i, idx);
    SumFromNonNegative(hist, 0);
    var a := SumFrom(hist, 0) as real;
    assert a > 0.0;
    assert SumFrom(hist, idx) as real / a <= SumFrom(hist, i) as real / a;
  }

  // ---------------------------------------------------------------------
  // makeSquare

  datatype Rect = Rect(x: int, y: int, width: int, height: int)

  /** makeSquare: the centred square of the pixmap whose side is the
      shorter side; the odd pixel goes to the right or bottom margin. */
  function MakeSquare(w: nat, h: nat): (r: Rect)
    ensures r.width == r.height == IntMin2(w, h)
    ensures 0 <= r.x && r.x + r.width <= w && 0 <= r.y && r.y + r.height <= h
    ensures r.x <= w - (r.x + r.width) <= r.x + 1
    ensures r.y <= h - (r.y + r.height) <= r.y + 1
  {
    if w > h then Rect((w - h) / 2, 0, h, h) else Rect(0, (h - w) / 2, w, w)
  }

  function IntMin2(a: int, b: int): int
  {
    if a <= b then a else b
  }

  /** A square pixmap is copied whole. */
  lemma SquareIsKept(s: nat)
    ensures MakeSquare(s, s) == Rect(0, 0, s, s)
  {
  }

  /** Turning the pixmap by a quarter turns the square: the two branches
      are mirror images of each other. */
  lemma MakeSquareTransposes(w: nat, h: nat)
    requires w != h
    ensures var a := MakeSquare(w, h); var b := MakeSquare(h, w);
      a.x == b.y && a.y == b.x && a.width == b.height
  {
  }

  // ---------------------------------------------------------------------
  // addToImage

  /** The flat reference: adds val to the first byte; a byte that would
      pass 255 is set to the overflow minus 255, and that value is carried
      on to the next byte. Returns the bytes, whether some byte took the
      carry without overflowing, and the value carried out of the last
      byte otherwise. */
  function AddSeq(xs: seq<Byte>, val: Byte): (r: (seq<Byte>, bool, Byte))
    ensures |r.0| == |xs|
    decreases |xs|
  {
    if |xs| == 0 then (xs, false, val)
    else if xs[0] <= 255 - val then ([xs[0] + val] + xs[1..], true, val)
    else
      var v: Byte := xs[0] + val - 255;
      var rest := AddSeq(xs[1..], v);
      ([v] + rest.0, rest.1, rest.2)
  }

  /** The value carried into byte k, as long as every earlier byte overflowed. */
  function Carry(xs: seq<Byte>, val: Byte, k: nat): int
    requires k <= |xs|
  {
    if k == 0 then val else xs[k - 1] + Carry(xs, val, k - 1) - 255
  }

  /** Byte k is the first that takes its carry without overflowing. */
  predicate AbsorbsAt(xs: seq<Byte>, val: Byte, k: nat)
  {
    k < |xs| && xs[k] + Carry(xs, val, k) <= 255
    && forall j :: 0 <= j < k ==> xs[j] + Carry(xs, val, j) > 255
  }

  /** One used row: the code's inner loop from column c, returning the row,
      whether the value was absorbed and the value carried out. */
  function AddToRow(row: seq<Byte>, bpl: nat, c: nat, val: Byte): (r: (seq<Byte>, bool, Byte))
    requires bpl <= |row| && c <= bpl
    ensures |r.0| == |row|
    decreases bpl - c
  {
    if c == bpl then (row, false, val)
    else if row[c] <= 255 - val then (row[c := row[c] + val], true, val)
    else
      var v: Byte := row[c] + val - 255;
      AddToRow(row[c := v], bpl, c + 1, v)
  }

  /** The outer loop: rows in turn until one absorbs the value. */
  function AddToRows(rows: seq<seq<Byte>>, bpl: nat, val: Byte): (r: (seq<seq<Byte>>, bool))
    requires forall i :: 0 <= i < |rows| ==> bpl <= |rows[i]|
    ensures |r.0| == |rows| && forall i :: 0 <= i < |rows| ==> |r.0[i]| == |rows[i]|
    decreases |rows|
  {
    if |rows| == 0 then (rows, false)
    else
      var first := AddToRow(rows[0], bpl, 0, val);
      if first.1 then ([first.0] + rows[1..], true)
      else
        var rest := AddToRows(rows[1..], bpl, first.2);
        ([first.0] + rest.0, rest.1)
  }

  /** addToImage: adds val to the image read as one number, least
      significant byte first, with the code's carry rule. */
  function AddToImage(b: Buffer, val: Byte): (r: (bool, Buffer))
    requires Padded(b)
    ensures SameShape(r.1, b)
  {
    var res := AddToRows(b.rows, Bpl(b), val);
    (res.1, b.(rows := res.0))
  }

  /** The used bytes of all rows, one after the other. */
  function Used(rows: seq<seq<Byte>>, bpl: nat): (r: seq<Byte>)
    requires forall i :: 0 <= i < |rows| ==> bpl <= |rows[i]|
    ensures |r| == |rows| * bpl
  {
    if |rows| == 0 then [] else rows[0][..bpl] + Used(rows[1..], bpl)
  }

  /** The row function agrees with the flat reference on the row's used
      bytes, and leaves the padding alone. */
  lemma {:induction false} AddToRowFlat(row: seq<Byte>, bpl: nat, c: nat, val: Byte)
    requires bpl <= |row| && c <= bpl
    ensures var r := AddToRow(row, bpl, c, val); var s := AddSeq(row[c..bpl], val);
      r.0[..c] == row[..c] && r.0[c..bpl] == s.0 && r.0[bpl..] == row[bpl..] && r.1 == s.1
      && (!r.1 ==> r.2 == s.2)
    decreases bpl - c
  {
    var xs := row[c..bpl];
    if c < bpl && row[c] > 255 - val {
      var v: Byte := row[c] + val - 255;
      var row' := row[c := v];
      AddToRowFlat(row', bpl, c + 1, v);
      assert row'[c + 1..bpl] == xs[1..];
      var r := AddToRow(row, bpl, c, val);
      assert r == AddToRow(row', bpl, c + 1, v);
      assert r.0[c..bpl] == [v] + r.0[c + 1..bpl];
    } else if c < bpl {
      assert AddToRow(row, bpl, c, val).0[c..bpl] == [row[c] + val] + xs[1..];
    }
  }

  /** The row-by-row function is the flat reference on the used bytes, and
      it never touches the padding. */
  lemma {:induction false} AddToRowsFlat(rows: seq<seq<Byte>>, bpl: nat, val: Byte)
    requires forall i :: 0 <= i < |rows| ==> bpl <= |rows[i]|
    ensures var r := AddToRows(rows, bpl, val);
      Used(r.0, bpl) == AddSeq(Used(rows, bpl), val).0 && r.1 == AddSeq(Used(rows, bpl), val).1
      && forall i :: 0 <= i < |rows| ==> r.0[i][bpl..] == rows[i][bpl..]
    decreases |rows|
  {
    if |rows| > 0 {
      var first := AddToRow(rows[0], bpl, 0, val);
      AddToRowFlat(rows[0], bpl, 0, val);
      var xs := rows[0][..bpl];
      assert rows[0][0..bpl] == xs;
      AddSeqConcat(xs, Used(rows[1..], bpl), val);
      if !first.1 {
        AddToRowsFlat(rows[1..], bpl, first.2);
      }
      var r := AddToRows(rows, bpl, val);
      assert r.0[0] == first.0;
      assert r.0[1..] == (if first.1 then rows[1..] else AddToRows(rows[1..], bpl, first.2).0);
      assert first.0[..bpl] == first.0[0..bpl];
    }
  }

  /** addToImage is the flat reference on the used bytes of the rows read
      one after the other; the padding keeps its bytes. */
  lemma AddToImageIsFlatAdd(b: Buffer, val: Byte)
    requires Padded(b)
    ensures var r := AddToImage(b, val); var s := AddSeq(Used(b.rows, Bpl(b)), val);
      r.0 == s.1 && Used(r.1.rows, Bpl(b)) == s.0
      && forall i :: 0 <= i < |b.rows| ==> r.1.rows[i][Bpl(b)..] == b.rows[i][Bpl(b)..]
  {
    AddToRowsFlat(b.rows, Bpl(b), val);
  }

  /** The flat reference over two pieces: the second piece is reached only
      when the first does not absorb the value, with the first's carry out. */
  lemma {:induction false} AddSeqConcat(xs: seq<Byte>, ys: seq<Byte>, val: Byte)
    ensures var a := AddSeq(xs, val); var s := AddSeq(xs + ys, val);
      if a.1 then s.0 == a.0 + ys && s.1
      else s.0 == a.0 + AddSeq(ys, a.2).0 && s.1 == AddSeq(ys, a.2).1
    decreases |xs|
  {
    if |xs| == 0 {
      assert xs + ys == ys;
    } else {
      assert (xs + ys)[0] == xs[0];
      assert (xs + ys)[1..] == xs[1..] + ys;
      if xs[0] > 255 - val {
        var v: Byte := xs[0] + val - 255;
        AddSeqConcat(xs[1..], ys, v);
      }
    }
  }

  /** With nothing added the first used byte absorbs at once and the image
      stays as it is. */
  lemma AddZeroChangesNothing(xs: seq<Byte>)
    requires |xs| > 0
    ensures AddSeq(xs, 0).0 == xs && AddSeq(xs, 0).1
  {
    assert [xs[0] + 0] + xs[1..] == xs;
  }

  /** When the first byte has room, it alone changes. */
  lemma AddFirstByteAbsorbs(xs: seq<Byte>, val: Byte)
    requires |xs| > 0 && xs[0] <= 255 - val
    ensures AddSeq(xs, val).1 && AddSeq(xs, val).0 == xs[0 := xs[0] + val]
  {
  }

  /** The carry into byte k + 1 after an overflowing first byte is the carry
      into byte k of the rest started with the first overflow. */
  lemma {:induction false} CarryShift(xs: seq<Byte>, val: Byte, v: Byte, k: nat)
    requires 1 <= k <= |xs| && v == xs[0] + val - 255
    ensures Carry(xs, val, k) == Carry(xs[1..], v, k - 1)
  {
    if k > 1 {
      CarryShift(xs, val, v, k - 1);
    }
  }

  /** Dropping an overflowing first byte moves the first absorbing byte one
      place down. */
  lemma AbsorbsShift(xs: seq<Byte>, val: Byte, v: Byte, k: nat)
    requires |xs| > 0 && xs[0] > 255 - val && v == xs[0] + val - 255
    ensures AbsorbsAt(xs, val, k) <==> k > 0 && AbsorbsAt(xs[1..], v, k - 1)
  {
    if k > 0 && k <= |xs| {
      CarryShift(xs, val, v, k);
      forall j | 1 <= j < k
        ensures Carry(xs, val, j) == Carry(xs[1..], v, j - 1)
      {
        CarryShift(xs, val, v, j);
      }
      if AbsorbsAt(xs[1..], v, k - 1) {
        forall j | 0 <= j < k
          ensures xs[j] + Carry(xs, val, j) > 255
        {
          if j > 0 {
            assert xs[1..][j - 1] + Carry(xs[1..], v, j - 1) > 255;
          }
        }
      }
    }
  }

  /** The result is true exactly when some byte takes its carry without
      overflowing. */
  lemma {:induction false} AddSeqDoneIff(xs: seq<Byte>, val: Byte)
    ensures AddSeq(xs, val).1 <==> exists k: nat :: AbsorbsAt(xs, val, k)
    decreases |xs|
  {
    if |xs| > 0 {
      if xs[0] <= 255 - val {
        assert AbsorbsAt(xs, val, 0);
      } else {
        var v: Byte := xs[0] + val - 255;
        AddSeqDoneIff(xs[1..], v);
        if AddSeq(xs, val).1 {
          var k: nat :| AbsorbsAt(xs[1..], v, k);
          AbsorbsShift(xs, val, v, k + 1);
        } else if k: nat :| AbsorbsAt(xs, val, k) {
          AbsorbsShift(xs, val, v, k);
        }
      }
    }
  }

  /** Around the first absorbing byte: bytes before it hold their overflow,
      it holds its sum, and bytes after it never change. */
  lemma AddSeqAbsorbedAt(xs: seq<Byte>, val: Byte, k: nat)
    requires AbsorbsAt(xs, val, k)
    ensures var r := AddSeq(xs, val).0;
      r[k + 1..] == xs[k + 1..] && r[k] == xs[k] + Carry(xs, val, k)
      && forall j :: 0 <= j < k ==> r[j] == xs[j] + Carry(xs, val, j) - 255
  {
    AddSeqKeepsAfter(xs, val, k);
    AddSeqAbsorbs(xs, val, k);
    forall j | 0 <= j < k
      ensures AddSeq(xs, val).0[j] == xs[j] + Carry(xs, val, j) - 255
    {
      AddSeqOverflows(xs, val, k, j);
    }
  }

  /** The bytes after the first absorbing one are left as they are. */
  lemma {:induction false} AddSeqKeepsAfter(xs: seq<Byte>, val: Byte, k: nat)
    requires AbsorbsAt(xs, val, k)
    ensures AddSeq(xs, val).0[k + 1..] == xs[k + 1..]
    decreases k
  {
    if k > 0 {
      assert xs[0] + Carry(xs, val, 0) > 255;
      var v: Byte := xs[0] + val - 255;
      AbsorbsShift(xs, val, v, k);
      AddSeqKeepsAfter(xs[1..], v, k - 1);
      var r := AddSeq(xs, val).0;
      var rest := AddSeq(xs[1..], v).0;
      assert r[1..] == rest;
      assert r[k + 1..] == rest[k..];
    }
  }

  /** The first absorbing byte holds its sum with the carry. */
  lemma {:induction false} AddSeqAbsorbs(xs: seq<Byte>, val: Byte, k: nat)
    requires AbsorbsAt(xs, val, k)
    ensures AddSeq(xs, val).0[k] == xs[k] + Carry(xs, val, k)
    decreases k
  {
    if k > 0 {
      assert xs[0] + Carry(xs, val, 0) > 255;
      var v: Byte := xs[0] + val - 255;
      AbsorbsShift(xs, val, v, k);
      AddSeqAbsorbs(xs[1..], v, k - 1);
      CarryShift(xs, val, v, k);
      var r := AddSeq(xs, val).0;
      assert r[1..] == AddSeq(xs[1..], v).0;
    }
  }

  /** A byte before the first absorbing one holds its overflow. */
  lemma {:induction false} AddSeqOverflows(xs: seq<Byte>, val: Byte, k: nat, j: nat)
    requires AbsorbsAt(xs, val, k) && j < k
    ensures AddSeq(xs, val).0[j] == xs[j] + Carry(xs, val, j) - 255
    decreases j
  {
    assert xs[0] + Carry(xs, val, 0) > 255;
    var v: Byte := xs[0] + val - 255;
    var r := AddSeq(xs, val).0;
    assert r[0] == v && r[1..] == AddSeq(xs[1..], v).0;
    if j > 0 {
      AbsorbsShift(xs, val, v, k);
      AddSeqOverflows(xs[1..], v, k - 1, j - 1);
      CarryShift(xs, val, v, j);
    }
  }
}

=== FILE: images.dfy ===
/** Decoded images as the batch steps see them: a size and an opaque pixel
    identity, the image container that carries the crop rectangle read from
    the file's metadata, the pixel operations the steps delegate to (given as
    parameters: their pixel arithmetic is not modelled), and
    DkImage::resizeImage's decision of what to resample to. */
module Images {
  import opened Text

  /** A QImage: width, height and an identity standing for the pixels. */
  datatype Image = Image(width: nat, height: nat, pixels: nat)

  /** QImage::isNull(). */
  predicate IsNull(img: Image)
  {
    img.width == 0 || img.height == 0
  }

  const NullImage: Image := Image(0, 0, 0)

  /** The crop rectangle stored in the image's metadata. */
  datatype Rect = Rect(x: int, y: int, width: int, height: int)

  predicate IsEmptyRect(r: Rect)
  {
    r.width <= 0 || r.height <= 0
  }

  /** DkImageContainer: the current image and its metadata crop rectangle. */
  datatype Container = Container(image: Image, cropRect: Rect)

  /** DkImageContainer::hasImage(). */
  predicate HasImage(c: Container)
  {
    !IsNull(c.image)
  }

  /** The pixel operations: whether an image converts to an OpenCV matrix,
      resampling to a size, rotation by degrees, mirroring and cropping. */
  datatype ImageOps = ImageOps(
    convertible: Image -> bool,
    resample: (Image, int, int) -> Image,
    rotate: (Image, int) -> Image,
    mirror: (Image, bool, bool) -> Image,
    crop: (Image, Rect) -> Image)

  /** QSize. The default-constructed size is (-1, -1). */
  datatype Size = Size(width: int, height: int)

  const InvalidSize: Size := Size(-1, -1)

  function SizeOf(img: Image): Size
  {
    Size(img.width, img.height)
  }

  /** Both sides multiplied by `factor` and rounded with qRound. */
  function ScaledSize(s: Size, factor: real): Size
  {
    Size(QRound(s.width as real * factor), QRound(s.height as real * factor))
  }

  /** What DkImage::resizeImage does with its arguments. */
  datatype ResizePlan = KeepImage | TooSmall | Resample(target: Size)

  /** DkImage::resizeImage's decision: a factor other than 1 overrides the
      requested size; a target side below one pixel gives a null image. */
  function PlanResize(img: Image, newSize: Size, factor: real): (p: ResizePlan)
    ensures p == KeepImage <==> SizeOf(img) == newSize && factor == 1.0
    ensures p.Resample? ==> p.target.width >= 1 && p.target.height >= 1
    ensures factor != 1.0 && p.Resample? ==> p.target == ScaledSize(SizeOf(img), factor)
    ensures factor != 1.0 && p.TooSmall? ==> ScaledSize(SizeOf(img), factor).width < 1 || ScaledSize(SizeOf(img), factor).height < 1
    ensures factor == 1.0 && p.Resample? ==> p.target == newSize
  {
    if SizeOf(img) == newSize && factor == 1.0 then KeepImage
    else
      var n := if factor != 1.0 then ScaledSize(SizeOf(img), factor) else newSize;
      if n.width < 1 || n.height < 1 then TooSmall else Resample(n)
  }

  /** DkImage::resizeImage (the OpenCV build). A convertible image is
      resampled to the planned size; one that does not convert is scaled to
      the size the caller asked for, whatever the factor. */
  function ResizeImage(ops: ImageOps, img: Image, newSize: Size, factor: real): (r: Image)
    ensures PlanResize(img, newSize, factor) == TooSmall ==> IsNull(r)
    ensures PlanResize(img, newSize, factor) == KeepImage ==> r == img
    ensures PlanResize(img, newSize, factor).Resample? && ops.convertible(img) ==>
      var t := PlanResize(img, newSize, factor).target;
      r == ops.resample(img, t.width, t.height)
    ensures PlanResize(img, newSize, factor).Resample? && !ops.convertible(img) ==>
      r == ops.resample(img, newSize.width, newSize.height)
  {
    match PlanResize(img, newSize, factor)
    case KeepImage => img
    case TooSmall => NullImage
    case Resample(n) =>
      if ops.convertible(img) then ops.resample(img, n.width, n.height)
      else ops.resample(img, newSize.width, newSize.height)
  }

  /** With a factor other than 1 the requested size plays no part for an
      image that converts. */
  lemma ResizeIgnoresSizeWhenScaling(ops: ImageOps, img: Image, s1: Size, s2: Size, factor: real)
    requires factor != 1.0 && ops.convertible(img)
    ensures ResizeImage(ops, img, s1, factor) == ResizeImage(ops, img, s2, factor)
  {
  }

  /** For an image that does not convert, the requested size is what is
      resampled to even when a factor is given: two requests with the same
      factor but different sizes may differ. */
  lemma UnconvertibleUsesRequestedSize(ops: ImageOps, img: Image, newSize: Size, factor: real)
    requires !ops.convertible(img) && factor != 1.0
    requires ScaledSize(SizeOf(img), factor).width >= 1 && ScaledSize(SizeOf(img), factor).height >= 1
    ensures ResizeImage(ops, img, newSize, factor) == ops.resample(img, newSize.width, newSize.height)
  {
  }

  /** A null image can never be scaled by a factor: it has no side to keep. */
  lemma ScalingNullImageGivesNull(ops: ImageOps, img: Image, newSize: Size, factor: real)
    requires factor != 1.0 && img.width == 0
    ensures IsNull(ResizeImage(ops, img, newSize, factor))
  {
    assert QRound(0.0) == 0;
  }
}

=== FILE: input_edit.dfy ===
/** DkInputTextEdit: the text box listing the files of a batch, one per
    line. Its state is the plain text; the file list is read back from it
    line by line, and appending files adds only those not listed yet. */
module InputEdit {
  import opened Text

  /** getFileList: every line that is not blank, in order. */
  function GetFileList(text: string): (files: seq<string>)
    ensures forall k :: 0 <= k < |files| ==> !IsBlank(files[k]) && '\n' !in files[k]
  {
    var lines := Split(text, "\n");
    SplitPartsFree(text, '\n');
    NonBlank(lines)
  }

  /** The parts of a split at one character do not hold that character. */
  lemma {:induction false} SplitPartsFree(s: string, c: char)
    ensures forall k :: 0 <= k < |Split(s, [c])| ==> c !in Split(s, [c])[k]
    decreases |s|
  {
    if |s| >= 1 {
      SplitPartsFree(s[1..], c);
      if s[0] != c {
        var rest := Split(s[1..], [c]);
        assert s[..1] != [c];
        assert Split(s, [c]) == [[s[0]] + rest[0]] + rest[1..];
      }
    }
  }

  /** The entries of `files` that are not listed in `current`, in order;
      repeats inside `files` are kept. */
  function NewFiles(current: seq<string>, files: seq<string>): (r: seq<string>)
    ensures |r| <= |files|
    ensures forall k :: 0 <= k < |r| ==> r[k] !in current && r[k] in files
    ensures forall k :: 0 <= k < |files| && files[k] !in current ==> files[k] in r
    decreases |files|
  {
    if |files| == 0 then []
    else (if files[0] in current then [] else [files[0]]) + NewFiles(current, files[1..])
  }

  /** The new files of two lists handed over one after the other are the
      new files of each, in that order. */
  lemma {:induction false} NewFilesConcat(current: seq<string>, a: seq<string>, b: seq<string>)
    ensures NewFiles(current, a + b) == NewFiles(current, a) + NewFiles(current, b)
    decreases |a|
  {
    if |a| == 0 {
      assert a + b == b;
    } else {
      assert (a + b)[1..] == a[1..] + b;
      NewFilesConcat(current, a[1..], b);
    }
  }

  /** A single file is new exactly when it is not listed. */
  lemma NewFilesOfOne(current: seq<string>, f: string)
    ensures NewFiles(current, [f]) == if f in current then [] else [f]
  {
    assert [f][1..] == [];
  }

  /** QTextEdit::append: a new paragraph after the text, or the first one
      of an empty box. */
  function AppendText(text: string, s: string): (r: string)
    ensures text == "" ==> r == s
    ensures text != "" ==> r == text + "\n" + s
  {
    if text == "" then s else text + "\n" + s
  }

  /** appendFiles: the files not listed yet, joined by line breaks, as one
      new paragraph; nothing happens when every file is listed. */
  function AppendFiles(text: string, files: seq<string>): string
  {
    var nf := NewFiles(GetFileList(text), files);
    if |nf| == 0 then text else AppendText(text, Join(nf, "\n"))
  }

  // ---------------------------------------------------------------------
  // Lemmas

  lemma EmptyTextLists()
    ensures GetFileList("") == []
  {
    assert Split("", "\n") == [""];
    assert IsBlank("");
  }

  /** Appending files without line breaks extends the list by the new files
      that are not blank, and keeps what was listed before. */
  lemma AppendFilesList(text: string, files: seq<string>)
    requires forall k :: 0 <= k < |files| ==> '\n' !in files[k]
    ensures GetFileList(AppendFiles(text, files)) ==
      GetFileList(text) + NonBlank(NewFiles(GetFileList(text), files))
  {
    var nf := NewFiles(GetFileList(text), files);
    if |nf| == 0 {
      assert NonBlank(nf) == [];
    } else {
      NewFilesFree(GetFileList(text), files, '\n');
      assert AppendFiles(text, files) == AppendText(text, Join(nf, "\n"));
      AppendLines(text, nf);
    }
  }

  lemma {:induction false} NewFilesFree(current: seq<string>, files: seq<string>, c: char)
    requires forall k :: 0 <= k < |files| ==> c !in files[k]
    ensures forall k :: 0 <= k < |NewFiles(current, files)| ==> c !in NewFiles(current, files)[k]
    decreases |files|
  {
    if |files| > 0 {
      NewFilesFree(current, files[1..], c);
    }
  }

  /** A paragraph of lines appended to the box adds its non-blank lines. */
  lemma AppendLines(text: string, lines: seq<string>)
    requires |lines| > 0 && forall k :: 0 <= k < |lines| ==> '\n' !in lines[k]
    ensures GetFileList(AppendText(text, Join(lines, "\n"))) == GetFileList(text) + NonBlank(lines)
  {
    SplitJoin(lines, '\n');
    if text == "" {
      EmptyTextLists();
    } else {
      SplitCharConcat(text, '\n', Join(lines, "\n"));
      NonBlankConcat(Split(text, "\n"), lines);
    }
  }

  /** Every non-blank file handed to appendFiles is listed afterwards. */
  lemma AppendedFilesListed(text: string, files: seq<string>, k: nat)
    requires forall j :: 0 <= j < |files| ==> '\n' !in files[j]
    requires k < |files| && !IsBlank(files[k])
    ensures files[k] in GetFileList(AppendFiles(text, files))
  {
    AppendFilesList(text, files);
    var nf := NewFiles(GetFileList(text), files);
    if files[k] !in GetFileList(text) {
      assert files[k] in nf;
      var j :| 0 <= j < |nf| && nf[j] == files[k];
      assert files[k] in NonBlank(nf);
    }
  }

  /** Appending the same files a second time leaves the file list as it is
      (the text may still grow by blank entries, which are never listed). */
  lemma AppendFilesTwice(text: string, files: seq<string>)
    requires forall k :: 0 <= k < |files| ==> '\n' !in files[k]
    ensures GetFileList(AppendFiles(AppendFiles(text, files), files)) == GetFileList(AppendFiles(text, files))
  {
    var t1 := AppendFiles(text, files);
    AppendFilesList(t1, files);
    var nf := NewFiles(GetFileList(t1), files);
    forall k | 0 <= k < |nf|
      ensures IsBlank(nf[k])
    {
      var j :| 0 <= j < |files| && files[j] == nf[k];
      if !IsBlank(files[j]) {
        AppendedFilesListed(text, files, j);
      }
    }
    NonBlankOfBlanks(nf);
  }

  lemma {:induction false} NonBlankOfBlanks(xs: seq<string>)
    requires forall k :: 0 <= k < |xs| ==> IsBlank(xs[k])
    ensures NonBlank(xs) == []
    decreases |xs|
  {
    if |xs| > 0 {
      NonBlankOfBlanks(xs[1..]);
    }
  }

  /** The uniqueness check looks only at the lines already in the box: a
      file given twice in one call is listed twice. */
  lemma RepeatsInOneCallKept(x: string)
    requires !IsBlank(x) && '\n' !in x
    ensures GetFileList(AppendFiles("", [x, x])) == [x, x]
  {
    EmptyTextLists();
    AppendFilesList("", [x, x]);
    assert NewFiles([], [x]) == [x];
    assert NewFiles([], [x, x]) == [x] + NewFiles([], [x]);
    assert NonBlank([x]) == [x];
    assert NonBlank([x, x]) == [x] + NonBlank([x]);
  }
}

=== FILE: save_info.dfy ===
/** DkSaveInfo: where one batch item reads and writes, how existing outputs
    are treated and the temporary back-up of an overwritten output; and the
    per-item records plugins hand back (DkBatchInfo). */
module SaveInfos {
  import opened Wrappers
  import opened FileSystem

  /** What to do when the output file exists already. */
  datatype SaveMode = Overwrite | SkipExisting | DoNotSave

  datatype SaveInfo = SaveInfo(
    inputPath: Path,
    outputPath: Path,
    backupPath: Path,
    mode: SaveMode,
    deleteOriginal: bool,
    inputDirIsOutputDir: bool,
    compression: int)

  /** A save info as the batch dialog builds it, before paths are assigned. */
  function NewSaveInfo(mode: SaveMode, deleteOriginal: bool, inputDirIsOutputDir: bool, compression: int): (si: SaveInfo)
    ensures si.inputPath == "" && si.outputPath == "" && si.backupPath == ""
    ensures si.mode == mode && si.deleteOriginal == deleteOriginal
    ensures si.inputDirIsOutputDir == inputDirIsOutputDir && si.compression == compression
  {
    SaveInfo("", "", "", mode, deleteOriginal, inputDirIsOutputDir, compression)
  }

  /** A record a batch plugin returns for one image, tagged with the run id
      of the plugin action that produced it. */
  datatype BatchInfo = BatchInfo(runId: string, payload: int)

  /** The records of one run id, in order, null records dropped: what
      DkBatchInfo::filter is taken to do (its definition is not part of this
      model). */
  function FilterInfos(infos: seq<Option<BatchInfo>>, runId: string): (r: seq<BatchInfo>)
    ensures |r| <= |infos|
    ensures forall k :: 0 <= k < |r| ==> r[k].runId == runId
    ensures forall k :: 0 <= k < |infos| && infos[k].Some? && infos[k].value.runId == runId ==> infos[k].value in r
    ensures forall k :: 0 <= k < |r| ==> Some(r[k]) in infos
  {
    if |infos| == 0 then []
    else
      var rest := FilterInfos(infos[1..], runId);
      assert forall k :: 1 <= k < |infos| ==> infos[k] == infos[1..][k - 1];
      if infos[0].Some? && infos[0].value.runId == runId then [infos[0].value] + rest else rest
  }

  /** Filtering two lists one after the other gives the two filtered lists
      one after the other: the order of the records is kept. */
  lemma {:induction false} FilterInfosConcat(a: seq<Option<BatchInfo>>, b: seq<Option<BatchInfo>>, runId: string)
    ensures FilterInfos(a + b, runId) == FilterInfos(a, runId) + FilterInfos(b, runId)
    decreases |a|
  {
    if |a| == 0 {
      assert a + b == b;
    } else {
      assert (a + b)[1..] == a[1..] + b;
      FilterInfosConcat(a[1..], b, runId);
    }
  }

  /** A single record is kept exactly when it is not null and carries the
      run id. */
  lemma FilterInfosOfOne(x: Option<BatchInfo>, runId: string)
    ensures FilterInfos([x], runId) == if x.Some? && x.value.runId == runId then [x.value] else []
  {
    assert [x][1..] == [];
  }
}

=== FILE: settings_store.dfy ===
/** QSettings as a map from a key path (enclosing groups, then the key name)
    to a value, with QVariant's conversions and the child-group listing the
    profile loader walks. */
module SettingsStore {
  import opened Wrappers
  import opened Text

  datatype Value = VReal(r: real) | VInt(i: int) | VBool(b: bool) | VString(s: string)

  /** Group path (outermost first) to the keys stored directly in it. */
  type Settings = map<seq<string>, map<string, Value>>

  /** The keys stored directly in `group`. */
  function Keys(st: Settings, group: seq<string>): map<string, Value>
  {
    if group in st then st[group] else map[]
  }

  /** settings.setValue(key, v) inside the groups `group`. */
  function Put(st: Settings, group: seq<string>, key: string, v: Value): (r: Settings)
    ensures Get(r, group, key) == Some(v)
  {
    st[group := Keys(st, group)[key := v]]
  }

  /** Put changes the one key it writes and nothing else. */
  lemma GetPut(st: Settings, group: seq<string>, key: string, v: Value, g: seq<string>, k: string)
    ensures Get(Put(st, group, key, v), g, k) == if g == group && k == key then Some(v) else Get(st, g, k)
  {
  }

  /** Put adds its group to the groups present and leaves the others. */
  lemma PutGroups(st: Settings, group: seq<string>, key: string, v: Value)
    ensures Put(st, group, key, v).Keys == st.Keys + {group}
    ensures |Put(st, group, key, v)[group]| > 0
    ensures forall g :: g in st && g != group ==> Put(st, group, key, v)[g] == st[g]
  {
  }

  /** The stored value, or None when the key is missing. */
  function Get(st: Settings, group: seq<string>, key: string): Option<Value>
  {
    if key in Keys(st, group) then Some(Keys(st, group)[key]) else None
  }

  /** QVariant::toFloat. Text is read as plain decimal notation. */
  function AsReal(v: Value): real
  {
    match v
    case VReal(r) => r
    case VInt(i) => i as real
    case VBool(b) => if b then 1.0 else 0.0
    case VString(s) => ToReal(s)
  }

  /** QVariant::toInt. Text is read with QString::toLongLong and the
      64-bit result cast to int. */
  function AsInt(v: Value): int
  {
    match v
    case VReal(r) => QRound(r)
    case VInt(i) => i
    case VBool(b) => if b then 1 else 0
    case VString(s) => Int32Of(ToLongLong(s))
  }

  /** Text whose 64-bit reading fits in 32 bits reads as QString::toInt
      reads it; past that range it wraps modulo 2^32 instead of giving 0. */
  lemma AsIntOfText(s: string)
    ensures IntMin <= ToLongLong(s) <= IntMax ==> AsInt(VString(s)) == ToInt(s)
    ensures (AsInt(VString(s)) - ToLongLong(s)) % 0x1_0000_0000 == 0
  {
    ToIntWithinLongLong(s);
  }

  /** "2147483648" reads as the smallest int and "4294967297" as 1. */
  lemma TextPastIntWraps()
    ensures AsInt(VString("2147483648")) == IntMin
    ensures AsInt(VString("4294967297")) == 1
  {
    LongLongPastInt();
    TextIntIsCast("2147483648");
    TextIntIsCast("4294967297");
    CastsPastInt();
  }

  /** The cast of 2^31 and of 2^32 + 1. */
  lemma CastsPastInt()
    ensures Int32Of(2147483648) == IntMin
    ensures Int32Of(4294967297) == 1
  {
  }

  lemma TextIntIsCast(s: string)
    ensures AsInt(VString(s)) == Int32Of(ToLongLong(s))
  {
  }

  /** QVariant(QStringList).toString(): the entry of a one-entry list, ""
      otherwise. */
  function ListAsString(list: seq<string>): string
  {
    if |list| == 1 then list[0] else ""
  }

  /** QVariant::toBool. */
  function AsBool(v: Value): bool
  {
    match v
    case VReal(r) => r != 0.0
    case VInt(i) => i != 0
    case VBool(b) => b
    case VString(s) => !(s == "" || s == "0" || ToLower(s) == "false")
  }

  /** QVariant::toString. A real's text form is not modelled. */
  function AsString(v: Value): string
  {
    match v
    case VReal(_) => ""
    case VInt(i) => IntToString(i)
    case VBool(b) => if b then "true" else "false"
    case VString(s) => s
  }

  /** settings.value(key, default).toFloat() and friends. */
  function ReadReal(st: Settings, group: seq<string>, key: string, default: real): real
  {
    match Get(st, group, key) case Some(v) => AsReal(v) case None => default
  }

  function ReadInt(st: Settings, group: seq<string>, key: string, default: int): int
  {
    match Get(st, group, key) case Some(v) => AsInt(v) case None => default
  }

  function ReadBool(st: Settings, group: seq<string>, key: string, default: bool): bool
  {
    match Get(st, group, key) case Some(v) => AsBool(v) case None => default
  }

  function ReadString(st: Settings, group: seq<string>, key: string, default: string): string
  {
    match Get(st, group, key) case Some(v) => AsString(v) case None => default
  }

  /** The names of the groups directly inside `group` that hold a key
      somewhere below them. */
  function ChildGroups(st: Settings, group: seq<string>): set<string>
  {
    set g | g in st && |g| > |group| && g[..|group|] == group && |st[g]| > 0 :: g[|group|]
  }

  /** Lexicographic order of strings by character code (QString's operator<). */
  predicate StrLess(a: string, b: string)
    decreases |a|
  {
    if |a| == 0 then |b| > 0
    else if |b| == 0 then false
    else if a[0] == b[0] then StrLess(a[1..], b[1..])
    else a[0] < b[0]
  }

  /** `xs` lists every element of `s` exactly once, in increasing order: how
      QSettings::childGroups enumerates the groups of an INI file. */
  predicate IsSortedListing(xs: seq<string>, s: set<string>)
  {
    (forall i, j :: 0 <= i < j < |xs| ==> StrLess(xs[i], xs[j])) &&
    (forall i :: 0 <= i < |xs| ==> xs[i] in s) &&
    (forall g :: g in s ==> g in xs)
  }

  lemma {:induction false} StrLessIrreflexive(a: string)
    ensures !StrLess(a, a)
    decreases |a|
  {
    if |a| > 0 {
      StrLessIrreflexive(a[1..]);
    }
  }

  lemma {:induction false} StrLessAsymmetric(a: string, b: string)
    requires StrLess(a, b)
    ensures !StrLess(b, a)
    decreases |a|
  {
    if |a| > 0 && |b| > 0 && a[0] == b[0] {
      StrLessAsymmetric(a[1..], b[1..]);
    }
  }

  /** A set has only one sorted listing. */
  lemma {:induction false} SortedListingUnique(xs: seq<string>, ys: seq<string>, s: set<string>)
    requires IsSortedListing(xs, s) && IsSortedListing(ys, s)
    ensures xs == ys
    decreases |xs|
  {
    if |xs| == 0 {
      if |ys| > 0 {
        assert false;
      }
    } else {
      SortedListingHead(xs, ys, s);
      SortedListingTail(xs, s);
      SortedListingTail(ys, s);
      SortedListingUnique(xs[1..], ys[1..], s - {xs[0]});
      assert xs == [xs[0]] + xs[1..];
      assert ys == [ys[0]] + ys[1..];
    }
  }

  /** Two sorted listings of a set start with the same element. */
  lemma SortedListingHead(xs: seq<string>, ys: seq<string>, s: set<string>)
    requires IsSortedListing(xs, s) && IsSortedListing(ys, s) && |xs| > 0
    ensures |ys| > 0 && xs[0] == ys[0]
  {
    assert xs[0] in s;
    var a, b := xs[0], ys[0];
    assert a in ys && b in xs;
    var j :| 0 <= j < |ys| && ys[j] == a;
    var i :| 0 <= i < |xs| && xs[i] == b;
    if a != b {
      assert i > 0 && j > 0;
      assert StrLess(a, b);
      StrLessAsymmetric(a, b);
      assert false;
    }
  }

  /** The tail of a sorted listing lists the set without its head. */
  lemma SortedListingTail(xs: seq<string>, s: set<string>)
    requires IsSortedListing(xs, s) && |xs| > 0
    ensures IsSortedListing(xs[1..], s - {xs[0]})
  {
    var s' := s - {xs[0]};
    StrLessIrreflexive(xs[0]);
    forall i | 0 <= i < |xs[1..]|
      ensures xs[1..][i] in s'
    {
      assert StrLess(xs[0], xs[i + 1]);
    }
    forall g | g in s'
      ensures g in xs[1..]
    {
      assert g in xs;
      var i :| 0 <= i < |xs| && xs[i] == g;
      assert xs[1..][i - 1] == g;
    }
  }
}

=== FILE: text.dfy ===
/** String and number operations with the semantics of the Qt calls the
    batch code makes: QString split (empty parts kept), join, replace-all,
    trimmed and trimmed-is-empty, toLower, toInt, toFloat on decimal
    notation and number, and qRound. Strings are sequences of characters; no
    Unicode case mapping or locale is modelled. */
module Text {

  /** `sep` occurs in `s` starting at position `i`. */
  predicate OccursAt(s: string, sep: string, i: nat)
  {
    i + |sep| <= |s| && s[i..i + |sep|] == sep
  }

  /** QString::split(sep): cuts at the leftmost non-overlapping occurrences
      of `sep`, keeping empty parts. A one-character separator is handled
      character by character (SplitIsSplitString shows both readings
      agree). */
  function Split(s: string, sep: string): (parts: seq<string>)
    requires |sep| > 0
    ensures |parts| >= 1
  {
    if |sep| == 1 then SplitChar(s, sep[0]) else SplitString(s, sep)
  }

  /** Splitting at one character: each character either ends the current
      part or joins it. */
  function SplitChar(s: string, c: char): (parts: seq<string>)
    ensures |parts| >= 1
    decreases |s|
  {
    if |s| == 0 then [""]
    else
      var rest := SplitChar(s[1..], c);
      if s[0] == c then [""] + rest else [[s[0]] + rest[0]] + rest[1..]
  }

  /** Splitting at a separator of any length, scanning left to right. */
  function SplitString(s: string, sep: string): (parts: seq<string>)
    requires |sep| > 0
    ensures |parts| >= 1
    decreases |s|
  {
    if |s| < |sep| then [s]
    else if s[..|sep|] == sep then [""] + SplitString(s[|sep|..], sep)
    else
      var rest := SplitString(s[1..], sep);
      [[s[0]] + rest[0]] + rest[1..]
  }

  /** QStringList::join(sep). */
  function Join(parts: seq<string>, sep: string): string
  {
    if |parts| == 0 then ""
    else if |parts| == 1 then parts[0]
    else parts[0] + sep + Join(parts[1..], sep)
  }

  /** QString::replace(before, after): replaces every non-overlapping
      occurrence, scanning left to right. A one-character `before` is
      handled character by character (ReplaceIsReplaceString shows both
      readings agree). */
  function ReplaceAll(s: string, before: string, after: string): string
    requires |before| > 0
  {
    if |before| == 1 then ReplaceChar(s, before[0], after) else ReplaceString(s, before, after)
  }

  /** Replacing every occurrence of one character. */
  function ReplaceChar(s: string, c: char, after: string): string
    decreases |s|
  {
    if |s| == 0 then ""
    else (if s[0] == c then after else [s[0]]) + ReplaceChar(s[1..], c, after)
  }

  /** Replacing every non-overlapping occurrence of a string of any length. */
  function ReplaceString(s: string, before: string, after: string): string
    requires |before| > 0
    decreases |s|
  {
    if |s| < |before| then s
    else if s[..|before|] == before then after + ReplaceString(s[|before|..], before, after)
    else [s[0]] + ReplaceString(s[1..], before, after)
  }

  /** The characters QString::trimmed() strips. */
  predicate IsSpace(c: char)
  {
    c == ' ' || c == '\t' || c == '\n' || c == '\r' || c == '\U{B}' || c == '\U{C}'
  }

  /** `s.trimmed().isEmpty()`. */
  predicate IsBlank(s: string)
  {
    forall i :: 0 <= i < |s| ==> IsSpace(s[i])
  }

  /** ASCII lower-casing of one character. */
  function LowerChar(c: char): char
  {
    if 'A' <= c <= 'Z' then (c as int + 32) as char else c
  }

  /** QString::toLower restricted to ASCII letters. */
  function ToLower(s: string): (r: string)
    ensures |r| == |s|
    ensures forall i :: 0 <= i < |s| ==> r[i] == LowerChar(s[i])
  {
    seq(|s|, i requires 0 <= i < |s| => LowerChar(s[i]))
  }

  predicate IsDigit(c: char)
  {
    '0' <= c <= '9'
  }

  predicate AllDigits(s: string)
  {
    forall i :: 0 <= i < |s| ==> IsDigit(s[i])
  }

  function DigitChar(d: nat): char
    requires d < 10
  {
    ('0' as int + d) as char
  }

  /** Decimal rendering of a natural number, most significant digit first. */
  function NatToString(n: nat): (s: string)
    ensures |s| >= 1 && AllDigits(s)
  {
    if n < 10 then [DigitChar(n)] else NatToString(n / 10) + [DigitChar(n % 10)]
  }

  /** QString::number(int). */
  function IntToString(n: int): string
  {
    if n >= 0 then NatToString(n) else "-" + NatToString(-n)
  }

  /** Value of a string of decimal digits. */
  function DigitsValue(s: string): nat
    requires AllDigits(s)
  {
    if |s| == 0 then 0
    else DigitsValue(s[..|s| - 1]) * 10 + (s[|s| - 1] as int - '0' as int)
  }

  /** qRound: rounds half up. */
  function QRound(x: real): (n: int)
    ensures n as real - 0.5 <= x < n as real + 0.5
  {
    (x + 0.5).Floor
  }

  const IntMin: int := -0x8000_0000
  const IntMax: int := 0x7FFF_FFFF
  const LongMin: int := -0x8000_0000_0000_0000
  const LongMax: int := 0x7FFF_FFFF_FFFF_FFFF

  /** The cast of a 64-bit value to a 32-bit int: the value modulo 2^32,
      taken into the 32-bit range. */
  function Int32Of(x: int): (n: int)
    ensures IntMin <= n <= IntMax
    ensures (x - n) % 0x1_0000_0000 == 0
    ensures IntMin <= x <= IntMax ==> n == x
  {
    var n := (x - IntMin) % 0x1_0000_0000 + IntMin;
    assert x - n == (x - IntMin) / 0x1_0000_0000 * 0x1_0000_0000;
    n
  }

  /** `s` without its leading white space. */
  function TrimStart(s: string): (r: string)
    ensures |r| <= |s|
  {
    if |s| > 0 && IsSpace(s[0]) then TrimStart(s[1..]) else s
  }

  /** `s` without its trailing white space. */
  function TrimEnd(s: string): (r: string)
    ensures |r| <= |s|
  {
    if |s| > 0 && IsSpace(s[|s| - 1]) then TrimEnd(s[..|s| - 1]) else s
  }

  /** QString::trimmed(). */
  function Trimmed(s: string): string
  {
    TrimEnd(TrimStart(s))
  }

  /** QString::toInt(): white space around an optional sign followed by at
      least one decimal digit, within the 32-bit range; anything else
      converts to 0. */
  function ToInt(s: string): (n: int)
    ensures IntMin <= n <= IntMax
  {
    ParseInt(Trimmed(s), IntMin, IntMax)
  }

  /** QString::toLongLong(): the same reading within the 64-bit range. */
  function ToLongLong(s: string): (n: int)
    ensures LongMin <= n <= LongMax
  {
    ParseInt(Trimmed(s), LongMin, LongMax)
  }

  /** The conversion of a trimmed string to an integer type whose range is
      lo..hi: out of range or malformed text converts to 0. */
  function ParseInt(s: string, lo: int, hi: int): (n: int)
    requires lo <= 0 <= hi
    ensures lo <= n <= hi
  {
    var neg := |s| > 0 && s[0] == '-';
    var body := if |s| > 0 && (s[0] == '-' || s[0] == '+') then s[1..] else s;
    if |body| == 0 || !AllDigits(body) then 0
    else
      var v := if neg then -(DigitsValue(body) as int) else DigitsValue(body) as int;
      if lo <= v <= hi then v else 0
  }

  /** The position of the first '.' in `s`, or |s| when there is none. */
  function DotIndex(s: string): (i: nat)
    ensures i <= |s| && (i < |s| ==> s[i] == '.')
    ensures forall k :: 0 <= k < i ==> s[k] != '.'
  {
    if |s| == 0 || s[0] == '.' then 0 else 1 + DotIndex(s[1..])
  }

  /** QString::toFloat() on plain decimal notation: white space around an
      optional sign, digits, and an optional point followed by more digits,
      with at least one digit in all; anything else converts to 0. */
  function ToReal(s: string): real
  {
    ParseReal(Trimmed(s))
  }

  /** The conversion of a trimmed string by QString::toFloat. */
  function ParseReal(s: string): real
  {
    var neg := |s| > 0 && s[0] == '-';
    var body := if |s| > 0 && (s[0] == '-' || s[0] == '+') then s[1..] else s;
    var v := UnsignedDecimal(body);
    if neg then -v else v
  }

  /** Digits with an optional point among them, at least one digit in all;
      anything else is 0. */
  function UnsignedDecimal(body: string): real
  {
    var i := DotIndex(body);
    var whole := body[..i];
    var frac := if i < |body| then body[i + 1..] else "";
    if |whole| + |frac| == 0 || !AllDigits(whole) || !AllDigits(frac) then 0.0
    else DecimalValue(whole, frac)
  }

  /** The number written as `whole.frac`. */
  function DecimalValue(whole: string, frac: string): real
    requires AllDigits(whole) && AllDigits(frac)
  {
    DigitsValue(whole) as real + DigitsValue(frac) as real / Pow10(|frac|) as real
  }

  // ---------------------------------------------------------------------
  // Lemmas

  /** TrimStart drops a prefix of white space and stops at the first other
      character. */
  lemma {:induction false} TrimStartShape(s: string)
    ensures var r := TrimStart(s);
      r == s[|s| - |r|..] && IsBlank(s[..|s| - |r|]) && (|r| > 0 ==> !IsSpace(r[0]))
    decreases |s|
  {
    if |s| > 0 && IsSpace(s[0]) {
      TrimStartShape(s[1..]);
      var r := TrimStart(s);
      assert s[1..][..|s| - 1 - |r|] == s[1..|s| - |r|];
    }
  }

  /** TrimEnd drops a suffix of white space and stops at the last other
      character. */
  lemma {:induction false} TrimEndShape(s: string)
    ensures var r := TrimEnd(s);
      r == s[..|r|] && IsBlank(s[|r|..]) && (|r| > 0 ==> !IsSpace(r[|r| - 1]))
    decreases |s|
  {
    if |s| > 0 && IsSpace(s[|s| - 1]) {
      TrimEndShape(s[..|s| - 1]);
    }
  }

  /** The trimmed form neither starts nor ends with white space. */
  lemma TrimmedEnds(s: string)
    ensures var r := Trimmed(s);
      |r| > 0 ==> !IsSpace(r[0]) && !IsSpace(r[|r| - 1])
  {
    var t := TrimStart(s);
    TrimStartShape(s);
    TrimEndShape(t);
    var r := TrimEnd(t);
    if |r| > 0 {
      assert r[0] == t[0];
    }
  }

  /** Trimming removes exactly the white space at the ends: a string that
      neither starts nor ends with white space is its own trimmed form. */
  lemma TrimmedUnpadded(s: string)
    requires |s| > 0 ==> !IsSpace(s[0]) && !IsSpace(s[|s| - 1])
    ensures Trimmed(s) == s
  {
  }

  /** A string trims to nothing exactly when it is all white space. */
  lemma {:induction false} TrimmedEmptyIffBlank(s: string)
    ensures Trimmed(s) == "" <==> IsBlank(s)
  {
    var t := TrimStart(s);
    TrimStartShape(s);
    assert s == s[..|s| - |t|] + t;
    if t != "" {
      TrimEndKeepsFirst(t);
    }
  }

  /** A string that starts with something other than white space keeps a
      character when its end is trimmed. */
  lemma {:induction false} TrimEndKeepsFirst(t: string)
    requires |t| > 0 && !IsSpace(t[0])
    ensures |TrimEnd(t)| > 0
    decreases |t|
  {
    if IsSpace(t[|t| - 1]) {
      TrimEndKeepsFirst(t[..|t| - 1]);
    }
  }

  /** Trimming twice is trimming once. */
  lemma TrimmedIdempotent(s: string)
    ensures Trimmed(Trimmed(s)) == Trimmed(s)
  {
    TrimmedEnds(s);
    TrimmedUnpadded(Trimmed(s));
  }

  /** A number written as decimal digits reads back as that number. */
  lemma ToRealOfIntToString(n: int)
    ensures ToReal(IntToString(n)) == n as real
  {
    var m: nat := if n >= 0 then n else -n;
    var d := NatToString(m);
    DigitsValueOfNatToString(m);
    TrimmedUnpadded(IntToString(n));
    UnsignedDecimalOfDigits(d);
    if n >= 0 {
      ParseRealSigned("", d);
      assert "" + d == d;
    } else {
      ParseRealSigned("-", d);
    }
  }

  /** A sign in front of an unsigned decimal negates it or leaves it. */
  lemma ParseRealSigned(sign: string, body: string)
    requires sign == "" || sign == "-" || sign == "+"
    requires sign == "" && |body| > 0 ==> body[0] != '-' && body[0] != '+'
    ensures ParseReal(sign + body) == if sign == "-" then -UnsignedDecimal(body) else UnsignedDecimal(body)
  {
    assert (sign + body)[|sign|..] == body;
  }

  /** A string of digits reads as its value. */
  lemma UnsignedDecimalOfDigits(whole: string)
    requires AllDigits(whole) && |whole| > 0
    ensures UnsignedDecimal(whole) == DigitsValue(whole) as real
  {
    var i := DotIndex(whole);
    assert i == |whole|;
    assert whole[..i] == whole;
    DecimalValueWhole(whole);
  }

  /** A number without fraction digits is its whole part. */
  lemma DecimalValueWhole(whole: string)
    requires AllDigits(whole)
    ensures DecimalValue(whole, "") == DigitsValue(whole) as real
  {
    assert DigitsValue("") == 0 && Pow10(0) == 1;
  }

  /** Digits, a point and more digits, after an optional sign, read as the
      whole part plus the fraction. */
  lemma ParseRealOfDecimal(sign: string, whole: string, frac: string)
    requires sign == "" || sign == "-" || sign == "+"
    requires AllDigits(whole) && AllDigits(frac) && |whole| + |frac| > 0
    ensures ParseReal(sign + whole + (if frac == "" then "" else "." + frac))
      == if sign == "-" then -DecimalValue(whole, frac) else DecimalValue(whole, frac)
  {
    var body := whole + (if frac == "" then "" else "." + frac);
    assert sign + whole + (if frac == "" then "" else "." + frac) == sign + body;
    if |body| > 0 {
      assert body[0] != '-' && body[0] != '+' by {
        if |whole| > 0 { assert IsDigit(whole[0]); } else { assert body[0] == '.'; }
      }
    }
    ParseRealSigned(sign, body);
    UnsignedDecimalOf(whole, frac);
  }

  /** Digits, a point and more digits read as the whole part plus the
      fraction. */
  lemma UnsignedDecimalOf(whole: string, frac: string)
    requires AllDigits(whole) && AllDigits(frac) && |whole| + |frac| > 0
    ensures UnsignedDecimal(whole + (if frac == "" then "" else "." + frac)) == DecimalValue(whole, frac)
  {
    var body := whole + (if frac == "" then "" else "." + frac);
    DotIndexOfDecimal(whole, frac);
    assert body[..|whole|] == whole;
    if frac != "" {
      assert body[|whole| + 1..] == frac;
    }
  }

  /** The point of a decimal number is found after its whole part. */
  lemma DotIndexOfDecimal(whole: string, frac: string)
    requires AllDigits(whole)
    ensures DotIndex(whole + (if frac == "" then "" else "." + frac)) == |whole|
  {
    var body := whole + (if frac == "" then "" else "." + frac);
    assert forall k :: 0 <= k < |whole| ==> body[k] == whole[k] && IsDigit(whole[k]);
    if frac != "" {
      assert body[|whole|] == '.';
    }
  }

  /** One half written as "0.5", with white space around it, reads as one
      half. */
  lemma HalfReadsAsHalf()
    ensures ToReal(" 0.5 ") == 0.5
  {
    var t := " 0.5 ";
    assert t[1..] == "0.5 " && "0.5 "[..3] == "0.5";
    assert Trimmed(t) == "0.5";
    ParseRealSigned("", "0.5");
    UnsignedDecimalOf("0", "5");
    assert "0" + ("." + "5") == "0.5";
    DecimalHalf();
  }

  lemma DecimalHalf()
    ensures DecimalValue("0", "5") == 0.5
  {
    assert DigitsValue("0") == 0 && DigitsValue("5") == 5 && Pow10(1) == 10;
  }

  /** A signed decimal fraction with digits on both sides of the point. */
  lemma NegativeFraction()
    ensures ToReal("-2.25") == -2.25
  {
    TrimmedUnpadded("-2.25");
    ParseNegativeFraction();
  }

  lemma ParseNegativeFraction()
    ensures ParseReal("-2.25") == -2.25
  {
    assert "-2.25" == "-" + "2.25";
    ParseRealSigned("-", "2.25");
    UnsignedDecimalOf("2", "25");
    assert "2" + ("." + "25") == "2.25";
    DecimalTwoAndAQuarter();
  }

  lemma DecimalTwoAndAQuarter()
    ensures DecimalValue("2", "25") == 2.25
  {
    assert "25"[..1] == "2";
    assert DigitsValue("2") == 2 && DigitsValue("25") == 25 && Pow10(2) == 100;
  }

  /** Reading back a rendered number gives the number. */
  lemma {:induction false} DigitsValueOfNatToString(n: nat)
    ensures DigitsValue(NatToString(n)) == n
  {
    var s := NatToString(n);
    if n >= 10 {
      DigitsValueOfNatToString(n / 10);
      assert s[..|s| - 1] == NatToString(n / 10);
    }
  }

  /** QString::number followed by toInt is the identity on 32-bit values. */
  lemma ToIntOfIntToString(n: int)
    requires IntMin <= n <= IntMax
    ensures ToInt(IntToString(n)) == n
  {
    DigitsValueOfNatToString(if n >= 0 then n else -n);
    TrimmedUnpadded(IntToString(n));
    if n < 0 {
      assert ("-" + NatToString(-n))[1..] == NatToString(-n);
    }
  }

  /** QString::number followed by toLongLong is the identity on 64-bit
      values. */
  lemma LongLongOfIntToString(n: int)
    requires LongMin <= n <= LongMax
    ensures ToLongLong(IntToString(n)) == n
  {
    DigitsValueOfNatToString(if n >= 0 then n else -n);
    TrimmedUnpadded(IntToString(n));
    if n < 0 {
      assert ("-" + NatToString(-n))[1..] == NatToString(-n);
    }
  }

  /** toInt and toLongLong read the same text: they agree where the 64-bit
      reading fits in 32 bits, and toInt gives 0 where it does not. */
  lemma ToIntWithinLongLong(s: string)
    ensures IntMin <= ToLongLong(s) <= IntMax ==> ToInt(s) == ToLongLong(s)
    ensures !(IntMin <= ToLongLong(s) <= IntMax) ==> ToInt(s) == 0
  {
  }

  /** Two numbers just past the 32-bit range, as text. */
  lemma LongLongPastInt()
    ensures ToLongLong("2147483648") == 2147483648
    ensures ToLongLong("4294967297") == 4294967297
  {
    TrimmedUnpadded("2147483648");
    TrimmedUnpadded("4294967297");
    DigitsOfIntMaxPlusOne();
    DigitsOfTwoTo32PlusOne();
  }

  lemma Digits2147()
    ensures DigitsValue("2147") == 2147
  {
    assert DigitsValue("2") == 2 by { assert "2"[..0] == ""; }
    DigitsSnoc("2", '1');
    assert "2" + ['1'] == "21";
    DigitsSnoc("21", '4');
    assert "21" + ['4'] == "214";
    DigitsSnoc("214", '7');
    assert "214" + ['7'] == "2147";
  }

  lemma Digits2147483()
    ensures DigitsValue("2147483") == 2147483
  {
    Digits2147();
    DigitsSnoc("2147", '4');
    assert "2147" + ['4'] == "21474";
    DigitsSnoc("21474", '8');
    assert "21474" + ['8'] == "214748";
    DigitsSnoc("214748", '3');
    assert "214748" + ['3'] == "2147483";
  }

  lemma DigitsOfIntMaxPlusOne()
    ensures DigitsValue("2147483648") == 2147483648
  {
    Digits2147483();
    DigitsSnoc("2147483", '6');
    assert "2147483" + ['6'] == "21474836";
    DigitsSnoc("21474836", '4');
    assert "21474836" + ['4'] == "214748364";
    DigitsSnoc("214748364", '8');
    assert "214748364" + ['8'] == "2147483648";
  }

  lemma Digits4294()
    ensures DigitsValue("4294") == 4294
  {
    assert DigitsValue("4") == 4 by { assert "4"[..0] == ""; }
    DigitsSnoc("4", '2');
    assert "4" + ['2'] == "42";
    DigitsSnoc("42", '9');
    assert "42" + ['9'] == "429";
    DigitsSnoc("429", '4');
    assert "429" + ['4'] == "4294";
  }

  lemma Digits4294967()
    ensures DigitsValue("4294967") == 4294967
  {
    Digits4294();
    DigitsSnoc("4294", '9');
    assert "4294" + ['9'] == "42949";
    DigitsSnoc("42949", '6');
    assert "42949" + ['6'] == "429496";
    DigitsSnoc("429496", '7');
    assert "429496" + ['7'] == "4294967";
  }

  lemma DigitsOfTwoTo32PlusOne()
    ensures DigitsValue("4294967297") == 4294967297
  {
    Digits4294967();
    DigitsSnoc("4294967", '2');
    assert "4294967" + ['2'] == "42949672";
    DigitsSnoc("42949672", '9');
    assert "42949672" + ['9'] == "429496729";
    DigitsSnoc("429496729", '7');
    assert "429496729" + ['7'] == "4294967297";
  }

  /** One more digit at the end multiplies the value by ten and adds it. */
  lemma DigitsSnoc(s: string, c: char)
    requires AllDigits(s) && IsDigit(c)
    ensures AllDigits(s + [c])
    ensures DigitsValue(s + [c]) == DigitsValue(s) * 10 + (c as int - '0' as int)
  {
    assert (s + [c])[..|s|] == s;
  }

  // ---------------------------------------------------------------------
  // The one-character readings agree with the general ones

  /** Splitting character by character is splitting at the one-character
      string. */
  lemma {:induction false} SplitCharIsSplitString(s: string, c: char)
    ensures SplitChar(s, c) == SplitString(s, [c])
    decreases |s|
  {
    if |s| > 0 {
      SplitCharIsSplitString(s[1..], c);
      assert s[..1] == [s[0]];
    }
  }

  /** Split computes the general left-to-right split for every separator. */
  lemma SplitIsSplitString(s: string, sep: string)
    requires |sep| > 0
    ensures Split(s, sep) == SplitString(s, sep)
  {
    if |sep| == 1 {
      SplitCharIsSplitString(s, sep[0]);
      assert sep == [sep[0]];
    }
  }

  /** Replacing character by character is replacing the one-character
      string. */
  lemma {:induction false} ReplaceCharIsReplaceString(s: string, c: char, after: string)
    ensures ReplaceChar(s, c, after) == ReplaceString(s, [c], after)
    decreases |s|
  {
    if |s| > 0 {
      ReplaceCharIsReplaceString(s[1..], c, after);
      assert s[..1] == [s[0]];
    }
  }

  /** ReplaceAll computes the general left-to-right replacement for every
      `before`. */
  lemma ReplaceIsReplaceString(s: string, before: string, after: string)
    requires |before| > 0
    ensures ReplaceAll(s, before, after) == ReplaceString(s, before, after)
  {
    if |before| == 1 {
      ReplaceCharIsReplaceString(s, before[0], after);
      assert before == [before[0]];
    }
  }

  // ---------------------------------------------------------------------
  // Splitting

  /** Splitting a string that does not contain the separator yields it whole. */
  lemma SplitNoOccurrence(s: string, sep: string)
    requires |sep| > 0
    requires forall i :: 0 <= i < |s| ==> !OccursAt(s, sep, i)
    ensures Split(s, sep) == [s]
  {
    SplitStringNoOccurrence(s, sep);
    SplitIsSplitString(s, sep);
  }

  lemma {:induction false} SplitStringNoOccurrence(s: string, sep: string)
    requires |sep| > 0
    requires forall i :: 0 <= i < |s| ==> !OccursAt(s, sep, i)
    ensures SplitString(s, sep) == [s]
    decreases |s|
  {
    if |s| >= |sep| {
      assert !OccursAt(s, sep, 0);
      forall i | 0 <= i < |s[1..]|
        ensures !OccursAt(s[1..], sep, i)
      {
        assert !OccursAt(s, sep, i + 1);
        if i + |sep| <= |s[1..]| {
          assert s[1..][i..i + |sep|] == s[i + 1..i + 1 + |sep|];
        }
      }
      SplitStringNoOccurrence(s[1..], sep);
      assert [s[0]] + s[1..] == s;
    }
  }

  /** A leading part free of the separator is cut off at the first separator. */
  lemma SplitPrefix(a: string, sep: string, b: string)
    requires |sep| > 0
    requires forall i :: 0 <= i < |a| ==> !OccursAt(a + sep + b, sep, i)
    ensures Split(a + sep + b, sep) == [a] + Split(b, sep)
  {
    SplitStringPrefix(a, sep, b);
    SplitIsSplitString(a + sep + b, sep);
    SplitIsSplitString(b, sep);
  }

  lemma {:induction false} SplitStringPrefix(a: string, sep: string, b: string)
    requires |sep| > 0
    requires forall i :: 0 <= i < |a| ==> !OccursAt(a + sep + b, sep, i)
    ensures SplitString(a + sep + b, sep) == [a] + SplitString(b, sep)
    decreases |a|
  {
    var s := a + sep + b;
    if |a| == 0 {
      assert s == sep + b;
      assert s[..|sep|] == sep;
      assert s[|sep|..] == b;
    } else {
      assert !OccursAt(s, sep, 0);
      assert s[..|sep|] != sep;
      assert s[1..] == a[1..] + sep + b;
      forall i | 0 <= i < |a[1..]|
        ensures !OccursAt(a[1..] + sep + b, sep, i)
      {
        assert !OccursAt(s, sep, i + 1);
        assert s[1..][i..i + |sep|] == s[i + 1..i + 1 + |sep|];
      }
      SplitStringPrefix(a[1..], sep, b);
      assert [a[0]] + a[1..] == a;
    }
  }

  /** With a one-character separator, splitting a concatenation around one
      separator character splits each side independently. */
  lemma SplitCharConcat(a: string, c: char, b: string)
    ensures Split(a + [c] + b, [c]) == Split(a, [c]) + Split(b, [c])
  {
    SplitCharConcatRec(a, c, b);
  }

  lemma {:induction false} SplitCharConcatRec(a: string, c: char, b: string)
    ensures SplitChar(a + [c] + b, c) == SplitChar(a, c) + SplitChar(b, c)
    decreases |a|
  {
    var s := a + [c] + b;
    if |a| == 0 {
      assert s[0] == c && s[1..] == b;
    } else {
      SplitCharConcatRec(a[1..], c, b);
      assert s[0] == a[0];
      assert s[1..] == a[1..] + [c] + b;
      var ra := SplitChar(a[1..], c);
      var sb := SplitChar(b, c);
      if a[0] == c {
        assert [""] + (ra + sb) == ([""] + ra) + sb;
      } else {
        ExtendFirstPart([a[0]], ra, sb);
      }
    }
  }

  /** Putting text in front of the first part commutes with appending more
      parts. */
  lemma ExtendFirstPart(x: string, ra: seq<string>, sb: seq<string>)
    requires |ra| >= 1
    ensures var rt := ra + sb; [x + rt[0]] + rt[1..] == ([x + ra[0]] + ra[1..]) + sb
  {
    var rt := ra + sb;
    assert rt[0] == ra[0];
    assert rt[1..] == ra[1..] + sb;
  }

  /** A string without the separator character is one part. */
  lemma {:induction false} SplitCharAbsent(s: string, c: char)
    requires c !in s
    ensures Split(s, [c]) == [s]
    decreases |s|
  {
    if |s| > 0 {
      assert c !in s[1..];
      SplitCharAbsent(s[1..], c);
      assert [s[0]] + s[1..] == s;
    }
  }

  /** Join with a one-character separator, then split: the parts come back
      when none of them contains the separator (the list must be non-empty:
      an empty list joins to "" which splits to [""]). */
  lemma {:induction false} SplitJoin(parts: seq<string>, c: char)
    requires |parts| >= 1
    requires forall k :: 0 <= k < |parts| ==> c !in parts[k]
    ensures Split(Join(parts, [c]), [c]) == parts
    decreases |parts|
  {
    if |parts| == 1 {
      SplitCharAbsent(parts[0], c);
    } else {
      SplitJoin(parts[1..], c);
      SplitCharConcat(parts[0], c, Join(parts[1..], [c]));
      SplitCharAbsent(parts[0], c);
      assert [parts[0]] + parts[1..] == parts;
    }
  }

  /** The empty list does not survive a join/split round trip. */
  lemma SplitJoinEmpty(c: char)
    ensures Split(Join([], [c]), [c]) == [""]
  {
  }

  // ---------------------------------------------------------------------
  // Replacing

  /** Removing every occurrence of one character leaves none of it. */
  lemma {:induction false} ReplaceCharRemoves(s: string, c: char, d: char)
    ensures c !in ReplaceAll(s, [c], "")
    ensures d !in s ==> d !in ReplaceAll(s, [c], "")
    decreases |s|
  {
    if |s| > 0 {
      ReplaceCharRemoves(s[1..], c, d);
      if d !in s {
        assert d !in s[1..];
      }
    }
  }

  /** Replacing a character that does not occur changes nothing. */
  lemma {:induction false} ReplaceCharAbsent(s: string, c: char, after: string)
    requires c !in s
    ensures ReplaceAll(s, [c], after) == s
    decreases |s|
  {
    if |s| > 0 {
      assert c !in s[1..];
      ReplaceCharAbsent(s[1..], c, after);
      assert [s[0]] + s[1..] == s;
    }
  }

  /** Replacing a single character distributes over concatenation. */
  lemma {:induction false} ReplaceCharConcat(a: string, b: string, c: char, after: string)
    ensures ReplaceAll(a + b, [c], after) == ReplaceAll(a, [c], after) + ReplaceAll(b, [c], after)
    decreases |a|
  {
    var s := a + b;
    if |a| > 0 {
      assert s[0] == a[0];
      assert s[1..] == a[1..] + b;
      ReplaceCharConcat(a[1..], b, c, after);
      var h := if a[0] == c then after else [a[0]];
      var x := ReplaceChar(a[1..], c, after);
      var y := ReplaceChar(b, c, after);
      assert h + (x + y) == (h + x) + y;
    } else {
      assert s == b;
    }
  }

  /** Removing a character that occurs once, between two parts free of it,
      joins the parts. */
  lemma RemoveCharBetween(x: string, c: char, y: string)
    requires c !in x && c !in y
    ensures ReplaceAll(x + [c] + y, [c], "") == x + y
  {
    var xc := x + [c];
    ReplaceCharConcat(xc, y, c, "");
    ReplaceCharConcat(x, [c], c, "");
    ReplaceCharAbsent(x, c, "");
    ReplaceCharAbsent(y, c, "");
    ReplaceCharSelf(c, "");
    assert ReplaceAll(xc, [c], "") == x;
  }

  /** A string that is exactly the character is replaced whole. */
  lemma ReplaceCharSelf(c: char, after: string)
    ensures ReplaceAll([c], [c], after) == after
  {
    var s := [c];
    assert s[0] == c && s[1..] == [];
    assert ReplaceChar(s[1..], c, after) == "";
    assert after + "" == after;
  }

  /** Removing a suffix that starts with a character absent from the rest. */
  lemma ReplaceTrailing(body: string, tail: string)
    requires |tail| > 0 && tail[0] !in body
    ensures ReplaceAll(body + tail, tail, "") == body
  {
    ReplaceStringTrailing(body, tail);
    ReplaceIsReplaceString(body + tail, tail, "");
  }

  lemma {:induction false} ReplaceStringTrailing(body: string, tail: string)
    requires |tail| > 0 && tail[0] !in body
    ensures ReplaceString(body + tail, tail, "") == body
    decreases |body|
  {
    var s := body + tail;
    if |body| == 0 {
      assert s == tail;
      assert s[..|tail|] == tail;
      assert s[|tail|..] == "";
    } else {
      assert s[0] == body[0] && body[0] != tail[0];
      assert s[..|tail|] != tail by {
        if |s| >= |tail| { assert s[..|tail|][0] == body[0]; }
      }
      assert s[1..] == body[1..] + tail;
      assert tail[0] !in body[1..];
      ReplaceStringTrailing(body[1..], tail);
      assert [body[0]] + body[1..] == body;
    }
  }

  /** A string holding the separator character splits into at least two
      parts, the first being everything before its first occurrence. */
  lemma SplitCharFirst(s: string, c: char, i: nat)
    requires i < |s| && s[i] == c && c !in s[..i]
    ensures |Split(s, [c])| >= 2
    ensures Split(s, [c])[0] == s[..i]
  {
    assert s == s[..i] + [c] + s[i + 1..];
    SplitCharConcat(s[..i], c, s[i + 1..]);
    SplitCharAbsent(s[..i], c);
  }

  /** `a + [c] + b` with `c` in neither part splits into the two parts. */
  lemma SplitCharTwo(a: string, c: char, b: string)
    requires c !in a && c !in b
    ensures Split(a + [c] + b, [c]) == [a, b]
  {
    SplitCharConcat(a, c, b);
    SplitCharAbsent(a, c);
    SplitCharAbsent(b, c);
  }

  /** QString::number writes digits and at most a leading minus sign. */
  lemma IntToStringChars(n: int, c: char)
    requires !IsDigit(c) && c != '-'
    ensures c !in IntToString(n)
  {
    var d := NatToString(if n >= 0 then n else -n);
    assert forall k :: 0 <= k < |d| ==> d[k] != c;
  }

  /** 10 to the power `n`. */
  function Pow10(n: nat): (p: nat)
    ensures p >= 1
  {
    if n == 0 then 1 else 10 * Pow10(n - 1)
  }

  /** A natural number is written with at most `k` digits exactly when it is
      below 10^k. */
  lemma {:induction false} NatToStringLength(n: nat, k: nat)
    requires k >= 1
    ensures |NatToString(n)| <= k <==> n < Pow10(k)
    decreases n
  {
    if n >= 10 {
      if k == 1 {
        assert Pow10(1) == 10;
        assert |NatToString(n / 10)| >= 1;
      } else {
        NatToStringLength(n / 10, k - 1);
        assert n < Pow10(k) <==> n / 10 < Pow10(k - 1);
      }
    } else {
      assert Pow10(k) >= 10 by {
        assert Pow10(k) == 10 * Pow10(k - 1);
      }
    }
  }

  /** The entries of a list that are not blank, in order. */
  function NonBlank(xs: seq<string>): (r: seq<string>)
    ensures |r| <= |xs|
    ensures forall k :: 0 <= k < |r| ==> !IsBlank(r[k]) && r[k] in xs
    ensures forall k :: 0 <= k < |xs| && !IsBlank(xs[k]) ==> xs[k] in r
  {
    if |xs| == 0 then []
    else (if IsBlank(xs[0]) then [] else [xs[0]]) + NonBlank(xs[1..])
  }

  lemma {:induction false} NonBlankConcat(a: seq<string>, b: seq<string>)
    ensures NonBlank(a + b) == NonBlank(a) + NonBlank(b)
    decreases |a|
  {
    if |a| > 0 {
      assert (a + b)[1..] == a[1..] + b;
      NonBlankConcat(a[1..], b);
    } else {
      assert a + b == b;
    }
  }

  lemma ToLowerConcat(a: string, b: string)
    ensures ToLower(a + b) == ToLower(a) + ToLower(b)
  {
  }

  /** `sub` occurs somewhere in `s`. */
  predicate Contains(s: string, sub: string)
    decreases |s|
  {
    |sub| <= |s| && (s[..|sub|] == sub || (|s| > 0 && Contains(s[1..], sub)))
  }

  lemma {:induction false} ContainsMiddle(x: string, y: string, z: string)
    ensures Contains(x + y + z, y)
    decreases |x|
  {
    var s := x + y + z;
    if |x| == 0 {
      assert s[..|y|] == y;
    } else {
      assert s[1..] == x[1..] + y + z;
      ContainsMiddle(x[1..], y, z);
    }
  }
}

=== FILE: transform_widget.dfy ===
/** DkBatchTransformWidget: the transform page of the batch dialog. The four
    rotation radio buttons form an exclusive group, so the page holds one
    rotation choice and three check boxes. It hands its state to a transform
    step and reads a transform step back from a profile. */
module TransformWidget {
  import opened Wrappers
  import opened BatchSteps

  /** The checked radio button of the rotation group. */
  datatype Rotation = NoRotation | RotateLeft | RotateRight | Rotate180

  datatype TransformPage = TransformPage(rotation: Rotation, flipH: bool, flipV: bool, crop: bool)

  /** The angles getAngle can report. */
  predicate IsPageAngle(a: int)
  {
    a == 0 || a == -90 || a == 90 || a == 180
  }

  /** getAngle: counter-clockwise is -90, clockwise 90. */
  function GetAngle(w: TransformPage): (a: int)
    ensures IsPageAngle(a)
    ensures a == 0 <==> w.rotation == NoRotation
  {
    match w.rotation
    case NoRotation => 0
    case RotateLeft => -90
    case RotateRight => 90
    case Rotate180 => 180
  }

  /** The button that shows a rotation angle. */
  function RotationOf(a: int): (r: Rotation)
    requires IsPageAngle(a)
  {
    if a == 0 then NoRotation else if a == -90 then RotateLeft else if a == 90 then RotateRight else Rotate180
  }

  /** applyDefault: no rotation, nothing checked. */
  const DefaultPage: TransformPage := TransformPage(NoRotation, false, false, false)

  /** hasUserInput: a rotation or any box checked. */
  predicate HasUserInput(w: TransformPage)
  {
    w.rotation != NoRotation || w.flipH || w.flipV || w.crop
  }

  /** transferProperties: a transform step with the page's settings. */
  function TransferProperties(w: TransformPage): (t: Step)
    ensures t.Transform? && t.angle == GetAngle(w)
    ensures t.hFlip == w.flipH && t.vFlip == w.flipV && t.cropFromMetadata == w.crop
  {
    Transform(GetAngle(w), w.flipH, w.flipV, w.crop)
  }

  /** loadProperties as the code has it: -90, 90 and 180 all check the
      counter-clockwise button, 0 leaves the rotation as it is, and any
      other angle is an error (the check boxes are still loaded). A missing
      step is an error that changes nothing. */
  function LoadPropertiesAsWritten(w: TransformPage, t: Option<Step>): (r: (bool, TransformPage))
    requires t.Some? ==> t.value.Transform?
    ensures t.None? ==> r == (false, w)
    ensures t.Some? ==> (r.0 <==> IsPageAngle(t.value.angle))
    ensures t.Some? ==> r.1.flipH == t.value.hFlip && r.1.flipV == t.value.vFlip && r.1.crop == t.value.cropFromMetadata
  {
    match t
    case None => (false, w)
    case Some(s) =>
      var rotation := if s.angle == -90 || s.angle == 90 || s.angle == 180 then RotateLeft else w.rotation;
      (IsPageAngle(s.angle), TransformPage(rotation, s.hFlip, s.vFlip, s.cropFromMetadata))
  }

  /** loadProperties with each angle checking its own button. */
  function LoadProperties(w: TransformPage, t: Option<Step>): (r: (bool, TransformPage))
    requires t.Some? ==> t.value.Transform?
    ensures t.None? ==> r == (false, w)
    ensures t.Some? ==> (r.0 <==> IsPageAngle(t.value.angle))
    ensures t.Some? && !r.0 ==> r.1.rotation == w.rotation
    ensures t.Some? ==> r.1.flipH == t.value.hFlip && r.1.flipV == t.value.vFlip && r.1.crop == t.value.cropFromMetadata
  {
    match t
    case None => (false, w)
    case Some(s) =>
      var rotation := if IsPageAngle(s.angle) && s.angle != 0 then RotationOf(s.angle) else w.rotation;
      (IsPageAngle(s.angle), TransformPage(rotation, s.hFlip, s.vFlip, s.cropFromMetadata))
  }

  // ---------------------------------------------------------------------
  // Lemmas

  /** The page reports user input exactly when the step it produces is
      active, so the batch chain includes the transform just then. */
  lemma TransferActiveIffUserInput(w: TransformPage)
    ensures IsActive(TransferProperties(w)) <==> HasUserInput(w)
  {
  }

  /** Distinct rotation buttons report distinct angles. */
  lemma GetAngleInjective(a: TransformPage, b: TransformPage)
    requires GetAngle(a) == GetAngle(b)
    ensures a.rotation == b.rotation
  {
  }

  /** RotationOf is the inverse of getAngle. */
  lemma RotationOfGetAngle(w: TransformPage)
    ensures RotationOf(GetAngle(w)) == w.rotation
  {
  }

  /** With each angle checking its own button, a transform step written by
      the page and loaded into the default page comes back unchanged. */
  lemma TransferLoadRoundTrip(w: TransformPage)
    ensures LoadProperties(DefaultPage, Some(TransferProperties(w))) == (true, w)
  {
  }

  /** The same for any step with a page angle: the loaded page transfers
      back into the step. */
  lemma LoadTransferRoundTrip(t: Step)
    requires t.Transform? && IsPageAngle(t.angle)
    ensures TransferProperties(LoadProperties(DefaultPage, Some(t)).1) == t
  {
  }

  /** As written, a clockwise rotation is loaded as a counter-clockwise one:
      a profile saved with 90 runs with -90 after it is loaded. */
  lemma ClockwiseLoadsAsCounterClockwise()
    ensures var w := TransformPage(RotateRight, false, false, false);
      var r := LoadPropertiesAsWritten(DefaultPage, Some(TransferProperties(w)));
      r.0 && GetAngle(r.1) == -90 && GetAngle(w) == 90
  {
  }

  /** As written, the angle of the loaded page is -90 for every non-zero
      angle: only 0 and -90 survive. */
  lemma AsWrittenAngleCollapses(t: Step)
    requires t.Transform? && IsPageAngle(t.angle)
    ensures var r := LoadPropertiesAsWritten(DefaultPage, Some(t));
      GetAngle(r.1) == (if t.angle == 0 then 0 else -90)
  {
  }
}

=== FILE: wrappers.dfy ===
/** The optional-value datatype used wherever the program hands back a null
    pointer, an empty object or an undefined read. */
module Wrappers {

  datatype Option<+T> = None | Some(value: T)
  {
    /** The wrapped value, or `default` when there is none. */
    function GetOr(default: T): T
    {
      match this
      case Some(v) => v
      case None => default
    }
  }
}
